=== FILE: README.md ===
# pywp core, modelled in Dafny

pywp plans J-profile directional wells: vertical, then build, then hold. It reads target
points from the WELLTRACK keyword of an Eclipse schedule file. It checks that the surface
point, the entry point t1 and the end point t3 lie in one vertical section. It solves
for the build radius and samples the three segments on a measured-depth (MD) grid. It
computes positions with the minimum-curvature method and checks the resulting survey
against per-segment dogleg-severity (DLS) ceilings.

Around that core sit several helpers:

- a depth-based classification of a well (trajectory type and drilling complexity);
- the configuration helpers the interface uses;
- the translation of solver error messages into Russian diagnostics;
- the batch evaluator that plans every selected WELLTRACK record;
- the helpers that choose equal-scale axis ranges and tick positions for the 3D view.

Each source module has one Dafny module:

| Dafny module | models |
|---|---|
| `Wrappers` | `Option`, `Result` and `Outcome`, used for every error path |
| `Text` | Python's `str.strip`, `str.split`, `str.splitlines`, `in` and `str.split(sep, 1)` on strings |
| `Numeric` | the float model (`Finite`, `±inf`, `NaN`), the elementary functions as a parameter, and small real helpers |
| `Models` | `Point3D`, `TrajectoryConfig` and a DLS limit entry |
| `EclipseWelltrack` | the WELLTRACK reader and `welltrack_points_to_targets` |
| `Classification` | interpolated depth limits, trajectory type and complexity |
| `Segments` | the MD grid and the vertical, hold, build and horizontal segments |
| `Trajectory` | assembly of segment blocks into one station table |
| `Mcm` | azimuth wrapping, dogleg, ratio factor, DLS, minimum-curvature positions |
| `Planner` | the J-profile planner: configuration check, geometry, solution, summary, validation |
| `PlannerConfig` | build-DLS bound normalisation and the per-segment ceilings |
| `SolverDiagnostics` | splitting and translating solver error messages |
| `WelltrackBatch` | evaluation of selected records into result rows and successful plans |
| `PlotAxes` | equal-scale axis ranges and "nice" tick steps |

Numbers are Dafny `real`s. Trigonometry, `arccos`, `arctan2`, `sqrt` and `log10` are
not computed. They are fields of an `Elementary` record that every caller passes in, and
each lemma that needs an identity of them (for example `sin² + cos² = 1` at one angle)
states it as a precondition at the points it uses. Text-to-float conversion is a
`FloatParser` parameter, and so are the regular-expression recognisers of the diagnostics
and the planner called by the batch evaluator.

## Model

| member | source | states |
|---|---|---|
| Text.Strip | pywp/eclipse_welltrack.py:85-87 | the result neither begins nor ends with whitespace and fits after the leading whitespace |
| Text.StripShape | pywp/eclipse_welltrack.py:85-87 | the result is the contiguous slice of the input after its leading whitespace, and only whitespace lies outside it |
| Text.StripIdempotent | pywp/eclipse_welltrack.py:85-87 | stripping a stripped string changes nothing |
| Text.StripUnchanged | pywp/eclipse_welltrack.py:85-87 | a string with no surrounding whitespace is its own strip |
| Text.Words | pywp/eclipse_welltrack.py:186-192 | every word of `str.split()` is nonempty and contains no whitespace |
| Text.WordCharsFromText | pywp/eclipse_welltrack.py:186-192 | every character of every word occurs in the input |
| Text.WordsAroundSpace | pywp/eclipse_welltrack.py:186-192 | splitting at a whitespace character splits the word list there |
| Text.WordsOfWord | pywp/eclipse_welltrack.py:186-192 | a single nonempty word splits to itself |
| Text.SplitLines | pywp/eclipse_welltrack.py:83 | no resulting line contains a line break, and only the empty text has no lines |
| Text.SplitLinesJoinTerminated | pywp/eclipse_welltrack.py:83 | lines without breaks, each terminated by a newline and joined, split back into the same lines |
| Text.FindFrom | pywp/solver_diagnostics.py:28-30 | the result is the first occurrence at or after the start position, and None means there is none |
| Text.SplitOnce | pywp/solver_diagnostics.py:28-30 | with a separator present, head + separator + tail rebuilds the input and the separator does not start inside the head; without one, the head is the whole input |
| Text.SplitOnceHeadFree | pywp/solver_diagnostics.py:28-30 | for a nonempty separator, the head holds no occurrence of the separator |
| Text.DecimalString | pywp/welltrack_batch.py:81-84 | `str(n)` is a nonempty run of digits with a leading zero only for 0 |
| Text.Lower | pywp/planner.py:193-194 | `str.lower` on ASCII: each character of the result is the lower-case partner of an upper-case letter and any other character unchanged, with no upper-case letter left |
| Text.LowerIdempotent | pywp/planner.py:193-194 | lowering twice equals lowering once |
| Text.LowerInjective | pywp/planner.py:193-194 | on text without lower-case letters, equal lower cases mean equal texts |
| Text.DecimalRoundTrip | pywp/welltrack_batch.py:81-84 | the decimal rendering of n reads back as n |
| EclipseWelltrack.CleanLine | pywp/eclipse_welltrack.py:85-87 | the cleaned line holds no `--` comment marker and has no surrounding whitespace |
| EclipseWelltrack.CommentTextIgnored | pywp/eclipse_welltrack.py:85-87 | whatever follows the first `--` has no effect on the cleaned line |
| EclipseWelltrack.NoCommentLine | pywp/eclipse_welltrack.py:85-87 | a line without a comment marker is only stripped |
| EclipseWelltrack.HeaderRest | pywp/eclipse_welltrack.py:10 | a line is a header iff it begins with WELLTRACK in any letter case (a Kelvin sign may stand for K) and no ASCII word character follows the keyword; the rest is what follows the keyword |
| EclipseWelltrack.ParseQuotedName | pywp/eclipse_welltrack.py:167-176 | a missing closing quote is reported iff no matching quote follows; otherwise, with j the first closing quote, the name is the stripped text between the quotes, rejected as empty iff that strip is empty, and the remainder is the stripped text after j; a name is free of the quote character |
| EclipseWelltrack.QuotedNameRoundTrip | pywp/eclipse_welltrack.py:167-176 | quoting a name free of the quote character and parsing it gives back the stripped name and the stripped remainder |
| EclipseWelltrack.ParseBareName | pywp/eclipse_welltrack.py:178-183 | the name is the first whitespace-delimited word, and a lone `/` or `;` is rejected as a missing name |
| EclipseWelltrack.ParseWellName | pywp/eclipse_welltrack.py:162-183 | a blank rest is a missing name; after stripping, a leading quote selects the quoted form and anything else the bare form |
| EclipseWelltrack.BareNameRoundTrip | pywp/eclipse_welltrack.py:178-183 | a word followed by a space and anything parses back to that word |
| EclipseWelltrack.PadWithoutTerminator | pywp/eclipse_welltrack.py:187 | text without `/` or `;` is left unchanged by the padding |
| EclipseWelltrack.PadAroundTerminator | pywp/eclipse_welltrack.py:187 | a `/` or `;` is surrounded by one space on each side and the text around it is padded independently |
| EclipseWelltrack.PadAppend | pywp/eclipse_welltrack.py:187 | padding distributes over concatenation |
| EclipseWelltrack.TokenizeAtTerminator | pywp/eclipse_welltrack.py:186-192 | a `/` or `;` always becomes a token of its own, splitting the tokens on either side |
| EclipseWelltrack.TokensIsolated | pywp/eclipse_welltrack.py:186-192 | every token is nonempty and whitespace-free, and a token containing a terminator is exactly that terminator |
| EclipseWelltrack.ParseValue | pywp/eclipse_welltrack.py:65-76 | a value parses exactly when the float parser accepts the token; otherwise the error names the well, the token and the line |
| EclipseWelltrack.ParsePoints | pywp/eclipse_welltrack.py:65-76 | parsing succeeds iff every token parses; each point is built from its four consecutive tokens; a failure names the first token the parser rejects |
| EclipseWelltrack.FirstUnparsed | pywp/eclipse_welltrack.py:65-76 | the position of the first rejected token: every token before it parses and the one there does not |
| EclipseWelltrack.ValidateRecordMd | pywp/eclipse_welltrack.py:195-211 | a record passes iff every MD is finite and no MD falls below the previous one by more than the tolerance; a failure names the first offending point |
| EclipseWelltrack.FinalizeRecord | pywp/eclipse_welltrack.py:56-81 | a value count not divisible by four is the only source of a value-count error; with a count divisible by four, a rejected token fails the record naming the first one; a finished record has one point per four values and valid MDs |
| EclipseWelltrack.CloseRecord | pywp/eclipse_welltrack.py:56-81 | closing with no open record changes nothing; otherwise it succeeds iff the record finalises, appends exactly the finalised record, and a failure is the finalisation error |
| EclipseWelltrack.ConsumeTokens | pywp/eclipse_welltrack.py:106-110 | consuming tokens never removes records already read, and without a terminator the open record only collects the tokens |
| EclipseWelltrack.ConsumeQueued | pywp/eclipse_welltrack.py:186-192 | tokens without a terminator are queued on the open record, or dropped when none is open, before the rest is consumed |
| EclipseWelltrack.TerminatorCloses | pywp/eclipse_welltrack.py:186-192 | a terminator closes the open record with every token queued since its header, including the ones earlier on the same line; a finalisation error stops consumption, and otherwise the rest is read with no record open |
| EclipseWelltrack.ProcessHeader | pywp/eclipse_welltrack.py:89-101 | a header first closes the open record, whose error is the error; then a name error is the error; otherwise the record named by the header opens with no values, and the header's tail is read into it; earlier records are kept |
| EclipseWelltrack.ProcessLine | pywp/eclipse_welltrack.py:85-110 | an empty line, and a non-header line outside a record, change nothing; a header line is handled as a header; any other line inside a record has its tokens read into that record |
| EclipseWelltrack.ProcessLines | pywp/eclipse_welltrack.py:83-110 | the lines are read in order: the first line whose reading fails gives the error, otherwise reading goes on from the state it leaves; records are only ever appended |
| EclipseWelltrack.ParseWelltrackText | pywp/eclipse_welltrack.py:51-115 | an error of the line loop is the error; otherwise the record still open at the end is finalised at the last line number (1 for empty text), and its error is the error or its record follows the records already read |
| EclipseWelltrack.NoHeaderNoRecords | pywp/eclipse_welltrack.py:103-104 | text without a WELLTRACK header yields no records |
| EclipseWelltrack.QueuedWithoutTerminator | pywp/eclipse_welltrack.py:186-192 | tokens without a terminator never fail: they join the open record in order, or are dropped when none is open |
| EclipseWelltrack.HeaderOpensRecord | pywp/eclipse_welltrack.py:89-101 | a header whose name parses and whose tail holds no terminator opens exactly the named record, holding the tail's tokens, after the closed records |
| EclipseWelltrack.DataLinesQueued | pywp/eclipse_welltrack.py:103-110 | lines of values inside an open record only add their tokens to it, in line order |
| EclipseWelltrack.SingleRecordText | pywp/eclipse_welltrack.py:51-115 | a text made of a header, lines of values and a `/` line gives exactly one record, named by the header and holding the header tail's values then the lines' values, or the error finalising it reports at the `/` line |
| EclipseWelltrack.DroppedWhileClosed | pywp/eclipse_welltrack.py:103-104 | body tokens outside a record are ignored |
| EclipseWelltrack.TokensAfterTerminatorDropped | pywp/eclipse_welltrack.py:106-110 | after a terminator closes a record, the tokens later on that line are ignored |
| EclipseWelltrack.CommentsAndPaddingIgnored | pywp/eclipse_welltrack.py:83-87 | two texts whose lines clean to the same content parse to the same result |
| EclipseWelltrack.SortPointsByMd | pywp/eclipse_welltrack.py:131-133 | the sorted points are a permutation of the input, in nondecreasing MD |
| EclipseWelltrack.SortSortedIsIdentity | pywp/eclipse_welltrack.py:131-133 | points already in MD order are left as they are |
| EclipseWelltrack.PointsToTargets | pywp/eclipse_welltrack.py:118-159 | anything other than three points is a point-count error; in file order the targets are S, t1, t3 as given, with finite and strictly increasing MD; in sort mode the conversion succeeds iff the three MDs are finite and, once sorted, rise by more than the tolerance at each step |
| EclipseWelltrack.ModesAgreeOnIncreasingMd | pywp/eclipse_welltrack.py:131-142 | for points already strictly increasing in MD, both ordering modes give the same targets |
| EclipseWelltrack.SortedPermutationUnique | pywp/eclipse_welltrack.py:131-133 | a list sorted by MD equals every permutation of it whose MDs strictly increase |
| EclipseWelltrack.SortByMdFindsIncreasingOrder | pywp/eclipse_welltrack.py:131-159 | in sort mode, when some order of the three points has MD rising by more than the tolerance at each step, the targets are S, t1, t3 in that order |
| Classification.AnchorsIncreasing | pywp/classification.py:52-96 | the four anchors span the clamped depth range in strictly increasing vertical depth |
| Classification.ClampGv | pywp/classification.py:99-102 | the result is the input clamped into the anchor range |
| Classification.LerpBounds | pywp/classification.py:105-106 | interpolation gives the left value at 0, the right value at 1, and values between them in between |
| Classification.FindBracket | pywp/classification.py:109-118 | the bracket is the first pair of adjacent anchors that encloses the clamped depth, and its fraction reproduces that depth |
| Classification.InterpolateLimits | pywp/classification.py:121-137 | the limits carry the clamped depth, and reverse targeting is allowed exactly above the shallowest anchor |
| Classification.LimitsInterpolate | pywp/classification.py:121-137 | between two adjacent anchors that enclose the depth, every limit is the linear interpolation of their values at the depth's fraction of the interval |
| Classification.LimitsBetweenAnchors | pywp/classification.py:121-137 | every interpolated limit lies between the bracketing anchors' values |
| Classification.ExactAtAnchors | pywp/classification.py:121-137 | at an anchor depth the limits are that anchor's own |
| Classification.LimitsAt3300 | pywp/classification.py:52-96 | the limits at 3300 m are the table values at that anchor |
| Classification.ReverseDirectionIff | pywp/classification.py:140-148 | the type is reverse direction iff reverse is allowed, the window is nonempty, and the offset lies in it |
| Classification.ComplexityStep | pywp/classification.py:151-164 | the class is ordinary iff the value is within the first threshold, and very complex iff it exceeds both |
| Classification.RankInjective | pywp/classification.py:12-16 | distinct complexity classes have distinct ranks |
| Classification.ComplexityStepMonotone | pywp/classification.py:151-164 | a larger value never gets a lower complexity class |
| Classification.ComplexityFromOffset | pywp/classification.py:151-156 | ordinary iff the offset is within the ordinary maximum; with ordered thresholds, complex iff between them |
| Classification.ComplexityFromHold | pywp/classification.py:159-164 | ordinary iff the hold inclination is within the ordinary maximum; with ordered thresholds, complex iff between them |
| Classification.ClassifyWell | pywp/classification.py:167-183 | the limits are those interpolated at the depth, the offset and hold classes are judged against them, the type is that of the depth and offset, and the overall complexity is the higher-ranked of the two classes |
| Classification.ThresholdsOrdered | pywp/classification.py:121-137 | at every depth the ordinary thresholds are no greater than the complex ones |
| Classification.ClassifyWellMonotone | pywp/classification.py:167-183 | at one depth, a larger offset and a larger hold inclination never lower the complexity |
| Classification.UnknownCodesFallBack | pywp/classification.py:186-197 | an unrecognised code gets the default label |
| Classification.LabelsDistinguish | pywp/classification.py:186-197 | different types, and different complexities, get different labels |
| Segments.ArangeCount | pywp/segments.py:14 | the count of `arange` samples is the number of offsets k·step that fall below the length |
| Segments.Samples | pywp/segments.py:14 | the k-th sample is start + k·step, and there are as many as the count says |
| Segments.MdGrid | pywp/segments.py:9-17 | a length below the tolerance gives only the start; otherwise the samples are followed by an end point close to start + length |
| Segments.GridIncreasing | pywp/segments.py:9-17 | for a positive step the grid is strictly increasing and begins at the start |
| Segments.Length | pywp/segments.py:33-41 | a segment length is never negative; a build with no positive DLS has length 0 |
| Segments.BuildLength | pywp/segments.py:93-97 | the build length times the DLS equals 30 times the inclination change |
| Segments.BuildLengthCharacterised | pywp/segments.py:93-97 | that equation has exactly one solution, the build length |
| Segments.Generate | pywp/segments.py:43-114 | one station per grid depth; vertical stations have inclination 0, holds keep theirs, and a build runs linearly between its end inclinations |
| Segments.BuildIncAtEnds | pywp/segments.py:99-105 | the build inclination is the start value at the start and the target value at the end |
| Segments.BuildEndpoints | pywp/segments.py:99-114 | the first generated build station has the start inclination and the last has the target inclination |
| Segments.BuildIncLinear | pywp/segments.py:104-105 | equal MD steps change the build inclination equally |
| Trajectory.DedupKeepLast | pywp/trajectory.py:27 | deduplication keeps only rows of the input and never adds any |
| Trajectory.DedupDistinct | pywp/trajectory.py:27 | after deduplication no two rows share an MD |
| Trajectory.DedupCoversDepths | pywp/trajectory.py:27 | every MD of the input is still present |
| Trajectory.DedupKeepsLastRow | pywp/trajectory.py:27 | the last row at each MD is the one kept |
| Trajectory.DedupDistinctIsIdentity | pywp/trajectory.py:27 | a table without repeated MDs is unchanged |
| Trajectory.DedupIdempotent | pywp/trajectory.py:27 | deduplicating twice is deduplicating once |
| Trajectory.Advance | pywp/trajectory.py:15-21 | one segment's pass: the rows kept so far are followed by its generated rows, whole when none are kept yet and without the first otherwise; a non-empty block moves the next start to its last MD, an empty one leaves the start where it was |
| Trajectory.AssembleFrom | pywp/trajectory.py:15-21 | the loop over the remaining segments only appends to the rows kept so far, and one segment is enough to give some rows |
| Trajectory.Stations | pywp/trajectory.py:12-28 | no segments is the no-stations error; otherwise the table has distinct MDs |
| Trajectory.FirstBlockWhole | pywp/trajectory.py:16-18 | the first segment's block is taken whole, starting at MD 0 |
| Trajectory.AdvanceChained | pywp/trajectory.py:16-21 | each block continues from the last MD reached, so MDs keep increasing |
| Trajectory.AssemblyRises | pywp/trajectory.py:15-21 | with a positive step the assembled rows are strictly increasing in MD |
| Trajectory.AssembleAppend | pywp/trajectory.py:15-21 | the loop over two lists of segments in turn is the loop over the second started from the state the first leaves |
| Trajectory.AssembleSnoc | pywp/trajectory.py:15-21 | for any step, adding a last segment adds exactly one pass from the state the earlier segments leave, so the rows are built segment by segment, in order |
| Trajectory.LaterBlockAppended | pywp/trajectory.py:16-21 | with a positive step, a later segment adds its generated rows minus the first, sampled from the last MD of the rows kept before it |
| Trajectory.AssemblyEndsAtStart | pywp/trajectory.py:19-21 | with a positive step, the next segment starts at the last kept MD |
| Trajectory.StationsKeepEveryRow | pywp/trajectory.py:23-28 | with a positive step deduplication removes nothing |
| Mcm.WrapAzimuth | pywp/mcm.py:12-13 | the result is in [0, 360) and differs from the input by a whole number of turns |
| Mcm.WrapInRange | pywp/mcm.py:12-13 | an azimuth already in [0, 360) is unchanged |
| Mcm.WrapIdempotent | pywp/mcm.py:12-13 | wrapping twice is wrapping once |
| Mcm.WrapFullTurn | pywp/mcm.py:12-13 | adding a full turn does not change the wrapped azimuth |
| Mcm.ClipUnit | pywp/mcm.py:28 | the value is clamped into [-1, 1] |
| Mcm.DoglegAngle | pywp/mcm.py:16-29 | the dogleg is `arccos` of a value in [-1, 1] |
| Mcm.ParallelDoglegZero | pywp/mcm.py:16-29 | two identical directions have zero dogleg |
| Mcm.RatioFactor | pywp/mcm.py:32-37 | near-zero doglegs use factor 1; otherwise factor·β = 2·tan(β/2) |
| Mcm.RatioFactorEven | pywp/mcm.py:32-37 | the factor is the same for β and -β |
| Mcm.Dls | pywp/mcm.py:40-52 | DLS is defined iff the MD increases, and then DLS·ΔMD = 30·dogleg in degrees |
| Mcm.DlsNonnegative | pywp/mcm.py:40-52 | over a rising interval DLS is defined and non-negative |
| Mcm.ParallelDlsZero | pywp/mcm.py:40-52 | a straight interval has DLS 0 |
| Mcm.Increment | pywp/mcm.py:55-78 | a non-positive MD step gives no displacement |
| Mcm.StraightLineIncrement | pywp/mcm.py:55-78 | along a straight interval the displacement is ΔMD along the common direction |
| Mcm.VerticalIncrement | pywp/mcm.py:55-78 | a vertical interval moves only down, by ΔMD |
| Mcm.SortByMd | pywp/mcm.py:87 | the sorted stations are a permutation of the input, in nondecreasing MD |
| Mcm.SortSortedIsIdentity | pywp/mcm.py:87 | stations already sorted are not reordered |
| Mcm.ComputePositions | pywp/mcm.py:81-113 | missing columns are reported exactly; an empty table is an error; otherwise there is one row per station, sorted by MD, with wrapped azimuths, starting at the surface (N = y, E = x, TVD = z), each step adding the increment |
| Mcm.Wrapped | pywp/mcm.py:88 | wrapping azimuths keeps the MD order |
| Mcm.TrackPrefix | pywp/mcm.py:90-105 | the positions of a prefix of stations are the prefix of the positions |
| Mcm.PrefixAgree | pywp/mcm.py:90-105 | stations that agree on a prefix get the same positions there |
| Mcm.TrackTranslates | pywp/mcm.py:90-105 | moving the start moves every position by the same vector |
| Mcm.SameDepthStaysAtStart | pywp/mcm.py:63-65 | stations all at one MD never leave the start point |
| Mcm.Track | pywp/mcm.py:94-112 | one position per station, starting at the given point, each later one advanced by the minimum-curvature increment of its interval |
| Mcm.VerticalTrack | pywp/mcm.py:90-105 | a vertical table descends by exactly the MD travelled |
| Mcm.DlsDefinedIffDeeper | pywp/mcm.py:116-129 | a row has a DLS iff it is deeper than the row before |
| Mcm.RisingTableHasDls | pywp/mcm.py:116-129 | in a strictly rising table every row after the first has a DLS |
| Mcm.AddDls | pywp/mcm.py:116-129 | one row per station, unchanged, the first with no DLS and every later one with the DLS of the interval ending there |
| Mcm.WithDls | pywp/mcm.py:116-129 | positions and stations are kept, and each row gets the DLS of its station in the table |
| Planner.FirstNegativeLimit | pywp/planner.py:228-230 | the first negative limit from the given position, if there is one |
| Planner.ValidateConfig | pywp/planner.py:215-230 | a configuration passes iff the steps and tolerance are positive, the inclination tolerance is non-negative, the build bounds are ordered and no limit is negative; a bad step is reported first |
| Planner.AzimuthFromPoints | pywp/planner.py:233-239 | overlapping targets in plan are an error; otherwise the azimuth is in [0, 360) |
| Planner.ProjectionKeepsDistance | pywp/planner.py:242-250 | projection onto the section axes keeps the horizontal distance |
| Planner.SurfaceProjectsToOrigin | pywp/planner.py:242-250 | the surface point projects to the origin of the section |
| Planner.Geometry | pywp/planner.py:43-70 | with t1 and t3 apart in plan, the checks come in source order: targets off the section plane, then t1 not ahead of the surface, then t3 not ahead of t1, then an entry inclination outside its window, each giving its own error; passing all of them gives the geometry at the planned azimuth with the entry inclination of the t1-t3 displacement |
| Planner.SectionCheckRedundant | pywp/planner.py:62-63 | the separate positive-section check never fires once t3 is ahead of t1 |
| Planner.DlsFromRadius | pywp/planner.py:258-259 | DLS·π·R = 30·180, and a positive radius gives a positive DLS |
| Planner.DlsRadiusInverse | pywp/planner.py:258-259 | distinct positive radii give distinct DLS |
| Planner.SolveJProfile | pywp/planner.py:100-140 | a solution has a positive radius, a DLS inside the configured bounds and consistent with the radius, a vertical length clamped at 0, and a positive hold; with a valid radius, a DLS out of range, a negative vertical and a zero hold each give their error, in that order, and passing them all gives a solution |
| Planner.SolveFromRadius | pywp/planner.py:118-140 | for a positive radius, the build DLS out of its bounds, a vertical length below the tolerance and a non-positive hold each give their own error, checked in that order; otherwise the profile carries that DLS, the vertical length clamped at 0 and the hold |
| Planner.ProfileSegments | pywp/planner.py:143-160 | the profile is vertical, build, hold, all at the planned azimuth |
| Planner.MdT1IsEndOfBuild | pywp/planner.py:83 | the t1 MD is the total length of the vertical and build segments |
| Planner.Survey | pywp/planner.py:85-95 | the surveyed table is never empty |
| Planner.SurveyColumns | pywp/planner.py:85-95 | the survey has one row per generated station, ordered by MD, starts at the surface with no DLS, carries on each later row the DLS of the interval ending there, and keeps every azimuth in [0, 360) |
| Planner.BuildSummary | pywp/planner.py:163-196 | t1 is judged at the row nearest its MD and t3 at the last row; the inclination target and tolerance come from the configuration; there is one entry per configured segment, under its lower-cased name, with that segment's maximum and ceiling; the total maximum is the largest DLS of all rows (absent iff no row has one), unless a configured segment's name lowers to `total`, whose entry is written later and replaces it |
| Planner.TotalLimitHidesMaximum | pywp/planner.py:185-194 | a configured segment `TOTAL` that no row belongs to replaces the total maximum with 0, although the survey has a positive DLS |
| Planner.NearestRow | pywp/planner.py:170 | the row whose MD is closest to the t1 MD, the first one on ties |
| Planner.MaxDefined | pywp/planner.py:177 | the largest defined DLS, absent iff none is defined |
| Planner.SegmentMaxDls | pywp/planner.py:189-194 | the largest DLS on the segment's rows, or 0 when there is none |
| Planner.SegmentMaxBelowTotal | pywp/planner.py:177-194 | a segment maximum never exceeds the overall maximum |
| Planner.FirstExceeded | pywp/planner.py:209-212 | the first configured segment whose reported maximum exceeds its ceiling by more than the tolerance |
| Planner.AssertSolutionIsValid | pywp/planner.py:199-212 | a summary passes iff both targets are hit, the entry inclination is within tolerance, and the maximum read under each configured segment's lower-cased name is within its ceiling; t1 is checked first |
| Planner.UnusedLimitReportsZero | pywp/planner.py:189-194 | a segment no station belongs to reports a maximum of 0 |
| Planner.Plan | pywp/planner.py:34-97 | a profile error is returned as is; otherwise the result is the realised profile; a returned plan has its azimuth in [0, 360) and a control summary that passes validation |
| Planner.Profile | pywp/planner.py:41-80 | configuration errors come first, then geometry errors, then the solver's; a profile returned can be surveyed |
| Planner.ProfileSteps | pywp/planner.py:41-80 | a failed configuration check, a failed geometry and the solver result each decide the profile, and a profile comes only from a passing check and geometry, at the geometry's azimuth |
| Planner.Realise | pywp/planner.py:82-97 | the plan fails with the validation error exactly when the control survey's summary fails validation; otherwise it returns that summary, the survey at the output step, the profile azimuth and t1 at the end of the build |
| Planner.ValidSummaryMeetsTolerances | pywp/planner.py:163-212 | when no two configured segment names differ only in case, a summary of a survey that passes validation means the row nearest t1 is within tolerance of t1 with the entry inclination in its window, the last row is within tolerance of t3, and every row of a configured segment is within its DLS ceiling |
| Planner.RealisedMeetsTolerances | pywp/planner.py:82-97 | when no two configured segment names differ only in case, a realised plan's control survey meets those tolerances |
| Planner.ValidSummaryWithinDls | pywp/planner.py:189-212 | when no two configured segment names differ only in case, every row of a configured segment in a survey whose summary passes validation has DLS within the ceiling plus the tolerance |
| Planner.CaseVariantLimitHidesExcess | pywp/planner.py:189-212 | with ceilings `HOLD` at 2 and `hold` at 100 on a survey of `HOLD` rows, the later entry overwrites the shared key `hold`, both checks read 0, and the DLS check passes whatever the `HOLD` rows' DLS |
| PlannerConfig.NormalizeBuildDlsBounds | pywp/planner_config.py:24-30 | the two bounds, in increasing order |
| PlannerConfig.NormalizeIdempotent | pywp/planner_config.py:24-30 | normalising twice is normalising once |
| PlannerConfig.NormalizeSymmetric | pywp/planner_config.py:24-30 | the order the bounds are given in does not matter |
| PlannerConfig.BuildSegmentDlsLimits | pywp/planner_config.py:33-44 | eight roles in order: 1 on the vertical, 2 on holds and the horizontal, the non-negative build maximum on every build and drop role |
| PlannerConfig.BuildRolesReadBack | pywp/planner_config.py:33-44 | looking up any build role returns the shared build ceiling |
| PlannerConfig.Lookup | pywp/planner_config.py:33-44 | a key lookup finds an entry with that key, and fails iff there is none |
| PlannerConfig.BuildTrajectoryConfig | pywp/planner_config.py:47-84 | bounds are ordered, the ceilings derive from the upper bound, and every other field passes through |
| PlannerConfig.BuiltConfigValidity | pywp/planner_config.py:47-84 | a configuration built by the helper fails the planner's check only through its steps and tolerances |
| PlannerConfig.BuiltLimitsCaseDistinct | pywp/planner_config.py:33-45 | the helper's role names are distinct even after lower-casing, so the DLS guarantee of a valid summary holds for its limits |
| SolverDiagnostics.BulletsOf | pywp/solver_diagnostics.py:31-35 | each bullet is stripped; there are none iff no line is a bullet line; a leading bullet line gives the first bullet, its text without the dash |
| SolverDiagnostics.BulletsOfAppend | pywp/solver_diagnostics.py:31-35 | the bullets of two runs of lines are those of the first followed by those of the second |
| SolverDiagnostics.BulletsOfOne | pywp/solver_diagnostics.py:31-35 | one line gives its bullet text iff it is a bullet line, and nothing otherwise |
| SolverDiagnostics.SplitError | pywp/solver_diagnostics.py:23-37 | a blank message has no title and no bullets; without the marker the whole stripped message is the title; title and bullets are stripped |
| SolverDiagnostics.SplitErrorAtFirstMarker | pywp/solver_diagnostics.py:28-36 | with the marker, the title is the stripped text before its first occurrence and the bullets come from the lines after it |
| SolverDiagnostics.SplitComposed | pywp/solver_diagnostics.py:23-37 | a title and bullets written in the solver's layout split back into that title and those bullets |
| SolverDiagnostics.TranslateTitle | pywp/solver_diagnostics.py:40-62 | a blank text, or one containing no known phrase, gets the generic title; otherwise the title is the translation of the first known phrase the text contains |
| SolverDiagnostics.TranslateWith | pywp/solver_diagnostics.py:40-62 | for any phrase table, a blank text or one with no phrase gets the generic title, and otherwise the first contained phrase decides the translation |
| SolverDiagnostics.TranslatesFirstMatch | pywp/solver_diagnostics.py:40-62 | a text containing a phrase, and none of the phrases before it, gets that phrase's translation |
| SolverDiagnostics.GenericTitleIff | pywp/solver_diagnostics.py:40-62 | when no rule translates to the generic title, it is given iff the text is blank or contains no phrase |
| SolverDiagnostics.RuleTitlesAreSpecific | pywp/solver_diagnostics.py:44-61 | no known phrase is translated to the generic title |
| SolverDiagnostics.MissedT1Translated | pywp/solver_diagnostics.py:56-57 | the missed-t1 message gets its own translation |
| SolverDiagnostics.ItemFromText | pywp/solver_diagnostics.py:65-261 | an unrecognised line becomes the fallback item with the line as the reason |
| SolverDiagnostics.Items | pywp/solver_diagnostics.py:266-267 | one item per bullet, in order, each from its own bullet |
| SolverDiagnostics.ParseSolverError | pywp/solver_diagnostics.py:264-276 | one item per bullet; without bullets one item for a non-empty head and none otherwise; the title translates the head; without the marker the title and the single item come from the whole stripped message |
| SolverDiagnostics.ParsedAtFirstMarker | pywp/solver_diagnostics.py:264-276 | with the marker, the title translates the text before it, and the items come from the bullets after it, or from that text when there are none |
| SolverDiagnostics.DiagnosticsRows | pywp/solver_diagnostics.py:279-285 | one row per parsed item, in order, with its reason and action; a plain message gives the single row of its own item |
| SolverDiagnostics.SummarizeProblem | pywp/solver_diagnostics.py:288-292 | the first item's reason, or the title without items; for a plain message, the reason of its own item |
| SolverDiagnostics.ParseComposed | pywp/solver_diagnostics.py:264-276 | a composed message parses to one item per bullet, under the translated title |
| SolverDiagnostics.BlankMessage | pywp/solver_diagnostics.py:24-26 | a blank message gives no rows and the generic summary |
| SolverDiagnostics.UnknownMessageSummarisedVerbatim | pywp/solver_diagnostics.py:258-261 | an unrecognised plain message is summarised as itself, with the fallback action |
| WelltrackBatch.BaseRow | pywp/welltrack_batch.py:61-73 | a fresh row carries the well name and point count, the not-computed status and dashes elsewhere |
| WelltrackBatch.CountMessage | pywp/welltrack_batch.py:81-84 | the message is the fixed prefix, the count in decimal, and a full stop, and the count can be read back |
| WelltrackBatch.HorizontalOffset | pywp/welltrack_batch.py:94 | the offset is finite iff all four plan coordinates are, and is then the plan distance; it is never -inf |
| WelltrackBatch.InfiniteOffsetWins | pywp/welltrack_batch.py:94 | an infinite east difference gives +inf whatever the north coordinates are, NaN included; the same infinity on both sides, or a NaN, gives NaN |
| Numeric.Sub | pywp/welltrack_batch.py:94 | finite operands give their difference; NaN results exactly from a NaN operand or the same infinity on both sides |
| Numeric.Hypot | pywp/welltrack_batch.py:94 | an infinite argument gives +inf, even with NaN; otherwise a NaN gives NaN; finite arguments give the vector length |
| WelltrackBatch.EvaluateRecord | pywp/welltrack_batch.py:75-119 | a wrong point count is a format failure with the count message; a target or planning error is a calculation failure with its message; only an OK row yields a successful plan |
| WelltrackBatch.RowKeepsBaseFields | pywp/welltrack_batch.py:75-119 | the well name and point count always come from the record |
| WelltrackBatch.FormatErrorSkipsPlanner | pywp/welltrack_batch.py:81-84 | a record with the wrong point count never reaches the planner |
| WelltrackBatch.SelectMembership | pywp/welltrack_batch.py:42 | a record is in the selection iff it is in the input and its name is selected |
| WelltrackBatch.SelectAppend | pywp/welltrack_batch.py:42 | selection distributes over concatenation |
| WelltrackBatch.SelectAllKeepsAll | pywp/welltrack_batch.py:42 | selecting every name keeps every record |
| WelltrackBatch.Evaluations | pywp/welltrack_batch.py:45-52 | one evaluation per selected record, in order: each row names its record, a row is a format failure iff the record does not have three points, and a plan comes back iff the row is OK, for the same well; each evaluation is that of its record |
| WelltrackBatch.Evaluate | pywp/welltrack_batch.py:33-54 | one row and one progress report per selected record, in order: row k names the k-th selected record (a selected well), progress k reports position k + 1 of the total, and a row is a format failure iff its record does not have three points; each row is the evaluation of its record |
| WelltrackBatch.SuccessesAreOkRows | pywp/welltrack_batch.py:49-52 | the successful plans correspond one for one to the OK rows, in increasing row order; each is the plan the evaluation of that row's record returned, for the well of its row, and no OK row is missed |
| PlotAxes.SeqMin | pywp/plot_axes.py:12-14 | the minimum is an element and bounds every element from below |
| PlotAxes.SeqMax | pywp/plot_axes.py:12-14 | the maximum is an element and bounds every element from above |
| PlotAxes.EqualizedAxisRanges | pywp/plot_axes.py:6-31 | no ranges for empty data; otherwise x and y share a range, every axis spans the padded common span around the data midpoint, and z runs from deep to shallow |
| PlotAxes.PaddedSpanPositive | pywp/plot_axes.py:16-21 | the padded span is positive |
| PlotAxes.PaddedSpanCoversExtents | pywp/plot_axes.py:16-21 | with non-negative padding the span covers both the plan and the depth extents |
| PlotAxes.ZRangeReversed | pywp/plot_axes.py:23-30 | the depth axis is reversed |
| PlotAxes.RangesContainData | pywp/plot_axes.py:6-31 | every data point lies inside its axis range |
| PlotAxes.NiceTickStep | pywp/plot_axes.py:34-49 | a non-positive span gives step 1; otherwise the step is 1, 2, 5 or 10 times a power of ten |
| PlotAxes.NiceMultiple | pywp/plot_axes.py:37-49 | the chosen multiple is 1, 2, 5 or 10, covers the fraction, and stays below 2.5 times it |
| PlotAxes.NiceStepCoversRawStep | pywp/plot_axes.py:34-49 | the nice step is at least the raw step and less than 2.5 times it |
| PlotAxes.RoundHalfEven | pywp/plot_axes.py:61 | the nearest integer: within one half of the value, strictly unless the value is halfway, and even when it is halfway |
| PlotAxes.RoundHalfEvenUnique | pywp/plot_axes.py:61 | only one integer meets those conditions, so they define round-half-to-even |
| PlotAxes.Round6 | pywp/plot_axes.py:61 | the result is a whole number of millionths, at most 5e-7 from the value; it is strictly nearer unless the value is halfway between two millionths, and then it is the even one |
| PlotAxes.LinearTickValues | pywp/plot_axes.py:52-61 | a non-positive step gives the two ends; otherwise there is at least one tick, and each is within rounding of the grid |
| PlotAxes.TickGridCoversRange | pywp/plot_axes.py:57-58 | the grid starts within one step below the low end, advances by the step, and ends within half a step of the high end |

## Left out

- File and UI I/O: reading files, decoding bytes, Streamlit pages and Plotly figures are not modelled. Text arrives as a Dafny string.
- Floating point: every quantity is an exact real. Rounding, overflow and NaN arithmetic are not modelled. The one exception is the batch offset column: its subtraction and `np.hypot` follow the IEEE rules for infinities and NaN.
- Trigonometric, inverse-trigonometric, square-root and logarithm values come from the `Elementary` parameter. Any identity a lemma needs is one of its preconditions.
- Text-to-float conversion (`float(token)`) is the `FloatParser` parameter, including which spellings of infinity and NaN it accepts.
- EclipseWelltrack.HeaderRest: only ASCII letters, digits and `_` count as word characters after the keyword. Python's `\b` also counts other Unicode letters and digits, so `WELLTRACKé` is a header here but not in the source.
- SolverDiagnostics.ItemFromText: the twenty-odd regular expressions and the Russian texts they produce are a parameter (an ordered list of recognisers). Only the first-match rule and the fallback item are modelled.
- SolverDiagnostics.SplitError: a `None` message is modelled as the empty string.
- Mcm.SortByMd: a stable insertion sort. Pandas' default sort is not guaranteed stable, so the order of rows with equal MD may differ. EclipseWelltrack.SortPointsByMd is stable, as Python's `sorted` is.
- Mcm.ComputePositions: an empty station table is a `NoStations` error. In the source, pandas returns an empty frame and the later indexing fails.
- Planner.Plan: only the J-profile planner is modelled. The TURN and reverse-direction solvers that appear in the solver messages are not part of this model.
- Planner.BuildSummary: the summary is a record, not a dictionary. Its segment entries are keyed by the lower-cased name, and a later entry under the same key is found first, as the dictionary's overwrite does. The one collision with a fixed key, a segment that lowers to `total`, is modelled in `maxDlsTotal`.
- Planner.ValidSummaryWithinDls: the DLS guarantee needs configured segment names that differ other than in letter case. In the source, such names share one summary key, and the later ceiling's reading replaces the earlier one; `CaseVariantLimitHidesExcess` shows a `HOLD` excess passing. `ValidSummaryMeetsTolerances` and `RealisedMeetsTolerances` carry the same condition, and the helper's limits meet it.
- Text.Lower: only ASCII letters change case. Python's `str.lower` also lower-cases other Unicode letters, so two non-ASCII names that differ only in case get different keys here.
- The build segment is named `BUILD`, but the ceiling keys are `BUILD1` and `BUILD2`. As in the source, the build segment is therefore never checked against a ceiling, and a lemma records that an unused key reports 0.
- EclipseWelltrack.PointsToTargets: the order-mode enumeration is a two-constructor datatype. The model checks that every MD is finite before ordering the points, while the source sorts first. Finiteness does not depend on order, so the outcome is the same.
- Classification.TrajectoryTypeLabel and Classification.ComplexityLabel: these have no contract of their own. Their behaviour is stated by `UnknownCodesFallBack` and `LabelsDistinguish`.
- WelltrackBatch.EvaluateRecord: `str(exc)` and the `:.2f` formatting are parameters of the batch environment. The planner is a parameter too, so the batch can be stated for any planner.
- WelltrackBatch.Evaluate: the progress callback is modelled as the returned list of progress reports.
- WelltrackBatch.OkRow: the planner summary has no trajectory type, complexity or hold-inclination keys. The row therefore always shows dashes for the first two and the formatted 0.0 for the third, as the source's defaults do.
- PlotAxes.NiceTickStep: the exponent comes from the `log10` parameter. The bound by the raw step assumes that `log10` is accurate at that one point.
- EclipseWelltrack.ConsumeTokens: after a terminator on a line, the rest of that line's tokens are dropped, as the source does.

=== FILE: classification.dfy ===
/** The depth classification oracle: a fixed table of anchors by vertical depth (GV),
    linear interpolation between the two anchors that bracket a depth, and the two
    verdicts drawn from the interpolated limits — the direction regime and the complexity. */
module Classification {
  import opened Numeric

  datatype Anchor = Anchor(
    gv: real,
    reverseMin: real,
    reverseMax: real,
    ordinaryOffsetMax: real,
    complexOffsetMax: real,
    holdOrdinaryMax: real,
    holdComplexMax: real,
    reverseAllowed: bool)

  /** `InterpolatedLimits`: the same fields as an anchor, at an arbitrary depth. */
  datatype Limits = Limits(
    gv: real,
    reverseMin: real,
    reverseMax: real,
    ordinaryOffsetMax: real,
    complexOffsetMax: real,
    holdOrdinaryMax: real,
    holdComplexMax: real,
    reverseAllowed: bool)

  datatype TrajectoryType = SameDirection | ReverseDirection

  datatype Complexity = Ordinary | Complex | VeryComplex

  datatype WellClassification = WellClassification(
    trajectoryType: TrajectoryType,
    complexity: Complexity,
    byOffset: Complexity,
    byHold: Complexity,
    limits: Limits)

  /** `CLASSIFICATION_ANCHORS`, in increasing GV. */
  const Anchors: seq<Anchor> := [
    Anchor(1000.0, 0.0, 0.0, 1250.0, 1900.0, 37.0, 55.0, false),
    Anchor(2000.0, 120.0, 550.0, 1250.0, 1900.0, 37.0, 55.0, true),
    Anchor(3000.0, 0.0, 700.0, 2000.0, 3200.0, 37.0, 55.0, true),
    Anchor(3600.0, 0.0, 700.0, 2300.0, 3500.0, 35.0, 50.0, true)
  ]

  const GvLow: real := 1000.0
  const GvHigh: real := 3600.0

  lemma AnchorsIncreasing()
    ensures |Anchors| == 4
    ensures Anchors[0].gv == GvLow && Anchors[|Anchors| - 1].gv == GvHigh
    ensures forall i :: 0 <= i < |Anchors| - 1 ==> Anchors[i].gv < Anchors[i + 1].gv
  {
  }

  /** `_clamp_gv`: the depth limited to the table's range. */
  function ClampGv(gv: real): (r: real)
    ensures GvLow <= r <= GvHigh
    ensures GvLow <= gv <= GvHigh ==> r == gv
    ensures gv < GvLow ==> r == GvLow
    ensures gv > GvHigh ==> r == GvHigh
  {
    Min(Max(gv, Anchors[0].gv), Anchors[|Anchors| - 1].gv)
  }

  /** `_lerp`. */
  function Lerp(a: real, b: real, t: real): real {
    a + (b - a) * t
  }

  /** `v` lies between `a` and `b`, in either order. */
  predicate Between(v: real, a: real, b: real) {
    (a <= v <= b) || (b <= v <= a)
  }

  /** Interpolation starts at `a`, ends at `b`, and stays between them in between. */
  lemma LerpBounds(a: real, b: real, t: real)
    ensures t == 0.0 ==> Lerp(a, b, t) == a
    ensures t == 1.0 ==> Lerp(a, b, t) == b
    ensures 0.0 <= t <= 1.0 ==> Between(Lerp(a, b, t), a, b)
  {
    if 0.0 <= t <= 1.0 {
      LerpBetween(a, b, t);
    }
  }

  /** The in-between case of `LerpBounds`. */
  lemma LerpBetween(a: real, b: real, t: real)
    requires 0.0 <= t <= 1.0
    ensures Between(Lerp(a, b, t), a, b)
  {
    var d := b - a;
    ScaleBetween(d, t);
    var y := d * t;
    assert Lerp(a, b, t) == a + y;
    if a <= b {
      assert 0.0 <= y <= d;
    } else {
      assert d <= y <= 0.0;
    }
  }

  /** The pair of anchors that brackets a depth, by index, and the depth's relative
      position between them. */
  datatype Bracket = Bracket(left: nat, right: nat, t: real)

  /** Whether anchors `i` and `i + 1` bracket `g`. */
  predicate Brackets(i: nat, g: real)
    requires i + 1 < |Anchors|
  {
    Anchors[i].gv <= g <= Anchors[i + 1].gv
  }

  /** The loop of `_find_bracket` from the pair at `i` on: the first pair that brackets `g`,
      else the last anchor twice with `t = 0`. */
  function FindBracketFrom(g: real, i: nat): (b: Bracket)
    requires i < |Anchors|
    ensures b.left < |Anchors| && b.right < |Anchors| && 0.0 <= b.t <= 1.0
    ensures b.left + 1 == b.right ==> Brackets(b.left, g) && i <= b.left
    ensures b.left + 1 == b.right ==> forall k :: i <= k < b.left ==> !Brackets(k, g)
    ensures b.left + 1 != b.right ==>
      b == Bracket(|Anchors| - 1, |Anchors| - 1, 0.0) && forall k :: i <= k < |Anchors| - 1 ==> !Brackets(k, g)
    decreases |Anchors| - i
  {
    if i + 1 >= |Anchors| then Bracket(|Anchors| - 1, |Anchors| - 1, 0.0)
    else if Brackets(i, g) then
      var left, right := Anchors[i], Anchors[i + 1];
      var span := right.gv - left.gv;
      var t := if span <= 0.000000001 then 0.0 else (g - left.gv) / span;
      assert span > 0.000000001 ==> g - left.gv <= span;
      Bracket(i, i + 1, t)
    else FindBracketFrom(g, i + 1)
  }

  /** `_find_bracket`. */
  function FindBracket(gv: real): (b: Bracket)
    ensures b.left + 1 == b.right < |Anchors|
    ensures Anchors[b.left].gv <= ClampGv(gv) <= Anchors[b.right].gv
    ensures 0.0 <= b.t <= 1.0
    ensures ClampGv(gv) == Lerp(Anchors[b.left].gv, Anchors[b.right].gv, b.t)
    ensures forall k :: 0 <= k < b.left ==> !Brackets(k, ClampGv(gv))
  {
    var g := ClampGv(gv);
    var b := FindBracketFrom(g, 0);
    assert Brackets(0, g) || Brackets(1, g) || Brackets(2, g);
    var left, right := Anchors[b.left], Anchors[b.right];
    assert right.gv - left.gv > 0.000000001;
    assert g == left.gv + (right.gv - left.gv) * b.t;
    b
  }

  /** `interpolate_limits`. Reverse targets are allowed when either bracketing anchor allows
      them, except at the shallowest depth, which forbids them. */
  function InterpolateLimits(gv: real): (r: Limits)
    ensures r.gv == ClampGv(gv)
    ensures r.reverseAllowed <==> ClampGv(gv) > GvLow
  {
    var b := FindBracket(gv);
    var left, right, t := Anchors[b.left], Anchors[b.right], b.t;
    var g := ClampGv(gv);
    var allowed := if g <= Anchors[0].gv then Anchors[0].reverseAllowed
      else left.reverseAllowed || right.reverseAllowed;
    Limits(
      g,
      Lerp(left.reverseMin, right.reverseMin, t),
      Lerp(left.reverseMax, right.reverseMax, t),
      Lerp(left.ordinaryOffsetMax, right.ordinaryOffsetMax, t),
      Lerp(left.complexOffsetMax, right.complexOffsetMax, t),
      Lerp(left.holdOrdinaryMax, right.holdOrdinaryMax, t),
      Lerp(left.holdComplexMax, right.holdComplexMax, t),
      allowed)
  }

  /** Every interpolated limit lies between the values of the two anchors that bracket the
      depth. */
  lemma LimitsBetweenAnchors(gv: real)
    ensures var b := FindBracket(gv);
      var l, a, c := InterpolateLimits(gv), Anchors[b.left], Anchors[b.right];
      && b.left + 1 == b.right
      && Between(l.reverseMin, a.reverseMin, c.reverseMin)
      && Between(l.reverseMax, a.reverseMax, c.reverseMax)
      && Between(l.ordinaryOffsetMax, a.ordinaryOffsetMax, c.ordinaryOffsetMax)
      && Between(l.complexOffsetMax, a.complexOffsetMax, c.complexOffsetMax)
      && Between(l.holdOrdinaryMax, a.holdOrdinaryMax, c.holdOrdinaryMax)
      && Between(l.holdComplexMax, a.holdComplexMax, c.holdComplexMax)
  {
    var b := FindBracket(gv);
    var a, c, t := Anchors[b.left], Anchors[b.right], b.t;
    LerpBounds(a.reverseMin, c.reverseMin, t);
    LerpBounds(a.reverseMax, c.reverseMax, t);
    LerpBounds(a.ordinaryOffsetMax, c.ordinaryOffsetMax, t);
    LerpBounds(a.complexOffsetMax, c.complexOffsetMax, t);
    LerpBounds(a.holdOrdinaryMax, c.holdOrdinaryMax, t);
    LerpBounds(a.holdComplexMax, c.holdComplexMax, t);
  }

  /** Between two neighbouring anchors every limit is the straight line through their two
      values, evaluated at the depth's relative position between them. */
  lemma LimitsInterpolate(gv: real, i: nat)
    requires i + 1 < |Anchors| && Brackets(i, gv)
    ensures var a, c := Anchors[i], Anchors[i + 1];
      var t, l := (gv - a.gv) / (c.gv - a.gv), InterpolateLimits(gv);
      && l.gv == gv
      && l.reverseMin == Lerp(a.reverseMin, c.reverseMin, t)
      && l.reverseMax == Lerp(a.reverseMax, c.reverseMax, t)
      && l.ordinaryOffsetMax == Lerp(a.ordinaryOffsetMax, c.ordinaryOffsetMax, t)
      && l.complexOffsetMax == Lerp(a.complexOffsetMax, c.complexOffsetMax, t)
      && l.holdOrdinaryMax == Lerp(a.holdOrdinaryMax, c.holdOrdinaryMax, t)
      && l.holdComplexMax == Lerp(a.holdComplexMax, c.holdComplexMax, t)
  {
    var a, c := Anchors[i], Anchors[i + 1];
    var t := (gv - a.gv) / (c.gv - a.gv);
    BracketAt(gv, i);
    var b := FindBracket(gv);
    if b.left != i {
      var p := Anchors[i - 1];
      assert Lerp(p.reverseMin, a.reverseMin, 1.0) == a.reverseMin == Lerp(a.reverseMin, c.reverseMin, 0.0);
    }
  }

  /** The bracket found for a depth between anchors `i` and `i + 1` is that pair, with the
      depth's fraction of the interval, unless the depth is anchor `i` itself and the pair
      before ends there. */
  lemma BracketAt(gv: real, i: nat)
    requires i + 1 < |Anchors| && Brackets(i, gv)
    ensures var a, c, b := Anchors[i], Anchors[i + 1], FindBracket(gv);
      var t := (gv - a.gv) / (c.gv - a.gv);
      && ClampGv(gv) == gv
      && ((b.left == i && b.t == t) || (b.left + 1 == i && b.t == 1.0 && t == 0.0))
  {
    if FindBracket(gv).left == i {
      BracketSamePair(gv, i);
    } else {
      BracketEarlierPair(gv, i);
    }
  }

  /** When the bracket found is the pair at `i`, its fraction is the depth's. */
  lemma BracketSamePair(gv: real, i: nat)
    requires i + 1 < |Anchors| && Brackets(i, gv) && FindBracket(gv).left == i
    ensures FindBracket(gv).t == (gv - Anchors[i].gv) / (Anchors[i + 1].gv - Anchors[i].gv)
  {
    var a, c, b := Anchors[i], Anchors[i + 1], FindBracket(gv);
    assert ClampGv(gv) == gv && c.gv > a.gv;
    FractionOfInterval(gv, a.gv, c.gv, b.t);
  }

  /** The fraction at which linear interpolation over a proper interval reaches `g`. */
  lemma FractionOfInterval(g: real, lo: real, hi: real, t: real)
    requires lo < hi && g == Lerp(lo, hi, t)
    ensures t == (g - lo) / (hi - lo)
  {
  }

  /** A bracket found before the pair at `i` is the pair ending at anchor `i`, which is then
      the depth itself. */
  lemma BracketEarlierPair(gv: real, i: nat)
    requires i + 1 < |Anchors| && Brackets(i, gv) && FindBracket(gv).left != i
    ensures FindBracket(gv).left + 1 == i && FindBracket(gv).t == 1.0 && gv == Anchors[i].gv
  {
    var b := FindBracket(gv);
    assert ClampGv(gv) == gv;
    // An earlier pair brackets the depth only when it is the anchor they share.
    assert b.left < i;
  }

  /** The limits of an anchor with its own value for every field. */
  function AnchorLimits(a: Anchor): Limits {
    Limits(a.gv, a.reverseMin, a.reverseMax, a.ordinaryOffsetMax, a.complexOffsetMax,
      a.holdOrdinaryMax, a.holdComplexMax, a.reverseAllowed)
  }

  /** At an anchor's depth the interpolation gives back exactly that anchor's row. */
  lemma ExactAtAnchors(k: nat)
    requires k < |Anchors|
    ensures InterpolateLimits(Anchors[k].gv) == AnchorLimits(Anchors[k])
  {
    var g := Anchors[k].gv;
    var b := FindBracket(g);
    if k == 0 {
      assert b.left == 0 && b.t == 0.0;
    } else {
      assert b.left == k - 1 by {
        assert Brackets(k - 1, g);
      }
      assert b.t == 1.0;
    }
  }

  /** Halfway between the 3000 m and 3600 m anchors. */
  lemma LimitsAt3300()
    ensures InterpolateLimits(3300.0) == Limits(3300.0, 0.0, 700.0, 2150.0, 3350.0, 36.0, 52.5, true)
  {
    var b := FindBracket(3300.0);
    assert b.left == 2 by {
      assert Brackets(2, 3300.0);
      assert !Brackets(0, 3300.0) && !Brackets(1, 3300.0);
    }
    assert b.t == 0.5;
  }

  /** `classify_trajectory_type`. */
  function ClassifyTrajectoryType(gv: real, offsetT1: real): (r: TrajectoryType)
    ensures GvLow >= gv ==> r == SameDirection
  {
    var limits := InterpolateLimits(gv);
    if !limits.reverseAllowed then SameDirection
    else if limits.reverseMax <= limits.reverseMin then SameDirection
    else if limits.reverseMin <= offsetT1 <= limits.reverseMax then ReverseDirection
    else SameDirection
  }

  /** Reverse direction exactly when the depth allows it, the window is not empty and the
      offset to t1 falls inside it. */
  lemma ReverseDirectionIff(gv: real, offsetT1: real)
    ensures var l := InterpolateLimits(gv);
      ClassifyTrajectoryType(gv, offsetT1) == ReverseDirection <==>
        && l.reverseAllowed
        && l.reverseMax > l.reverseMin
        && l.reverseMin <= offsetT1 <= l.reverseMax
  {
  }

  /** The step function behind `_complexity_from_offset` and `_complexity_from_hold`. */
  function ComplexityStep(value: real, ordinaryMax: real, complexMax: real): (c: Complexity)
    ensures c == Ordinary <==> value <= ordinaryMax
    ensures c == VeryComplex <==> value > ordinaryMax && value > complexMax
  {
    if value <= ordinaryMax then Ordinary
    else if value <= complexMax then Complex
    else VeryComplex
  }

  /** `_COMPLEXITY_RANK`. */
  function Rank(c: Complexity): (n: nat)
    ensures n <= 2
  {
    match c
    case Ordinary => 0
    case Complex => 1
    case VeryComplex => 2
  }

  lemma RankInjective(a: Complexity, b: Complexity)
    ensures Rank(a) == Rank(b) <==> a == b
  {
  }

  /** A larger value is never classified as less complex. */
  lemma ComplexityStepMonotone(v: real, w: real, ordinaryMax: real, complexMax: real)
    requires v <= w
    ensures Rank(ComplexityStep(v, ordinaryMax, complexMax)) <= Rank(ComplexityStep(w, ordinaryMax, complexMax))
  {
  }

  function ComplexityFromOffset(offsetT1: real, limits: Limits): (c: Complexity)
    ensures c == Ordinary <==> offsetT1 <= limits.ordinaryOffsetMax
    ensures limits.ordinaryOffsetMax <= limits.complexOffsetMax ==>
      (c == Complex <==> limits.ordinaryOffsetMax < offsetT1 <= limits.complexOffsetMax)
  {
    ComplexityStep(offsetT1, limits.ordinaryOffsetMax, limits.complexOffsetMax)
  }

  function ComplexityFromHold(holdInc: real, limits: Limits): (c: Complexity)
    ensures c == Ordinary <==> holdInc <= limits.holdOrdinaryMax
    ensures limits.holdOrdinaryMax <= limits.holdComplexMax ==>
      (c == Complex <==> limits.holdOrdinaryMax < holdInc <= limits.holdComplexMax)
  {
    ComplexityStep(holdInc, limits.holdOrdinaryMax, limits.holdComplexMax)
  }

  /** `classify_well`. */
  function ClassifyWell(gv: real, offsetT1: real, holdInc: real): (r: WellClassification)
    ensures r.limits == InterpolateLimits(gv)
    ensures r.trajectoryType == ClassifyTrajectoryType(gv, offsetT1)
    ensures r.byOffset == ComplexityFromOffset(offsetT1, r.limits)
    ensures r.byHold == ComplexityFromHold(holdInc, r.limits)
    ensures Rank(r.complexity) == if Rank(r.byOffset) >= Rank(r.byHold) then Rank(r.byOffset) else Rank(r.byHold)
    ensures r.complexity == r.byOffset || r.complexity == r.byHold
  {
    var limits := InterpolateLimits(gv);
    var byOffset := ComplexityFromOffset(offsetT1, limits);
    var byHold := ComplexityFromHold(holdInc, limits);
    var complexity := if Rank(byOffset) >= Rank(byHold) then byOffset else byHold;
    WellClassification(ClassifyTrajectoryType(gv, offsetT1), complexity, byOffset, byHold, limits)
  }

  /** At every depth the table's thresholds are ordered, so each criterion is a three-step
      staircase: ordinary up to the first limit, complex up to the second, very complex above. */
  lemma ThresholdsOrdered(gv: real)
    ensures var l := InterpolateLimits(gv);
      l.ordinaryOffsetMax <= l.complexOffsetMax && l.holdOrdinaryMax <= l.holdComplexMax
  {
    var b := FindBracket(gv);
    var a, c, t := Anchors[b.left], Anchors[b.right], b.t;
    assert a.ordinaryOffsetMax + 650.0 <= a.complexOffsetMax;
    assert c.ordinaryOffsetMax + 650.0 <= c.complexOffsetMax;
    assert a.holdOrdinaryMax + 15.0 <= a.holdComplexMax;
    assert c.holdOrdinaryMax + 15.0 <= c.holdComplexMax;
    LerpOrdered(a.ordinaryOffsetMax, c.ordinaryOffsetMax, a.complexOffsetMax, c.complexOffsetMax, t);
    LerpOrdered(a.holdOrdinaryMax, c.holdOrdinaryMax, a.holdComplexMax, c.holdComplexMax, t);
  }

  lemma LerpOrdered(a1: real, b1: real, a2: real, b2: real, t: real)
    requires a1 <= a2 && b1 <= b2 && 0.0 <= t <= 1.0
    ensures Lerp(a1, b1, t) <= Lerp(a2, b2, t)
  {
    assert Lerp(a2, b2, t) - Lerp(a1, b1, t) == (a2 - a1) * (1.0 - t) + (b2 - b1) * t;
    MulNonneg(a2 - a1, 1.0 - t);
    MulNonneg(b2 - b1, t);
  }

  /** The overall verdict is monotone in both criteria. */
  lemma ClassifyWellMonotone(gv: real, offset1: real, offset2: real, hold1: real, hold2: real)
    requires offset1 <= offset2 && hold1 <= hold2
    ensures Rank(ClassifyWell(gv, offset1, hold1).complexity) <= Rank(ClassifyWell(gv, offset2, hold2).complexity)
  {
    var l := InterpolateLimits(gv);
    ComplexityStepMonotone(offset1, offset2, l.ordinaryOffsetMax, l.complexOffsetMax);
    ComplexityStepMonotone(hold1, hold2, l.holdOrdinaryMax, l.holdComplexMax);
  }

  // ---------------------------------------------------------------- codes and labels

  function TrajectoryTypeCode(t: TrajectoryType): string {
    match t
    case SameDirection => "same_direction"
    case ReverseDirection => "reverse_direction"
  }

  function ComplexityCode(c: Complexity): string {
    match c
    case Ordinary => "ordinary"
    case Complex => "complex"
    case VeryComplex => "very_complex"
  }

  /** `trajectory_type_label`: any code other than the reverse one reads as same-direction. */
  function TrajectoryTypeLabel(code: string): string {
    if code == TrajectoryTypeCode(ReverseDirection) then "Цели в обратном направлении"
    else "Цели в одном направлении"
  }

  /** `complexity_label`: an unknown code reads as ordinary. */
  function ComplexityLabel(code: string): string {
    if code == ComplexityCode(Complex) then "Сложная"
    else if code == ComplexityCode(VeryComplex) then "Очень сложная"
    else "Обычная"
  }

  /** A code the label functions do not know reads as same-direction and as ordinary. */
  lemma UnknownCodesFallBack(code: string)
    ensures code != TrajectoryTypeCode(ReverseDirection) ==>
      TrajectoryTypeLabel(code) == TrajectoryTypeLabel(TrajectoryTypeCode(SameDirection))
    ensures code != ComplexityCode(Complex) && code != ComplexityCode(VeryComplex) ==>
      ComplexityLabel(code) == ComplexityLabel(ComplexityCode(Ordinary))
  {
  }

  /** Different verdicts get different labels. */
  lemma LabelsDistinguish(t1: TrajectoryType, t2: TrajectoryType, c1: Complexity, c2: Complexity)
    ensures TrajectoryTypeLabel(TrajectoryTypeCode(t1)) == TrajectoryTypeLabel(TrajectoryTypeCode(t2)) <==> t1 == t2
    ensures ComplexityLabel(ComplexityCode(c1)) == ComplexityLabel(ComplexityCode(c2)) <==> c1 == c2
  {
  }
}

=== FILE: eclipse_welltrack.dfy ===
/** The ECLIPSE `WELLTRACK` reader: a line-and-token state machine that turns the text of
    an include file into named records of `X Y Z MD` points, and the mapping of a
    three-point record onto the planner's targets (surface, t1, t3). */
module EclipseWelltrack {
  import opened Wrappers
  import opened Text
  import opened Numeric
  import opened Seqs

  /** Slack allowed when comparing measured depths. */
  const MdEps: real := 0.000000001

  datatype WelltrackPoint = WelltrackPoint(x: Float, y: Float, z: Float, md: Float)

  datatype WelltrackRecord = WelltrackRecord(name: string, points: seq<WelltrackPoint>)

  /** `WelltrackParseError`, one variant per message the reader raises. Line numbers and
      point indices are 1-based, as in the messages. */
  datatype ParseError =
    | MissingName(line: nat)
    | UnclosedQuote(line: nat)
    | EmptyQuotedName(line: nat)
    | BadValueCount(well: string, count: nat, line: nat)
    | BadNumber(well: string, token: string, line: nat)
    | NonFiniteMd(well: string, index: nat)
    | DecreasingMd(well: string, index: nat)

  /** Python's `float(token)`: `None` where it raises `ValueError`. */
  type FloatParser = string -> Option<Float>

  // ---------------------------------------------------------------- lines

  /** The part of a raw line the reader looks at: the text before the first `--`, stripped. */
  function CleanLine(raw: string): (line: string)
    ensures |line| <= |raw|
    ensures forall j :: !OccursAt(line, "--", j)
    ensures line == [] || (!IsSpace(line[0]) && !IsSpace(line[|line| - 1]))
  {
    var code := SplitOnce(raw, "--").0;
    SplitOnceHeadFree(raw, "--");
    StripShape(code);
    NoOccurrenceInSlice(code, "--", LeadingSpaces(code), LeadingSpaces(code) + |Strip(code)|);
    Strip(code)
  }

  /** Whatever follows the first `--` of a line is ignored. */
  lemma CommentTextIgnored(code: string, comment1: string, comment2: string)
    ensures CleanLine(code + "--" + comment1) == CleanLine(code + "--" + comment2)
  {
    var s := code + "--" + comment1;
    var t := code + "--" + comment2;
    var len := |code| + 2;
    assert s[..len] == t[..len] == code + "--";
    assert OccursAt(s, "--", |code|);
    SplitOnceCommonPrefix(s, t, "--", len);
  }

  /** A line without `--` is read whole, stripped. */
  lemma NoCommentLine(raw: string)
    requires forall j :: !OccursAt(raw, "--", j)
    ensures CleanLine(raw) == Strip(raw)
  {
  }

  // ---------------------------------------------------------------- header

  const Keyword: string := "WELLTRACK"
  const KeywordLower: string := "welltrack"

  /** Whether `c` matches letter `i` of `WELLTRACK` under `re.IGNORECASE`: either ASCII case,
      or the Kelvin sign for K. */
  predicate KeywordLetter(c: char, i: nat)
    requires i < |Keyword|
  {
    || c == Keyword[i]
    || c == KeywordLower[i]
    || (Keyword[i] == 'K' && c == '\U{212a}')
  }

  /** The ASCII part of the regular-expression class `\w`: letters, digits and `_`. */
  predicate IsWordChar(c: char) {
    || ('a' <= c <= 'z')
    || ('A' <= c <= 'Z')
    || ('0' <= c <= '9')
    || c == '_'
  }

  /** `^\s*WELLTRACK\b(.*)$` on a cleaned line: the text after the keyword when the line is
      a header. A cleaned line has no leading whitespace and no `\n`. */
  function HeaderRest(line: string): (r: Option<string>)
    ensures r.Some? <==>
      && |line| >= |Keyword|
      && (forall i :: 0 <= i < |Keyword| ==> KeywordLetter(line[i], i))
      && (|line| == |Keyword| || !IsWordChar(line[|Keyword|]))
    ensures r.Some? ==> r.value == line[|Keyword|..]
  {
    var n := |Keyword|;
    if |line| >= n
      && (forall i :: 0 <= i < n ==> KeywordLetter(line[i], i))
      && (|line| == n || !IsWordChar(line[n]))
    then Some(line[n..])
    else None
  }

  predicate IsQuote(c: char) {
    c == '\'' || c == '"'
  }

  /** The quoted form of a well name: the text up to the next copy of the opening quote,
      trimmed, followed by whatever comes after that quote, trimmed. */
  function ParseQuotedName(tail: string, line: nat): (r: Result<(string, string), ParseError>)
    requires tail != [] && IsQuote(tail[0])
    ensures r == Err(UnclosedQuote(line)) <==> FindFrom(tail, [tail[0]], 1).None?
    ensures r.Err? ==> r.error == UnclosedQuote(line) || r.error == EmptyQuotedName(line)
    ensures r.Ok? ==> r.value.0 != [] && Strip(r.value.0) == r.value.0 && Strip(r.value.1) == r.value.1
    ensures r.Ok? ==> forall i :: 0 <= i < |r.value.0| ==> r.value.0[i] != tail[0]
    ensures FindFrom(tail, [tail[0]], 1).Some? ==>
      var j := FindFrom(tail, [tail[0]], 1).value;
      && (r == Err(EmptyQuotedName(line)) <==> Strip(tail[1..j]) == [])
      && (r.Ok? ==> r.value == (Strip(tail[1..j]), Strip(tail[j + 1..])))
  {
    match FindFrom(tail, [tail[0]], 1)
    case None => Err(UnclosedQuote(line))
    case Some(j) => QuotedAt(tail, j, line)
  }

  /** The quoted form once the closing quote is known to sit at `j`: the trimmed text
      between the quotes, which may not be empty, and the trimmed text after them. */
  function QuotedAt(tail: string, j: nat, line: nat): (r: Result<(string, string), ParseError>)
    requires 1 <= j < |tail| && IsQuote(tail[0])
    requires forall k :: 1 <= k < j ==> !OccursAt(tail, [tail[0]], k)
    ensures r.Err? ==> r.error == EmptyQuotedName(line)
    ensures r.Err? <==> Strip(tail[1..j]) == []
    ensures r.Ok? ==> r.value == (Strip(tail[1..j]), Strip(tail[j + 1..]))
    ensures r.Ok? ==> r.value.0 != [] && Strip(r.value.0) == r.value.0 && Strip(r.value.1) == r.value.1
    ensures r.Ok? ==> forall i :: 0 <= i < |r.value.0| ==> r.value.0[i] != tail[0]
  {
    var inner := tail[1..j];
    var name := Strip(inner);
    var remainder := Strip(tail[j + 1..]);
    StripIdempotent(inner);
    StripIdempotent(tail[j + 1..]);
    if name == [] then Err(EmptyQuotedName(line))
    else
      QuoteNotInside(tail, j);
      StripKeepsOut(inner, tail[0]);
      Ok((name, remainder))
  }

  /** Before the first closing quote at `j`, the quote character does not occur. */
  lemma QuoteNotInside(tail: string, j: nat)
    requires 1 <= j <= |tail|
    requires forall k :: 1 <= k < j ==> !OccursAt(tail, [tail[0]], k)
    ensures forall i :: 0 <= i < |tail[1..j]| ==> tail[1..j][i] != tail[0]
  {
    forall i | 0 <= i < |tail[1..j]|
      ensures tail[1..j][i] != tail[0]
    {
      assert !OccursAt(tail, [tail[0]], i + 1);
      assert tail[i + 1..i + 2] == [tail[1..j][i]];
    }
  }

  /** The bare form of a well name: the first whitespace-free word, which may not be a
      record terminator, followed by the rest of the text, trimmed. */
  function ParseBareName(tail: string, line: nat): (r: Result<(string, string), ParseError>)
    requires tail != [] && !IsSpace(tail[0])
    ensures r.Err? <==> (StartsWith(tail, "/") || StartsWith(tail, ";")) && (|tail| == 1 || IsSpace(tail[1]))
    ensures r.Err? ==> r.error == MissingName(line)
    ensures r.Ok? ==> r.value.0 != [] && NoSpace(r.value.0) && StartsWith(tail, r.value.0)
    ensures r.Ok? ==> |r.value.0| == |tail| || IsSpace(tail[|r.value.0|])
    ensures r.Ok? ==> Strip(r.value.1) == r.value.1
  {
    var n := WordLength(tail);
    var name := tail[..n];
    StripIdempotent(tail[n..]);
    if name == "/" || name == ";" then Err(MissingName(line))
    else
      assert (StartsWith(tail, "/") || StartsWith(tail, ";")) && (|tail| == 1 || IsSpace(tail[1])) ==> n == 1 by {
        if (StartsWith(tail, "/") || StartsWith(tail, ";")) && (|tail| == 1 || IsSpace(tail[1])) {
          WordLengthUnique(tail, 1);
        }
      }
      Ok((name, Strip(tail[n..])))
  }

  /** `_parse_well_name`: the well name and the text after it, from the text after the
      keyword. */
  function ParseWellName(rest: string, line: nat): (r: Result<(string, string), ParseError>)
    ensures Strip(rest) == [] ==> r == Err(MissingName(line))
    ensures Strip(rest) != [] && IsQuote(Strip(rest)[0]) ==> r == ParseQuotedName(Strip(rest), line)
    ensures Strip(rest) != [] && !IsQuote(Strip(rest)[0]) ==> r == ParseBareName(Strip(rest), line)
  {
    var tail := Strip(rest);
    if tail == [] then Err(MissingName(line))
    else if IsQuote(tail[0]) then ParseQuotedName(tail, line)
    else ParseBareName(tail, line)
  }

  /** A quoted name without the quote character inside reads back as itself, trimmed. */
  lemma QuotedNameRoundTrip(q: char, inner: string, after: string)
    requires IsQuote(q)
    requires forall i :: 0 <= i < |inner| ==> inner[i] != q
    requires Strip(inner) != []
    ensures ParseQuotedName([q] + inner + [q] + after, 1) == Ok((Strip(inner), Strip(after)))
  {
    var tail := [q] + inner + [q] + after;
    var j := |inner| + 1;
    assert tail[1..j] == inner;
    assert tail[j + 1..] == after;
    assert tail[j..j + 1] == [q];
    assert OccursAt(tail, [q], j);
    forall k | 1 <= k < j
      ensures !OccursAt(tail, [q], k)
    {
      assert tail[k] == inner[k - 1];
      assert tail[k..k + 1] == [tail[k]];
    }
    assert FindFrom(tail, [tail[0]], 1) == Some(j);
  }

  /** A bare name followed by a space reads back as itself, with the rest of the text. */
  lemma BareNameRoundTrip(name: string, after: string)
    requires name != [] && NoSpace(name) && name != "/" && name != ";"
    ensures ParseBareName(name + " " + after, 1) == Ok((name, Strip(after)))
  {
    var tail := name + " " + after;
    assert tail[..|name|] == name;
    WordLengthUnique(tail, |name|);
    assert tail[|name|..] == " " + after;
    StripSpacePrefix(after);
  }

  // ---------------------------------------------------------------- tokens

  predicate IsTerminator(c: char) {
    c == '/' || c == ';'
  }

  predicate IsTerminatorToken(t: string) {
    t == "/" || t == ";"
  }

  predicate NoTerminator(s: string) {
    forall i :: 0 <= i < |s| ==> !IsTerminator(s[i])
  }

  /** `tail.replace("/", " / ").replace(";", " ; ")`. */
  function Pad(s: string): string {
    if s == [] then []
    else (if IsTerminator(s[0]) then [' ', s[0], ' '] else [s[0]]) + Pad(s[1..])
  }

  lemma {:induction false} PadAppend(a: string, b: string)
    ensures Pad(a + b) == Pad(a) + Pad(b)
  {
    if a != [] {
      PadAppend(a[1..], b);
      AppendTail(a, b);
      var h := if IsTerminator(a[0]) then [' ', a[0], ' '] else [a[0]];
      AppendAssoc(h, Pad(a[1..]), Pad(b));
    } else {
      assert a + b == b;
    }
  }

  /** Text without a terminator needs no padding. */
  lemma {:induction false} PadWithoutTerminator(s: string)
    requires NoTerminator(s)
    ensures Pad(s) == s
  {
    if s != [] {
      PadWithoutTerminator(s[1..]);
    }
  }

  /** The tokens `_consume_tail_tokens` sees: the padded text split on whitespace. */
  function Tokenize(s: string): seq<string> {
    Words(Pad(s))
  }

  /** A `/` or `;` is a token of its own even when glued to its neighbours. */
  lemma TokenizeAtTerminator(a: string, t: char, b: string)
    requires IsTerminator(t)
    ensures Tokenize(a + [t] + b) == Tokenize(a) + [[t]] + Tokenize(b)
  {
    var pa, pb := Pad(a), Pad(b);
    var tl := [t] + [' '] + pb;
    var wa, wb := Words(pa), Words(pb);
    assert Tokenize(a + [t] + b) == wa + Words(tl) by {
      PadAroundTerminator(a, t, b);
      WordsAroundSpace(pa, ' ', tl);
    }
    assert Words(tl) == [[t]] + wb by {
      WordsAroundSpace([t], ' ', pb);
      WordsOfWord([t]);
    }
    assert wa + ([[t]] + wb) == wa + [[t]] + wb;
  }

  /** Padding puts a space on each side of a terminator. */
  lemma PadAroundTerminator(a: string, t: char, b: string)
    requires IsTerminator(t)
    ensures Pad(a + [t] + b) == Pad(a) + [' '] + ([t] + [' '] + Pad(b))
  {
    var pa, pb := Pad(a), Pad(b);
    assert Pad([t]) == [' ', t, ' '] by {
      assert [t][1..] == [];
    }
    PadAppend(a + [t], b);
    PadAppend(a, [t]);
    assert pa + [' ', t, ' '] + pb == pa + [' '] + ([t] + [' '] + pb);
  }

  /** Every token is a terminator on its own or holds no terminator at all. */
  lemma {:induction false} TokensIsolated(s: string)
    ensures forall k :: 0 <= k < |Tokenize(s)| ==>
      IsTerminatorToken(Tokenize(s)[k]) || NoTerminator(Tokenize(s)[k])
    decreases |s|
  {
    if exists p :: 0 <= p < |s| && IsTerminator(s[p]) {
      var p :| 0 <= p < |s| && IsTerminator(s[p]);
      assert s == s[..p] + [s[p]] + s[p + 1..];
      TokenizeAtTerminator(s[..p], s[p], s[p + 1..]);
      TokensIsolated(s[..p]);
      TokensIsolated(s[p + 1..]);
    } else {
      PadWithoutTerminator(s);
      WordCharsFromText(s);
      var ws := Words(s);
      forall k, i | 0 <= k < |ws| && 0 <= i < |ws[k]|
        ensures !IsTerminator(ws[k][i])
      {
        assert ws[k][i] in s;
      }
    }
  }

  // ---------------------------------------------------------------- records

  /** `p` is the point whose four values are the parses of `group`, in the order x, y, z, md. */
  predicate PointOf(p: WelltrackPoint, group: seq<string>, parse: FloatParser)
    requires |group| == 4
  {
    && parse(group[0]) == Some(p.x)
    && parse(group[1]) == Some(p.y)
    && parse(group[2]) == Some(p.z)
    && parse(group[3]) == Some(p.md)
  }

  function ParseValue(token: string, well: string, line: nat, parse: FloatParser): (r: Result<Float, ParseError>)
    ensures r.Ok? <==> parse(token).Some?
    ensures r.Ok? ==> parse(token) == Some(r.value)
    ensures r.Err? ==> r.error == BadNumber(well, token, line)
  {
    match parse(token)
    case Some(v) => Ok(v)
    case None => Err(BadNumber(well, token, line))
  }

  /** The loop of `finalize_current` that converts groups of four tokens into points. */
  function ParsePoints(tokens: seq<string>, well: string, line: nat, parse: FloatParser): (r: Result<seq<WelltrackPoint>, ParseError>)
    requires |tokens| % 4 == 0
    ensures r.Ok? <==> forall i :: 0 <= i < |tokens| ==> parse(tokens[i]).Some?
    ensures r.Ok? ==> 4 * |r.value| == |tokens|
    ensures r.Ok? ==> forall k :: 0 <= k < |r.value| ==> PointOf(r.value[k], tokens[4 * k..4 * k + 4], parse)
    ensures r.Err? ==> var k := FirstUnparsed(tokens, parse, 0);
      k < |tokens| && r.error == BadNumber(well, tokens[k], line)
    decreases |tokens|
  {
    if tokens == [] then Ok([])
    else
      var x :- FirstGroupValue(tokens, 0, well, line, parse);
      var y :- FirstGroupValue(tokens, 1, well, line, parse);
      var z :- FirstGroupValue(tokens, 2, well, line, parse);
      var md :- FirstGroupValue(tokens, 3, well, line, parse);
      var tail := tokens[4..];
      TailTokens(tokens, parse);
      match ParsePoints(tail, well, line, parse)
      case Err(e) =>
        FirstUnparsedAfterGroup(tokens, parse);
        Err(e)
      case Ok(rest) =>
        var p := WelltrackPoint(x, y, z, md);
        PointsOfTail(tokens, p, rest, parse);
        Ok([p] + rest)
  }

  /** The position of the first token from `i` on that the float parser rejects, or the
      length of the list when it accepts them all. */
  function FirstUnparsed(tokens: seq<string>, parse: FloatParser, i: nat): (k: nat)
    requires i <= |tokens|
    ensures i <= k <= |tokens|
    ensures k < |tokens| ==> parse(tokens[k]).None?
    ensures forall j :: i <= j < k ==> parse(tokens[j]).Some?
    decreases |tokens| - i
  {
    if i == |tokens| || parse(tokens[i]).None? then i
    else FirstUnparsed(tokens, parse, i + 1)
  }

  /** A position with every token before it accepted, and a rejected token there (or the
      end), is the first rejected position. */
  lemma FirstUnparsedAt(tokens: seq<string>, parse: FloatParser, i: nat, k: nat)
    requires i <= k <= |tokens|
    requires k < |tokens| ==> parse(tokens[k]).None?
    requires forall j :: i <= j < k ==> parse(tokens[j]).Some?
    ensures FirstUnparsed(tokens, parse, i) == k
  {
  }

  /** Token `n` of the first group as a value; a rejected token there is the first rejected
      token of the list when those before it were accepted. */
  function FirstGroupValue(tokens: seq<string>, n: nat, well: string, line: nat, parse: FloatParser): (r: Result<Float, ParseError>)
    requires n < 4 <= |tokens|
    requires forall j :: 0 <= j < n ==> parse(tokens[j]).Some?
    ensures r.Ok? <==> parse(tokens[n]).Some?
    ensures r.Ok? ==> parse(tokens[n]) == Some(r.value)
    ensures r.Err? ==> r.error == BadNumber(well, tokens[FirstUnparsed(tokens, parse, 0)], line)
  {
    var r := ParseValue(tokens[n], well, line, parse);
    if r.Err? then FirstUnparsedAt(tokens, parse, 0, n); r else r
  }

  /** After an accepted first group, the first rejected token lies in the later groups. */
  lemma FirstUnparsedAfterGroup(tokens: seq<string>, parse: FloatParser)
    requires 4 <= |tokens|
    requires forall j :: 0 <= j < 4 ==> parse(tokens[j]).Some?
    ensures FirstUnparsed(tokens, parse, 0) == 4 + FirstUnparsed(tokens[4..], parse, 0)
  {
    var tail := tokens[4..];
    var k := FirstUnparsed(tail, parse, 0);
    assert forall j :: 4 <= j < 4 + k ==> tokens[j] == tail[j - 4];
    FirstUnparsedAt(tokens, parse, 0, 4 + k);
  }

  /** The tokens after the first group: all of them parse exactly when the first four and the
      rest do. */
  lemma TailTokens(tokens: seq<string>, parse: FloatParser)
    requires 4 <= |tokens|
    ensures (forall i :: 0 <= i < |tokens| ==> parse(tokens[i]).Some?) <==>
      (forall i :: 0 <= i < 4 ==> parse(tokens[i]).Some?) &&
      (forall i :: 0 <= i < |tokens[4..]| ==> parse(tokens[4..][i]).Some?)
  {
    var tail := tokens[4..];
    assert forall i :: 0 <= i < |tail| ==> tail[i] == tokens[i + 4];
  }

  /** The first point in front of the points of the later groups gives the points of all
      groups. */
  lemma PointsOfTail(tokens: seq<string>, p: WelltrackPoint, rest: seq<WelltrackPoint>, parse: FloatParser)
    requires 4 <= |tokens| && 4 * (|rest| + 1) == |tokens|
    requires parse(tokens[0]) == Some(p.x) && parse(tokens[1]) == Some(p.y)
    requires parse(tokens[2]) == Some(p.z) && parse(tokens[3]) == Some(p.md)
    requires forall k :: 0 <= k < |rest| ==> PointOf(rest[k], tokens[4..][4 * k..4 * k + 4], parse)
    ensures forall k :: 0 <= k < |rest| + 1 ==> PointOf(([p] + rest)[k], tokens[4 * k..4 * k + 4], parse)
  {
    var ps := [p] + rest;
    forall k | 0 <= k < |ps|
      ensures PointOf(ps[k], tokens[4 * k..4 * k + 4], parse)
    {
      if k == 0 {
        var g := tokens[..4];
        assert tokens[4 * k..4 * k + 4] == g;
        assert g[0] == tokens[0] && g[1] == tokens[1] && g[2] == tokens[2] && g[3] == tokens[3];
      } else {
        assert ps[k] == rest[k - 1];
        assert tokens[4..][4 * (k - 1)..4 * (k - 1) + 4] == tokens[4 * k..4 * k + 4];
      }
    }
  }

  /** Measured depth is finite at every point and never drops by more than `MdEps`. */
  predicate MdValid(points: seq<WelltrackPoint>) {
    && (forall i :: 0 <= i < |points| ==> IsFinite(points[i].md))
    && (forall i :: 0 < i < |points| ==> points[i].md.value + MdEps >= points[i - 1].md.value)
  }

  /** `_validate_record_md`, from point `i` on, once the points before `i` have passed. */
  function ValidateMdFrom(points: seq<WelltrackPoint>, well: string, i: nat): (r: Outcome<ParseError>)
    requires i <= |points| && MdValid(points[..i])
    ensures r.Pass? <==> MdValid(points)
    ensures r.Fail? ==> MdFailure(points, well, r.error)
    decreases |points| - i
  {
    if i == |points| then
      assert points[..i] == points;
      Pass
    else if !IsFinite(points[i].md) then
      Fail(NonFiniteMd(well, i + 1))
    else if i > 0 && points[i].md.value + MdEps < points[i - 1].md.value then
      Fail(DecreasingMd(well, i + 1))
    else
      assert points[..i + 1] == points[..i] + [points[i]];
      ValidateMdFrom(points, well, i + 1)
  }

  /** The error reported by the MD check names the first offending point. */
  ghost predicate MdFailure(points: seq<WelltrackPoint>, well: string, e: ParseError) {
    match e
    case NonFiniteMd(w, k) =>
      w == well && 1 <= k <= |points| && MdValid(points[..k - 1]) && !IsFinite(points[k - 1].md)
    case DecreasingMd(w, k) =>
      && w == well && 2 <= k <= |points| && MdValid(points[..k - 1]) && IsFinite(points[k - 1].md)
      && points[k - 1].md.value + MdEps < points[k - 2].md.value
    case _ => false
  }

  function ValidateRecordMd(points: seq<WelltrackPoint>, well: string): (r: Outcome<ParseError>)
    ensures r.Pass? <==> MdValid(points)
    ensures r.Fail? ==> MdFailure(points, well, r.error)
  {
    ValidateMdFrom(points, well, 0)
  }

  /** `finalize_current` for an open record: count check, conversion, MD check. */
  function FinalizeRecord(well: string, tokens: seq<string>, line: nat, parse: FloatParser): (r: Result<WelltrackRecord, ParseError>)
    ensures |tokens| % 4 != 0 <==> r == Err(BadValueCount(well, |tokens|, line))
    ensures r.Ok? ==> r.value.name == well && 4 * |r.value.points| == |tokens|
    ensures r.Ok? ==> forall k :: 0 <= k < |r.value.points| ==> PointOf(r.value.points[k], tokens[4 * k..4 * k + 4], parse)
    ensures r.Ok? ==> MdValid(r.value.points)
    ensures r.Err? && r.error.BadNumber? ==> r.error.token in tokens && parse(r.error.token).None?
    ensures |tokens| % 4 == 0 && FirstUnparsed(tokens, parse, 0) < |tokens| ==>
      r == Err(BadNumber(well, tokens[FirstUnparsed(tokens, parse, 0)], line))
  {
    if |tokens| % 4 != 0 then Err(BadValueCount(well, |tokens|, line))
    else
      var points :- ParsePoints(tokens, well, line, parse);
      match ValidateRecordMd(points, well)
      case Fail(e) => Err(e)
      case Pass => Ok(WelltrackRecord(well, points))
  }

  // ---------------------------------------------------------------- state machine

  /** The reader's state: records closed so far, the open record's name, its tokens. */
  datatype ParserState = ParserState(records: seq<WelltrackRecord>, current: Option<string>, tokens: seq<string>)

  const Initial: ParserState := ParserState([], None, [])

  /** While no record is open, no tokens are pending. */
  predicate Settled(st: ParserState) {
    st.current.None? ==> st.tokens == []
  }

  /** `finalize_current`: closes the open record; a no-op when none is open. */
  function CloseRecord(st: ParserState, line: nat, parse: FloatParser): (r: Result<ParserState, ParseError>)
    requires Settled(st)
    ensures st.current.None? ==> r == Ok(st)
    ensures r.Ok? ==> r.value.current.None? && Settled(r.value)
    ensures r.Ok? && st.current.Some? ==>
      && |r.value.records| == |st.records| + 1
      && r.value.records[..|st.records|] == st.records
      && r.value.records[|st.records|].name == st.current.value
      && r.value.tokens == []
    ensures st.current.Some? ==> (r.Ok? <==> FinalizeRecord(st.current.value, st.tokens, line, parse).Ok?)
    ensures r.Ok? && st.current.Some? ==>
      r.value.records == st.records + [FinalizeRecord(st.current.value, st.tokens, line, parse).value]
    ensures r.Err? ==> st.current.Some? && r.error == FinalizeRecord(st.current.value, st.tokens, line, parse).error
  {
    match st.current
    case None => Ok(st)
    case Some(name) =>
      var rec :- FinalizeRecord(name, st.tokens, line, parse);
      Ok(ParserState(st.records + [rec], None, []))
  }

  /** `_consume_tail_tokens`: a terminator closes the open record; any other token is queued
      on the open record. Tokens that follow a terminator on the same line land in a list
      that has already been converted, so they are lost. */
  function ConsumeTokens(toks: seq<string>, st: ParserState, line: nat, parse: FloatParser): (r: Result<ParserState, ParseError>)
    requires Settled(st)
    ensures r.Ok? ==> Settled(r.value) && IsPrefix(st.records, r.value.records)
    ensures r.Ok? && (forall k :: 0 <= k < |toks| ==> !IsTerminatorToken(toks[k])) ==>
      r.value.records == st.records && r.value.current == st.current
    ensures r.Ok? && st.current.Some? && (forall k :: 0 <= k < |toks| ==> !IsTerminatorToken(toks[k])) ==>
      r.value.tokens == st.tokens + toks
    decreases |toks|
  {
    if toks == [] then Ok(st)
    else if IsTerminatorToken(toks[0]) then
      var st' :- CloseRecord(st, line, parse);
      ConsumeTokens(toks[1..], st', line, parse)
    else if st.current.None? then
      ConsumeTokens(toks[1..], st, line, parse)
    else
      var r := ConsumeTokens(toks[1..], st.(tokens := st.tokens + [toks[0]]), line, parse);
      assert st.tokens + [toks[0]] + toks[1..] == st.tokens + toks;
      r
  }

  /** The state after queueing tokens none of which is a terminator: they join the open
      record, or are dropped when no record is open. */
  function Queue(st: ParserState, toks: seq<string>): ParserState {
    if st.current.Some? then st.(tokens := st.tokens + toks) else st
  }

  /** Tokens before the first terminator are queued as they come. */
  lemma {:induction false} ConsumeQueued(pre: seq<string>, rest: seq<string>, st: ParserState, line: nat, parse: FloatParser)
    requires Settled(st)
    requires forall k :: 0 <= k < |pre| ==> !IsTerminatorToken(pre[k])
    ensures Settled(Queue(st, pre))
    ensures ConsumeTokens(pre + rest, st, line, parse) == ConsumeTokens(rest, Queue(st, pre), line, parse)
    decreases |pre|
  {
    if pre == [] {
      assert pre + rest == rest;
      assert st.current.Some? ==> st.tokens + pre == st.tokens;
    } else {
      var toks := pre + rest;
      assert toks[0] == pre[0] && toks[1..] == pre[1..] + rest;
      var st' := Queue(st, [pre[0]]);
      ConsumeQueued(pre[1..], rest, st', line, parse);
      if st.current.Some? {
        assert st'.tokens + pre[1..] == st.tokens + pre;
      }
    }
  }

  /** A terminator closes the open record with every token queued since its header, the
      ones earlier on the same line included, and reading goes on with no record open. */
  lemma TerminatorCloses(pre: seq<string>, t: string, post: seq<string>, st: ParserState, line: nat, parse: FloatParser)
    requires Settled(st) && IsTerminatorToken(t)
    requires forall k :: 0 <= k < |pre| ==> !IsTerminatorToken(pre[k])
    ensures var q := Queue(st, pre);
      var r := ConsumeTokens(pre + [t] + post, st, line, parse);
      && Settled(q)
      && (CloseRecord(q, line, parse).Err? ==> r == Err(CloseRecord(q, line, parse).error))
      && (CloseRecord(q, line, parse).Ok? ==> r == ConsumeTokens(post, CloseRecord(q, line, parse).value, line, parse))
  {
    ConsumeQueued(pre, [t] + post, st, line, parse);
    assert pre + [t] + post == pre + ([t] + post);
    assert ([t] + post)[0] == t && ([t] + post)[1..] == post;
  }

  predicate IsPrefix<T(==)>(a: seq<T>, b: seq<T>) {
    |a| <= |b| && b[..|a|] == a
  }

  lemma PrefixTransitive<T>(a: seq<T>, b: seq<T>, c: seq<T>)
    requires IsPrefix(a, b) && IsPrefix(b, c)
    ensures IsPrefix(a, c)
  {
    assert c[..|a|] == c[..|b|][..|a|];
  }

  /** A header line: the open record is closed, the new record opens under the parsed name,
      and the rest of the line is read as its first tokens. */
  function ProcessHeader(st: ParserState, line: nat, rest: string, parse: FloatParser): (r: Result<ParserState, ParseError>)
    requires Settled(st)
    ensures r.Ok? ==> Settled(r.value) && IsPrefix(st.records, r.value.records)
    ensures r.Ok? && st.current.Some? ==>
      |r.value.records| > |st.records| && r.value.records[|st.records|].name == st.current.value
    ensures CloseRecord(st, line, parse).Err? ==> r == Err(CloseRecord(st, line, parse).error)
    ensures CloseRecord(st, line, parse).Ok? && ParseWellName(rest, line).Err? ==> r == Err(ParseWellName(rest, line).error)
    ensures CloseRecord(st, line, parse).Ok? && ParseWellName(rest, line).Ok? ==>
      var header := ParseWellName(rest, line).value;
      r == ConsumeTokens(Tokenize(header.1), ParserState(CloseRecord(st, line, parse).value.records, Some(header.0), []), line, parse)
  {
    match CloseRecord(st, line, parse)
    case Err(e) => Err(e)
    case Ok(closed) =>
      match ParseWellName(rest, line)
      case Err(e) => Err(e)
      case Ok(header) =>
        var started := ParserState(closed.records, Some(header.0), []);
        var r := ConsumeTokens(Tokenize(header.1), started, line, parse);
        OpenedRecordKeepsClosed(st, closed, r);
        r
  }

  lemma OpenedRecordKeepsClosed(st: ParserState, closed: ParserState, r: Result<ParserState, ParseError>)
    requires IsPrefix(st.records, closed.records)
    requires st.current.Some? ==> |closed.records| > |st.records| && closed.records[|st.records|].name == st.current.value
    requires r.Ok? ==> IsPrefix(closed.records, r.value.records)
    ensures r.Ok? ==> IsPrefix(st.records, r.value.records)
    ensures r.Ok? && st.current.Some? ==>
      |r.value.records| > |st.records| && r.value.records[|st.records|].name == st.current.value
  {
    if r.Ok? {
      PrefixTransitive(st.records, closed.records, r.value.records);
      if st.current.Some? {
        assert r.value.records[|st.records|] == r.value.records[..|closed.records|][|st.records|];
      }
    }
  }

  /** One line of the reader's loop, given the line already cleaned. */
  function ProcessLine(st: ParserState, line: nat, text: string, parse: FloatParser): (r: Result<ParserState, ParseError>)
    requires Settled(st)
    ensures text == [] ==> r == Ok(st)
    ensures HeaderRest(text).None? && st.current.None? ==> r == Ok(st)
    ensures r.Ok? ==> Settled(r.value) && IsPrefix(st.records, r.value.records)
    ensures r.Ok? && HeaderRest(text).Some? && st.current.Some? ==>
      |r.value.records| > |st.records| && r.value.records[|st.records|].name == st.current.value
    ensures HeaderRest(text).Some? ==> r == ProcessHeader(st, line, HeaderRest(text).value, parse)
    ensures text != [] && HeaderRest(text).None? && st.current.Some? ==> r == ConsumeTokens(Tokenize(text), st, line, parse)
  {
    if text == [] then Ok(st)
    else
      match HeaderRest(text)
      case Some(rest) => ProcessHeader(st, line, rest, parse)
      case None =>
        if st.current.None? then Ok(st)
        else ConsumeTokens(Tokenize(text), st, line, parse)
  }

  /** The loop over the cleaned lines `i..` (line numbers are 1-based). */
  function ProcessLines(lines: seq<string>, i: nat, st: ParserState, parse: FloatParser): (r: Result<ParserState, ParseError>)
    requires i <= |lines| && Settled(st)
    ensures r.Ok? ==> Settled(r.value) && IsPrefix(st.records, r.value.records)
    ensures i == |lines| ==> r == Ok(st)
    ensures i < |lines| && ProcessLine(st, i + 1, lines[i], parse).Err? ==>
      r == Err(ProcessLine(st, i + 1, lines[i], parse).error)
    ensures i < |lines| && ProcessLine(st, i + 1, lines[i], parse).Ok? ==>
      r == ProcessLines(lines, i + 1, ProcessLine(st, i + 1, lines[i], parse).value, parse)
    decreases |lines| - i
  {
    if i == |lines| then Ok(st)
    else
      var st' :- ProcessLine(st, i + 1, lines[i], parse);
      ProcessLines(lines, i + 1, st', parse)
  }

  function CleanLines(lines: seq<string>): (r: seq<string>)
    ensures |r| == |lines| && forall k :: 0 <= k < |lines| ==> r[k] == CleanLine(lines[k])
  {
    seq(|lines|, k requires 0 <= k < |lines| => CleanLine(lines[k]))
  }

  /** `parse_welltrack_text`: the records of the text, in file order; the record still open
      at the end of the text is closed there. */
  function ParseWelltrackText(text: string, parse: FloatParser): (r: Result<seq<WelltrackRecord>, ParseError>)
    ensures r.Ok? ==> ProcessLines(CleanLines(SplitLines(text)), 0, Initial, parse).Ok?
    ensures r.Ok? ==> var st := ProcessLines(CleanLines(SplitLines(text)), 0, Initial, parse).value;
      && IsPrefix(st.records, r.value)
      && (st.current.Some? ==> |r.value| == |st.records| + 1 && r.value[|st.records|].name == st.current.value)
      && (st.current.None? ==> r.value == st.records)
    ensures var lines := SplitLines(text);
      var p := ProcessLines(CleanLines(lines), 0, Initial, parse);
      var n := if |lines| > 0 then |lines| else 1;
      && (p.Err? ==> r == Err(p.error))
      && (p.Ok? && CloseRecord(p.value, n, parse).Err? ==> r == Err(CloseRecord(p.value, n, parse).error))
      && (p.Ok? && p.value.current.None? ==> r == Ok(p.value.records))
      && (p.Ok? && p.value.current.Some? && CloseRecord(p.value, n, parse).Ok? ==>
            r == Ok(p.value.records + [FinalizeRecord(p.value.current.value, p.value.tokens, n, parse).value]))
  {
    var lines := SplitLines(text);
    var st :- ProcessLines(CleanLines(lines), 0, Initial, parse);
    var last :- CloseRecord(st, if |lines| > 0 then |lines| else 1, parse);
    Ok(last.records)
  }

  /** Text without any `WELLTRACK` header holds no records. */
  lemma {:induction false} NoHeaderNoRecords(lines: seq<string>, i: nat, parse: FloatParser)
    requires i <= |lines|
    requires forall k :: 0 <= k < |lines| ==> HeaderRest(lines[k]).None?
    ensures ProcessLines(lines, i, Initial, parse) == Ok(Initial)
    decreases |lines| - i
  {
    if i < |lines| {
      BodyLineWhileClosed(Initial, i + 1, lines[i], parse);
      NoHeaderNoRecords(lines, i + 1, parse);
    }
  }

  /** A line that is not a header changes nothing while no record is open. */
  lemma BodyLineWhileClosed(st: ParserState, line: nat, text: string, parse: FloatParser)
    requires Settled(st) && st.current.None? && HeaderRest(text).None?
    ensures ProcessLine(st, line, text, parse) == Ok(st)
  {
  }

  predicate NoTerminatorToken(toks: seq<string>) {
    forall k :: 0 <= k < |toks| ==> !IsTerminatorToken(toks[k])
  }

  /** A line of values inside a record: not blank, not a header, and without a terminator. */
  predicate DataLine(text: string) {
    text != [] && HeaderRest(text).None? && NoTerminatorToken(Tokenize(text))
  }

  /** The tokens of consecutive lines, in order. */
  function LinesTokens(lines: seq<string>): (toks: seq<string>)
    ensures lines == [] ==> toks == []
  {
    if lines == [] then [] else Tokenize(lines[0]) + LinesTokens(lines[1..])
  }

  /** Tokens without a terminator never fail: they are queued on the open record, or
      dropped when none is open. */
  lemma QueuedWithoutTerminator(toks: seq<string>, st: ParserState, line: nat, parse: FloatParser)
    requires Settled(st) && NoTerminatorToken(toks)
    ensures ConsumeTokens(toks, st, line, parse) == Ok(Queue(st, toks))
  {
    ConsumeQueued(toks, [], st, line, parse);
    assert toks + [] == toks;
  }

  /** A header whose name parses and whose tail holds no terminator opens the named record
      with the tail's tokens as its first values, after closing the record that was open. */
  lemma HeaderOpensRecord(st: ParserState, line: nat, rest: string, parse: FloatParser)
    requires Settled(st) && CloseRecord(st, line, parse).Ok? && ParseWellName(rest, line).Ok?
    requires NoTerminatorToken(Tokenize(ParseWellName(rest, line).value.1))
    ensures var header := ParseWellName(rest, line).value;
      ProcessHeader(st, line, rest, parse) ==
        Ok(ParserState(CloseRecord(st, line, parse).value.records, Some(header.0), Tokenize(header.1)))
  {
    var header := ParseWellName(rest, line).value;
    var started := ParserState(CloseRecord(st, line, parse).value.records, Some(header.0), []);
    QueuedWithoutTerminator(Tokenize(header.1), started, line, parse);
    assert [] + Tokenize(header.1) == Tokenize(header.1);
  }

  /** Data lines inside an open record only add their values to it, in order. */
  lemma {:induction false} DataLinesQueued(lines: seq<string>, i: nat, j: nat, st: ParserState, parse: FloatParser)
    requires i <= j <= |lines| && Settled(st) && st.current.Some?
    requires forall k :: i <= k < j ==> DataLine(lines[k])
    ensures ProcessLines(lines, i, st, parse) == ProcessLines(lines, j, Queue(st, LinesTokens(lines[i..j])), parse)
    decreases j - i
  {
    if i == j {
      assert st.tokens + [] == st.tokens;
    } else {
      var st' := Queue(st, Tokenize(lines[i]));
      DataLineStep(lines, i, st, parse);
      DataLinesQueued(lines, i + 1, j, st', parse);
      LinesTokensCons(lines, i, j);
      AppendAssoc(st.tokens, Tokenize(lines[i]), LinesTokens(lines[i + 1..j]));
    }
  }

  /** One data line inside an open record. */
  lemma DataLineStep(lines: seq<string>, i: nat, st: ParserState, parse: FloatParser)
    requires i < |lines| && Settled(st) && st.current.Some? && DataLine(lines[i])
    ensures ProcessLines(lines, i, st, parse) == ProcessLines(lines, i + 1, Queue(st, Tokenize(lines[i])), parse)
  {
    QueuedWithoutTerminator(Tokenize(lines[i]), st, i + 1, parse);
  }

  lemma LinesTokensCons(lines: seq<string>, i: nat, j: nat)
    requires i < j <= |lines|
    ensures LinesTokens(lines[i..j]) == Tokenize(lines[i]) + LinesTokens(lines[i + 1..j])
  {
    assert lines[i..j][0] == lines[i] && lines[i..j][1..] == lines[i + 1..j];
  }

  /** A whole text holding one record: a header line whose name parses, lines of values, and
      a `/` line. The text gives exactly that record, named by the header and holding the
      values of the header's tail and of the lines in order, or the error its finalisation
      reports at the `/` line. */
  lemma SingleRecordText(text: string, header: string, data: seq<string>, parse: FloatParser)
    requires CleanLines(SplitLines(text)) == [header] + data + ["/"]
    requires HeaderRest(header).Some? && ParseWellName(HeaderRest(header).value, 1).Ok?
    requires NoTerminatorToken(Tokenize(ParseWellName(HeaderRest(header).value, 1).value.1))
    requires forall k :: 0 <= k < |data| ==> DataLine(data[k])
    ensures var name := ParseWellName(HeaderRest(header).value, 1).value;
      var f := FinalizeRecord(name.0, Tokenize(name.1) + LinesTokens(data), |data| + 2, parse);
      ParseWelltrackText(text, parse) == if f.Ok? then Ok([f.value]) else Err(f.error)
  {
    SingleRecordLines(header, data, parse);
  }

  /** The reader's loop over the cleaned lines of a one-record text. */
  lemma SingleRecordLines(header: string, data: seq<string>, parse: FloatParser)
    requires HeaderRest(header).Some? && ParseWellName(HeaderRest(header).value, 1).Ok?
    requires NoTerminatorToken(Tokenize(ParseWellName(HeaderRest(header).value, 1).value.1))
    requires forall k :: 0 <= k < |data| ==> DataLine(data[k])
    ensures var name := ParseWellName(HeaderRest(header).value, 1).value;
      var f := FinalizeRecord(name.0, Tokenize(name.1) + LinesTokens(data), |data| + 2, parse);
      ProcessLines([header] + data + ["/"], 0, Initial, parse) ==
        if f.Ok? then Ok(ParserState([f.value], None, [])) else Err(f.error)
  {
    var lines := [header] + data + ["/"];
    var name := ParseWellName(HeaderRest(header).value, 1).value;
    var start := ParserState([], Some(name.0), Tokenize(name.1));
    var full := ParserState([], Some(name.0), Tokenize(name.1) + LinesTokens(data));
    var m := |data| + 1;
    OneRecordLayout(header, data);
    OpenRecordLine(lines, header, parse);
    DataLinesQueued(lines, 1, m, start, parse);
    assert Queue(start, LinesTokens(lines[1..m])) == full;
    TerminatorLine(lines, full, parse);
  }

  /** Where the header, the data lines and the `/` line sit in a one-record text. */
  lemma OneRecordLayout(header: string, data: seq<string>)
    requires forall k :: 0 <= k < |data| ==> DataLine(data[k])
    ensures var lines, m := [header] + data + ["/"], |data| + 1;
      && |lines| == m + 1 && lines[0] == header && lines[m] == "/"
      && lines[1..m] == data
      && forall k :: 1 <= k < m ==> DataLine(lines[k])
  {
    var lines, m := [header] + data + ["/"], |data| + 1;
    assert lines[1..m] == data;
    forall k | 1 <= k < m
      ensures DataLine(lines[k])
    {
      assert lines[k] == data[k - 1];
    }
  }

  /** The first line of a one-record text opens the record. */
  lemma OpenRecordLine(lines: seq<string>, header: string, parse: FloatParser)
    requires lines != [] && lines[0] == header
    requires HeaderRest(header).Some? && ParseWellName(HeaderRest(header).value, 1).Ok?
    requires NoTerminatorToken(Tokenize(ParseWellName(HeaderRest(header).value, 1).value.1))
    ensures var name := ParseWellName(HeaderRest(header).value, 1).value;
      ProcessLines(lines, 0, Initial, parse) ==
        ProcessLines(lines, 1, ParserState([], Some(name.0), Tokenize(name.1)), parse)
  {
    HeaderOpensRecord(Initial, 1, HeaderRest(header).value, parse);
  }

  /** The closing `/` line of a one-record text finalises the record, and the text ends. */
  lemma TerminatorLine(lines: seq<string>, st: ParserState, parse: FloatParser)
    requires lines != [] && lines[|lines| - 1] == "/" && st.current.Some? && st.records == []
    ensures var f := FinalizeRecord(st.current.value, st.tokens, |lines|, parse);
      ProcessLines(lines, |lines| - 1, st, parse) ==
        if f.Ok? then Ok(ParserState([f.value], None, [])) else Err(f.error)
  {
    var n := |lines|;
    SlashLine(st, n, parse);
    var c := CloseRecord(st, n, parse);
    if c.Ok? {
      assert ProcessLines(lines, n, c.value, parse) == Ok(c.value);
    }
  }

  /** A `/` line inside a record closes it. */
  lemma SlashLine(st: ParserState, line: nat, parse: FloatParser)
    requires st.current.Some?
    ensures ProcessLine(st, line, "/", parse) == CloseRecord(st, line, parse)
  {
    assert Tokenize("/") == ["/"] by {
      TokenizeAtTerminator([], '/', []);
      assert [] + ['/'] + [] == "/";
    }
    assert HeaderRest("/").None?;
    assert ["/"][1..] == [];
  }

  /** Once a terminator has closed a record, the tokens that follow it on the same line are
      not kept: no record is open to receive them. */
  lemma TokensAfterTerminatorDropped(t: string, toks: seq<string>, st: ParserState, line: nat, parse: FloatParser)
    requires Settled(st) && IsTerminatorToken(t)
    requires forall k :: 0 <= k < |toks| ==> !IsTerminatorToken(toks[k])
    requires ConsumeTokens([t] + toks, st, line, parse).Ok?
    ensures var r := ConsumeTokens([t] + toks, st, line, parse).value;
      r.current.None? && r.tokens == []
  {
    assert ([t] + toks)[1..] == toks;
    var closed := CloseRecord(st, line, parse).value;
    DroppedWhileClosed(toks, closed, line, parse);
  }

  lemma {:induction false} DroppedWhileClosed(toks: seq<string>, st: ParserState, line: nat, parse: FloatParser)
    requires Settled(st) && st.current.None?
    requires forall k :: 0 <= k < |toks| ==> !IsTerminatorToken(toks[k])
    ensures ConsumeTokens(toks, st, line, parse) == Ok(st)
    decreases |toks|
  {
    if toks != [] {
      DroppedWhileClosed(toks[1..], st, line, parse);
    }
  }

  /** The reader sees a line only through its cleaned form: texts whose lines agree once
      comments and surrounding whitespace are removed give the same result. */
  lemma CommentsAndPaddingIgnored(text1: string, text2: string, parse: FloatParser)
    requires SameCleanLines(SplitLines(text1), SplitLines(text2))
    ensures ParseWelltrackText(text1, parse) == ParseWelltrackText(text2, parse)
  {
    assert CleanLines(SplitLines(text1)) == CleanLines(SplitLines(text2));
  }

  /** Two texts whose lines agree once cleaned. */
  predicate SameCleanLines(lines1: seq<string>, lines2: seq<string>) {
    |lines1| == |lines2| && forall k :: 0 <= k < |lines1| ==> CleanLine(lines1[k]) == CleanLine(lines2[k])
  }

  // ---------------------------------------------------------------- targets

  datatype OrderMode = StrictFileOrder | SortByMd

  /** `Point3D` as built from a well-track point: coordinates exactly as parsed. */
  datatype TargetPoint = TargetPoint(x: Float, y: Float, z: Float)

  datatype Targets = Targets(surface: TargetPoint, t1: TargetPoint, t3: TargetPoint)

  /** The `ValueError`s of `welltrack_points_to_targets`. */
  datatype TargetsError =
    | WrongPointCount(count: nat)
    | NonFiniteTargetMd
    | NotIncreasingMd(md0: real, md1: real, md2: real)

  function Coords(p: WelltrackPoint): TargetPoint {
    TargetPoint(p.x, p.y, p.z)
  }

  predicate AllMdFinite(points: seq<WelltrackPoint>) {
    forall i :: 0 <= i < |points| ==> IsFinite(points[i].md)
  }

  predicate MdSorted(points: seq<WelltrackPoint>)
    requires AllMdFinite(points)
  {
    forall i, j :: 0 <= i < j < |points| ==> points[i].md.value <= points[j].md.value
  }

  /** Measured depth rises by more than `MdEps` from S to t1 and from t1 to t3. */
  predicate StrictlyIncreasingMd(points: seq<WelltrackPoint>)
    requires |points| == 3 && AllMdFinite(points)
  {
    points[0].md.value + MdEps < points[1].md.value && points[1].md.value + MdEps < points[2].md.value
  }

  /** Stable insertion of `p` into a list sorted by MD: after every point of equal MD. */
  function InsertByMd(p: WelltrackPoint, sorted: seq<WelltrackPoint>): (r: seq<WelltrackPoint>)
    requires IsFinite(p.md) && AllMdFinite(sorted) && MdSorted(sorted)
    ensures |r| == |sorted| + 1 && AllMdFinite(r) && MdSorted(r)
    ensures r[0] == p || (sorted != [] && r[0] == sorted[0])
    ensures multiset(r) == multiset(sorted) + multiset{p}
  {
    if sorted == [] then [p]
    else if p.md.value < sorted[0].md.value then
      PrependSorted(p, sorted);
      [p] + sorted
    else
      var tl := sorted[1..];
      var rest := InsertByMd(p, tl);
      PrependSorted(sorted[0], rest);
      assert multiset([sorted[0]] + rest) == multiset(sorted) + multiset{p} by {
        assert sorted == [sorted[0]] + tl;
      }
      [sorted[0]] + rest
  }

  /** A point no deeper than the first of a sorted list keeps it sorted when put in front. */
  lemma PrependSorted(x: WelltrackPoint, rest: seq<WelltrackPoint>)
    requires IsFinite(x.md) && AllMdFinite(rest) && MdSorted(rest)
    requires rest == [] || x.md.value <= rest[0].md.value
    ensures AllMdFinite([x] + rest) && MdSorted([x] + rest)
  {
    var r := [x] + rest;
    forall i | 0 <= i < |r|
      ensures IsFinite(r[i].md)
    {
      if i > 0 {
        assert r[i] == rest[i - 1];
      }
    }
    forall i, j | 0 <= i < j < |r|
      ensures r[i].md.value <= r[j].md.value
    {
      assert r[j] == rest[j - 1];
      if i > 0 {
        assert r[i] == rest[i - 1];
      }
    }
  }

  /** `sorted(points, key=md)`: Python's sort is stable, and so is this insertion sort. */
  function SortPointsByMd(points: seq<WelltrackPoint>): (r: seq<WelltrackPoint>)
    requires AllMdFinite(points)
    ensures AllMdFinite(r) && MdSorted(r)
    ensures multiset(r) == multiset(points) && |r| == |points|
  {
    if points == [] then []
    else
      var init := points[..|points| - 1];
      assert points == init + [points[|points| - 1]];
      InsertByMd(points[|points| - 1], SortPointsByMd(init))
  }

  /** `welltrack_points_to_targets`. Every MD must be finite before any order is taken:
      sorting cannot fail and finiteness does not depend on order, so checking it first is
      the same as checking it after the sort. */
  function PointsToTargets(points: seq<WelltrackPoint>, mode: OrderMode): (r: Result<Targets, TargetsError>)
    ensures |points| != 3 <==> r == Err(WrongPointCount(|points|))
    ensures r.Ok? ==> |points| == 3 && AllMdFinite(points)
    ensures mode == StrictFileOrder ==>
      (r.Ok? <==> |points| == 3 && AllMdFinite(points) && StrictlyIncreasingMd(points))
    ensures mode == StrictFileOrder && r.Ok? ==>
      r.value == Targets(Coords(points[0]), Coords(points[1]), Coords(points[2]))
    ensures mode == SortByMd && r.Ok? ==>
      exists ordered :: OrderedTargets(points, ordered, r.value)
    ensures mode == SortByMd ==>
      (r.Ok? <==> |points| == 3 && AllMdFinite(points) && StrictlyIncreasingMd(SortPointsByMd(points)))
  {
    if |points| != 3 then Err(WrongPointCount(|points|))
    else if !AllMdFinite(points) then Err(NonFiniteTargetMd)
    else
      var ordered := if mode == SortByMd then SortPointsByMd(points) else points;
      var m0, m1, m2 := ordered[0].md.value, ordered[1].md.value, ordered[2].md.value;
      if !(m0 + MdEps < m1 && m1 + MdEps < m2) then Err(NotIncreasingMd(m0, m1, m2))
      else
        var t := Targets(Coords(ordered[0]), Coords(ordered[1]), Coords(ordered[2]));
        assert mode == SortByMd ==> OrderedTargets(points, ordered, t);
        Ok(t)
  }

  /** `t` is S, t1, t3 taken from `ordered`, a permutation of `points` sorted by MD with
      strictly increasing MD. */
  ghost predicate OrderedTargets(points: seq<WelltrackPoint>, ordered: seq<WelltrackPoint>, t: Targets) {
    && |ordered| == 3
    && multiset(ordered) == multiset(points)
    && AllMdFinite(ordered)
    && StrictlyIncreasingMd(ordered)
    && t == Targets(Coords(ordered[0]), Coords(ordered[1]), Coords(ordered[2]))
  }

  /** Sorting an MD-sorted list leaves it unchanged. */
  lemma {:induction false} SortSortedIsIdentity(points: seq<WelltrackPoint>)
    requires AllMdFinite(points) && MdSorted(points)
    ensures SortPointsByMd(points) == points
  {
    if points != [] {
      var init := points[..|points| - 1];
      var p := points[|points| - 1];
      SortSortedIsIdentity(init);
      InsertLastIsAppend(p, init);
      assert init + [p] == points;
    }
  }

  /** Inserting a point no smaller than every element appends it. */
  lemma {:induction false} InsertLastIsAppend(p: WelltrackPoint, sorted: seq<WelltrackPoint>)
    requires IsFinite(p.md) && AllMdFinite(sorted) && MdSorted(sorted)
    requires forall i :: 0 <= i < |sorted| ==> sorted[i].md.value <= p.md.value
    ensures InsertByMd(p, sorted) == sorted + [p]
  {
    if sorted != [] {
      InsertLastIsAppend(p, sorted[1..]);
      assert sorted == [sorted[0]] + sorted[1..];
    }
  }

  /** MDs strictly increase along the list. */
  predicate MdStrictlySorted(points: seq<WelltrackPoint>)
    requires AllMdFinite(points)
  {
    forall i, j :: 0 <= i < j < |points| ==> points[i].md.value < points[j].md.value
  }

  /** A list sorted by MD equals any permutation of it whose MDs strictly increase. */
  lemma {:induction false} SortedPermutationUnique(a: seq<WelltrackPoint>, b: seq<WelltrackPoint>)
    requires AllMdFinite(a) && AllMdFinite(b) && MdSorted(a) && MdStrictlySorted(b)
    requires multiset(a) == multiset(b)
    ensures a == b
    decreases |a|
  {
    assert |a| == |multiset(a)| == |multiset(b)| == |b|;
    if a != [] {
      assert a[0] == b[0] by {
        assert a[0] in multiset(b) && b[0] in multiset(a);
        var k :| 0 <= k < |b| && b[k] == a[0];
        var m :| 0 <= m < |a| && a[m] == b[0];
        assert a[0].md.value <= a[m].md.value;
        assert k == 0;
      }
      PermutationTails(a, b);
      SortedPermutationUnique(a[1..], b[1..]);
    }
  }

  /** In `SortByMd` mode the targets are fixed by the points alone: when some order of the
      three points has MD rising by more than `MdEps` at each step, the conversion succeeds
      and yields S, t1, t3 in that order. */
  lemma SortByMdFindsIncreasingOrder(points: seq<WelltrackPoint>, ordered: seq<WelltrackPoint>)
    requires |points| == 3 && |ordered| == 3 && multiset(ordered) == multiset(points)
    requires AllMdFinite(ordered) && StrictlyIncreasingMd(ordered)
    ensures PointsToTargets(points, SortByMd) == Ok(Targets(Coords(ordered[0]), Coords(ordered[1]), Coords(ordered[2])))
  {
    forall i | 0 <= i < 3
      ensures IsFinite(points[i].md)
    {
      assert points[i] in multiset(ordered);
    }
    assert MdStrictlySorted(ordered);
    SortedPermutationUnique(SortPointsByMd(points), ordered);
  }

  /** On points already in increasing MD order both modes give the same targets. */
  lemma ModesAgreeOnIncreasingMd(points: seq<WelltrackPoint>)
    requires |points| == 3 && AllMdFinite(points) && StrictlyIncreasingMd(points)
    ensures PointsToTargets(points, SortByMd) == PointsToTargets(points, StrictFileOrder)
  {
    SortSortedIsIdentity(points);
  }
}

=== FILE: mcm.dfy ===
/** The minimum-curvature survey method: azimuth wrapping, the dogleg angle between two
    station orientations, the ratio factor, dogleg severity per 30 m, the position increment
    of one interval, positions as a running sum along a station table, and the DLS column.
    The trigonometric functions are parameters (`Elementary`). */
module Mcm {
  import opened Wrappers
  import opened Numeric
  import opened Models
  import opened Segments

  // ---------------------------------------------------------------- scalar kernel

  /** `wrap_azimuth_deg`: the azimuth taken modulo 360 into [0, 360). */
  function WrapAzimuth(azi: real): (r: real)
    ensures 0.0 <= r < 360.0
    ensures ((azi - r) / 360.0).Floor as real == (azi - r) / 360.0
  {
    FloorMod(azi, 360.0)
  }

  /** An azimuth already in [0, 360) is its own wrap. */
  lemma WrapInRange(azi: real)
    requires 0.0 <= azi < 360.0
    ensures WrapAzimuth(azi) == azi
  {
    var r := WrapAzimuth(azi);
    var q := (azi - r) / 360.0;
    assert -1.0 < q < 1.0;
    assert q.Floor == 0;
  }

  /** Wrapping twice is wrapping once. */
  lemma WrapIdempotent(azi: real)
    ensures WrapAzimuth(WrapAzimuth(azi)) == WrapAzimuth(azi)
  {
    WrapInRange(WrapAzimuth(azi));
  }

  /** Azimuths a whole turn apart wrap to the same value. */
  lemma WrapFullTurn(azi: real)
    ensures WrapAzimuth(azi + 360.0) == WrapAzimuth(azi)
  {
    var r := WrapAzimuth(azi);
    var s := WrapAzimuth(azi + 360.0);
    var q := (azi - r) / 360.0;
    var p := (azi + 360.0 - s) / 360.0;
    assert p - q == 1.0 + (r - s) / 360.0;
    assert -1.0 < (r - s) / 360.0 < 1.0;
    assert p.Floor - q.Floor == 1 ==> r == s;
  }

  /** `np.clip(x, -1, 1)`. */
  function ClipUnit(x: real): (r: real)
    ensures -1.0 <= r <= 1.0
    ensures -1.0 <= x <= 1.0 ==> r == x
    ensures x > 1.0 ==> r == 1.0
    ensures x < -1.0 ==> r == -1.0
  {
    if x < -1.0 then -1.0 else if x > 1.0 then 1.0 else x
  }

  /** The cosine of the dogleg angle between two orientations (degrees), before clipping. */
  function DoglegCos(e: Elementary, inc1: real, azi1: real, inc2: real, azi2: real): real {
    var i1, i2 := Radians(inc1), Radians(inc2);
    var a1, a2 := Radians(azi1), Radians(azi2);
    e.cos(i1) * e.cos(i2) + e.sin(i1) * e.sin(i2) * e.cos(a2 - a1)
  }

  /** `dogleg_angle_rad`: arccos of the dogleg cosine clipped to [-1, 1], so arccos is only
      ever asked for a value in its domain. */
  function DoglegAngle(e: Elementary, inc1: real, azi1: real, inc2: real, azi2: real): (beta: real)
    ensures exists c: real :: -1.0 <= c <= 1.0 && beta == e.arccos(c)
  {
    var c := ClipUnit(DoglegCos(e, inc1, azi1, inc2, azi2));
    e.arccos(c)
  }

  /** The laws of sine, cosine and arccos that a zero dogleg between equal orientations
      relies on, asked for at the points where it uses them. */
  predicate ParallelLaws(e: Elementary, inc: real) {
    var i := Radians(inc);
    && e.sin(i) * e.sin(i) + e.cos(i) * e.cos(i) == 1.0
    && e.cos(0.0) == 1.0
    && e.arccos(1.0) == 0.0
  }

  /** Two stations with the same orientation have no dogleg. */
  lemma ParallelDoglegZero(e: Elementary, inc: real, azi: real)
    requires ParallelLaws(e, inc)
    ensures DoglegAngle(e, inc, azi, inc, azi) == 0.0
  {
    var i := Radians(inc);
    var a := Radians(azi);
    assert a - a == 0.0;
    assert e.cos(a - a) == 1.0;
    var c := DoglegCos(e, inc, azi, inc, azi);
    assert c == e.cos(i) * e.cos(i) + e.sin(i) * e.sin(i) * 1.0;
    assert c == 1.0;
    assert ClipUnit(c) == 1.0;
  }

  /** Below this magnitude the ratio factor is taken to be 1. */
  const RatioEps: real := 0.000000000001

  /** `ratio_factor`: 1 for a dogleg within `RatioEps` of zero, else `(2 / beta) tan(beta / 2)`. */
  function RatioFactor(e: Elementary, beta: real): (rf: real)
    ensures Abs(beta) <= RatioEps ==> rf == 1.0
    ensures Abs(beta) > RatioEps ==> rf * beta == 2.0 * e.tan(beta / 2.0)
  {
    if Abs(beta) <= RatioEps then 1.0
    else
      var rf := (2.0 / beta) * e.tan(beta / 2.0);
      assert rf * beta == 2.0 * e.tan(beta / 2.0) by {
        assert (2.0 / beta) * beta == 2.0;
      }
      rf
  }

  /** With an odd tangent the ratio factor is even in the dogleg angle. */
  lemma RatioFactorEven(e: Elementary, beta: real)
    requires e.tan(-beta / 2.0) == -e.tan(beta / 2.0)
    ensures RatioFactor(e, -beta) == RatioFactor(e, beta)
  {
    if Abs(beta) > RatioEps {
      assert -beta / 2.0 == -(beta / 2.0);
      var p := RatioFactor(e, beta);
      var m := RatioFactor(e, -beta);
      assert m * -beta == 2.0 * e.tan(-beta / 2.0);
      assert (m - p) * beta == 0.0;
    }
  }

  /** `dls_deg_per_30m` for one interval: undefined (NaN) unless measured depth rises,
      otherwise the dogleg in degrees scaled to 30 m. */
  function Dls(e: Elementary, md1: real, inc1: real, azi1: real, md2: real, inc2: real, azi2: real): (r: Option<real>)
    ensures r.Some? <==> md2 - md1 > 0.0
    ensures r.Some? ==> r.value * (md2 - md1) == Degrees(DoglegAngle(e, inc1, azi1, inc2, azi2)) * 30.0
  {
    var dmd := md2 - md1;
    var betaDeg := Degrees(DoglegAngle(e, inc1, azi1, inc2, azi2));
    if dmd > 0.0 then
      assert betaDeg * (30.0 / dmd) * dmd == betaDeg * 30.0 by {
        assert (30.0 / dmd) * dmd == 30.0;
      }
      Some(betaDeg * (30.0 / dmd))
    else None
  }

  /** The DLS of a rising interval has the sign of the dogleg: never negative when arccos
      is not. */
  lemma DlsNonnegative(e: Elementary, md1: real, inc1: real, azi1: real, md2: real, inc2: real, azi2: real)
    requires md2 > md1
    requires forall c: real :: -1.0 <= c <= 1.0 ==> e.arccos(c) >= 0.0
    ensures Dls(e, md1, inc1, azi1, md2, inc2, azi2).Some?
    ensures Dls(e, md1, inc1, azi1, md2, inc2, azi2).value >= 0.0
  {
    var dmd := md2 - md1;
    var beta := DoglegAngle(e, inc1, azi1, inc2, azi2);
    var d := Degrees(beta);
    MulNonneg(beta, 180.0 / Pi);
    MulNonneg(d, 30.0 / dmd);
  }

  /** Parallel stations a positive distance apart have zero DLS. */
  lemma ParallelDlsZero(e: Elementary, md1: real, md2: real, inc: real, azi: real)
    requires md2 > md1 && ParallelLaws(e, inc)
    ensures Dls(e, md1, inc, azi, md2, inc, azi) == Some(0.0)
  {
    ParallelDoglegZero(e, inc, azi);
  }

  /** A north, east, true-vertical-depth triple (metres). */
  datatype Ned = Ned(n: real, e: real, tvd: real)

  function Plus(p: Ned, d: Ned): Ned {
    Ned(p.n + d.n, p.e + d.e, p.tvd + d.tvd)
  }

  const Zero: Ned := Ned(0.0, 0.0, 0.0)

  /** `minimum_curvature_increment`: no movement unless measured depth rises; otherwise the
      average of the two unit tangents, times half the interval, times the ratio factor. */
  function Increment(e: Elementary, md1: real, inc1: real, azi1: real, md2: real, inc2: real, azi2: real): (d: Ned)
    ensures md2 - md1 <= 0.0 ==> d == Zero
  {
    var dmd := md2 - md1;
    if dmd <= 0.0 then Zero
    else
      var i1, i2 := Radians(inc1), Radians(inc2);
      var a1, a2 := Radians(azi1), Radians(azi2);
      var rf := RatioFactor(e, DoglegAngle(e, inc1, azi1, inc2, azi2));
      Ned(
        (dmd / 2.0) * (e.sin(i1) * e.cos(a1) + e.sin(i2) * e.cos(a2)) * rf,
        (dmd / 2.0) * (e.sin(i1) * e.sin(a1) + e.sin(i2) * e.sin(a2)) * rf,
        (dmd / 2.0) * (e.cos(i1) + e.cos(i2)) * rf)
  }

  /** With equal orientation at both ends the increment is the straight-line projection of
      the interval on the tangent. */
  lemma StraightLineIncrement(e: Elementary, md1: real, md2: real, inc: real, azi: real)
    requires md2 > md1 && ParallelLaws(e, inc)
    ensures var i, a, dmd := Radians(inc), Radians(azi), md2 - md1;
      Increment(e, md1, inc, azi, md2, inc, azi) ==
        Ned(dmd * (e.sin(i) * e.cos(a)), dmd * (e.sin(i) * e.sin(a)), dmd * e.cos(i))
  {
    ParallelDoglegZero(e, inc, azi);
    var i, a, dmd := Radians(inc), Radians(azi), md2 - md1;
    assert RatioFactor(e, 0.0) == 1.0;
    var sc, ss, c := e.sin(i) * e.cos(a), e.sin(i) * e.sin(a), e.cos(i);
    assert (dmd / 2.0) * (sc + sc) * 1.0 == dmd * sc;
    assert (dmd / 2.0) * (ss + ss) * 1.0 == dmd * ss;
    assert (dmd / 2.0) * (c + c) * 1.0 == dmd * c;
  }

  /** The value laws a vertical interval relies on. */
  predicate VerticalLaws(e: Elementary) {
    && e.sin(0.0) == 0.0
    && e.cos(0.0) == 1.0
    && e.arccos(1.0) == 0.0
  }

  /** A vertical interval moves only down, by its measured length. */
  lemma VerticalIncrement(e: Elementary, md1: real, azi1: real, md2: real, azi2: real)
    requires md2 > md1 && VerticalLaws(e)
    ensures Increment(e, md1, 0.0, azi1, md2, 0.0, azi2) == Ned(0.0, 0.0, md2 - md1)
  {
    assert Radians(0.0) == 0.0;
    assert DoglegCos(e, 0.0, azi1, 0.0, azi2) == 1.0;
    assert RatioFactor(e, 0.0) == 1.0;
  }

  // ---------------------------------------------------------------- station tables

  /** A station table: the columns it has and its rows. */
  datatype StationTable = StationTable(columns: set<string>, rows: seq<Station>)

  const RequiredColumns: set<string> := {"MD_m", "INC_deg", "AZI_deg"}

  datatype McmError =
    | MissingColumns(missing: set<string>)
    | NoStations

  /** One output row: the station (azimuth wrapped) with its position. `X_m`, `Y_m` and
      `Z_m` are the east, north and true-vertical-depth columns under other names. */
  datatype PositionRow = PositionRow(station: Station, pos: Ned)

  function X(r: PositionRow): real { r.pos.e }
  function Y(r: PositionRow): real { r.pos.n }
  function Z(r: PositionRow): real { r.pos.tvd }

  predicate SortedByMd(rows: seq<Station>) {
    forall i, j :: 0 <= i < j < |rows| ==> rows[i].md <= rows[j].md
  }

  /** Insertion of `s` after every row of no greater depth. */
  function InsertByMd(s: Station, sorted: seq<Station>): (r: seq<Station>)
    requires SortedByMd(sorted)
    ensures |r| == |sorted| + 1 && SortedByMd(r)
    ensures r[0] == s || (sorted != [] && r[0] == sorted[0])
    ensures multiset(r) == multiset(sorted) + multiset{s}
  {
    if sorted == [] then [s]
    else if s.md < sorted[0].md then
      PrependSorted(s, sorted);
      [s] + sorted
    else
      var tl := sorted[1..];
      assert sorted == [sorted[0]] + tl;
      var rest := InsertByMd(s, tl);
      PrependSorted(sorted[0], rest);
      [sorted[0]] + rest
  }

  /** A row no deeper than the first of a sorted list keeps it sorted when put in front. */
  lemma PrependSorted(x: Station, rest: seq<Station>)
    requires SortedByMd(rest) && (rest == [] || x.md <= rest[0].md)
    ensures SortedByMd([x] + rest)
  {
    var r := [x] + rest;
    forall i, j | 0 <= i < j < |r|
      ensures r[i].md <= r[j].md
    {
      assert r[j] == rest[j - 1];
      if i > 0 {
        assert r[i] == rest[i - 1];
      }
    }
  }

  /** `sort_values("MD_m")`, as a stable sort. */
  function SortByMd(rows: seq<Station>): (r: seq<Station>)
    ensures SortedByMd(r)
    ensures multiset(r) == multiset(rows) && |r| == |rows|
  {
    if rows == [] then []
    else
      var init := rows[..|rows| - 1];
      assert rows == init + [rows[|rows| - 1]];
      InsertByMd(rows[|rows| - 1], SortByMd(init))
  }

  /** A row no shallower than every earlier one is appended at the end. */
  lemma {:induction false} InsertLastIsAppend(s: Station, sorted: seq<Station>)
    requires SortedByMd(sorted)
    requires forall i :: 0 <= i < |sorted| ==> sorted[i].md <= s.md
    ensures InsertByMd(s, sorted) == sorted + [s]
  {
    if sorted != [] {
      InsertLastIsAppend(s, sorted[1..]);
      assert sorted == [sorted[0]] + sorted[1..];
    }
  }

  /** A table already in depth order is left in its order. */
  lemma {:induction false} SortSortedIsIdentity(rows: seq<Station>)
    requires SortedByMd(rows)
    ensures SortByMd(rows) == rows
  {
    if rows != [] {
      var init := rows[..|rows| - 1];
      SortSortedIsIdentity(init);
      InsertLastIsAppend(rows[|rows| - 1], init);
      assert init + [rows[|rows| - 1]] == rows;
    }
  }

  function WrapRow(s: Station): Station {
    s.(azi := WrapAzimuth(s.azi))
  }

  /** The interval increment between two rows. */
  function Step(e: Elementary, a: Station, b: Station): Ned {
    Increment(e, a.md, a.inc, a.azi, b.md, b.inc, b.azi)
  }

  /** Position `k` is position `k - 1` plus the increment of the interval that ends at row `k`. */
  predicate Advances(e: Elementary, rows: seq<Station>, t: seq<Ned>, k: nat)
    requires 1 <= k < |rows| == |t|
  {
    t[k] == Plus(t[k - 1], Step(e, rows[k - 1], rows[k]))
  }

  /** The position loop: the first row sits at `start`, and every later row at the previous
      position plus the increment of the interval between them. */
  function Track(e: Elementary, rows: seq<Station>, start: Ned): (t: seq<Ned>)
    requires rows != []
    ensures |t| == |rows| && t[0] == start
    ensures forall k :: 1 <= k < |rows| ==> Advances(e, rows, t, k)
    decreases |rows|
  {
    if |rows| == 1 then [start]
    else
      var n := |rows|;
      var pre := rows[..n - 1];
      var init := Track(e, pre, start);
      var p := Plus(init[n - 2], Step(e, rows[n - 2], rows[n - 1]));
      AdvancesSnoc(e, rows, pre, init, p);
      init + [p]
  }

  /** Extending a track of all rows but the last by the position of the last row keeps every
      step. */
  lemma AdvancesSnoc(e: Elementary, rows: seq<Station>, pre: seq<Station>, init: seq<Ned>, p: Ned)
    requires 2 <= |rows| && pre == rows[..|rows| - 1] && |init| == |pre|
    requires forall k :: 1 <= k < |init| ==> Advances(e, pre, init, k)
    requires p == Plus(init[|init| - 1], Step(e, rows[|rows| - 2], rows[|rows| - 1]))
    ensures forall k :: 1 <= k < |rows| ==> Advances(e, rows, init + [p], k)
  {
    var t := init + [p];
    forall k | 1 <= k < |rows|
      ensures Advances(e, rows, t, k)
    {
      assert t[k - 1] == init[k - 1];
      if k < |init| {
        assert Advances(e, pre, init, k);
        assert pre[k - 1] == rows[k - 1] && pre[k] == rows[k] && t[k] == init[k];
      }
    }
  }

  /** `compute_positions_min_curv`: an error when a required column is missing; otherwise the
      rows in depth order with wrapped azimuths, positioned from `start` (its `y` is north,
      `x` east, `z` true vertical depth). */
  function ComputePositions(e: Elementary, table: StationTable, start: Point3D): (r: Result<seq<PositionRow>, McmError>)
    ensures RequiredColumns - table.columns != {} <==> r == Err(MissingColumns(RequiredColumns - table.columns))
    ensures r == Err(NoStations) <==> RequiredColumns - table.columns == {} && table.rows == []
    ensures r.Ok? ==> RequiredColumns - table.columns == {} && |r.value| == |table.rows| > 0
    ensures r.Ok? ==> SortedByMd(StationsOf(r.value))
    ensures r.Ok? ==> multiset(StationsOf(r.value)) == multiset(Wrapped(SortByMd(table.rows)))
    ensures r.Ok? ==> r.value[0].pos == Ned(start.y, start.x, start.z)
    ensures r.Ok? ==> forall k :: 1 <= k < |r.value| ==> RowAdvances(e, r.value, k)
    ensures r.Ok? ==> forall k :: 0 <= k < |r.value| ==> 0.0 <= r.value[k].station.azi < 360.0
  {
    var missing := RequiredColumns - table.columns;
    if missing != {} then Err(MissingColumns(missing))
    else if table.rows == [] then Err(NoStations)
    else
      var sorted := Wrapped(SortByMd(table.rows));
      var t := Track(e, sorted, Ned(start.y, start.x, start.z));
      var out := seq(|sorted|, k requires 0 <= k < |sorted| => PositionRow(sorted[k], t[k]));
      assert StationsOf(out) == sorted;
      RowsAdvance(e, sorted, t, out);
      Ok(out)
  }

  /** Row `k` sits at the position of row `k - 1` plus the increment of the interval between
      them. */
  predicate RowAdvances(e: Elementary, rows: seq<PositionRow>, k: nat)
    requires 1 <= k < |rows|
  {
    rows[k].pos == Plus(rows[k - 1].pos, Step(e, rows[k - 1].station, rows[k].station))
  }

  /** Rows placed at the positions of a track advance as the track does. */
  lemma RowsAdvance(e: Elementary, rows: seq<Station>, t: seq<Ned>, out: seq<PositionRow>)
    requires |rows| == |t| == |out|
    requires forall k :: 0 <= k < |out| ==> out[k] == PositionRow(rows[k], t[k])
    requires forall k :: 1 <= k < |rows| ==> Advances(e, rows, t, k)
    ensures forall k :: 1 <= k < |out| ==> RowAdvances(e, out, k)
  {
    forall k | 1 <= k < |out|
      ensures RowAdvances(e, out, k)
    {
      assert Advances(e, rows, t, k);
      assert out[k - 1] == PositionRow(rows[k - 1], t[k - 1]);
    }
  }

  function StationsOf(rows: seq<PositionRow>): (s: seq<Station>)
    ensures |s| == |rows| && forall k :: 0 <= k < |rows| ==> s[k] == rows[k].station
  {
    seq(|rows|, k requires 0 <= k < |rows| => rows[k].station)
  }

  /** The azimuth column wrapped into [0, 360), every other field kept. */
  function Wrapped(rows: seq<Station>): (w: seq<Station>)
    ensures |w| == |rows| && forall k :: 0 <= k < |rows| ==> w[k] == WrapRow(rows[k])
    ensures SortedByMd(rows) ==> SortedByMd(w)
  {
    seq(|rows|, k requires 0 <= k < |rows| => WrapRow(rows[k]))
  }

  // ---------------------------------------------------------------- properties of the track

  /** The position of a row depends only on the rows up to it. */
  lemma {:induction false} TrackPrefix(e: Elementary, rows: seq<Station>, start: Ned, m: nat)
    requires 1 <= m <= |rows|
    ensures Track(e, rows[..m], start) == Track(e, rows, start)[..m]
  {
    assert forall k :: 0 <= k < m ==> rows[..m][k] == rows[k];
    PrefixAgree(e, rows, rows[..m], start, m);
  }

  /** Two tracks over tables that agree on their first `m` rows agree on their first `m`
      positions. */
  lemma {:induction false} PrefixAgree(e: Elementary, r1: seq<Station>, r2: seq<Station>, s: Ned, m: nat)
    requires 1 <= m <= |r1| && m <= |r2|
    requires forall k :: 0 <= k < m ==> r1[k] == r2[k]
    ensures Track(e, r1, s)[..m] == Track(e, r2, s)[..m]
  {
    var a := Track(e, r1, s);
    var b := Track(e, r2, s);
    forall k | 0 <= k < m
      ensures a[k] == b[k]
    {
      PrefixAgreeAt(e, r1, r2, s, m, k);
    }
  }

  lemma {:induction false} PrefixAgreeAt(e: Elementary, r1: seq<Station>, r2: seq<Station>, s: Ned, m: nat, k: nat)
    requires 1 <= m <= |r1| && m <= |r2| && k < m
    requires forall j :: 0 <= j < m ==> r1[j] == r2[j]
    ensures Track(e, r1, s)[k] == Track(e, r2, s)[k]
    decreases k
  {
    if k > 0 {
      PrefixAgreeAt(e, r1, r2, s, m, k - 1);
      var t1, t2 := Track(e, r1, s), Track(e, r2, s);
      assert Advances(e, r1, t1, k) && Advances(e, r2, t2, k);
    }
  }

  /** Moving the start point moves every position by the same amount. */
  lemma {:induction false} TrackTranslates(e: Elementary, rows: seq<Station>, start: Ned, shift: Ned, k: nat)
    requires k < |rows|
    ensures Track(e, rows, Plus(start, shift))[k] == Plus(Track(e, rows, start)[k], shift)
    decreases k
  {
    if k > 0 {
      TrackTranslates(e, rows, start, shift, k - 1);
      assert Advances(e, rows, Track(e, rows, Plus(start, shift)), k);
      assert Advances(e, rows, Track(e, rows, start), k);
    }
  }

  /** Rows that all share one depth all sit at the start point. */
  lemma {:induction false} SameDepthStaysAtStart(e: Elementary, rows: seq<Station>, start: Ned, k: nat)
    requires k < |rows|
    requires forall j :: 0 <= j < |rows| ==> rows[j].md == rows[0].md
    ensures Track(e, rows, start)[k] == start
    decreases k
  {
    if k > 0 {
      SameDepthStaysAtStart(e, rows, start, k - 1);
      assert Advances(e, rows, Track(e, rows, start), k);
      assert Step(e, rows[k - 1], rows[k]) == Zero;
    }
  }

  /** A vertical table in depth order descends by exactly its measured depth, without any
      horizontal movement. */
  lemma {:induction false} VerticalTrack(e: Elementary, rows: seq<Station>, start: Ned, k: nat)
    requires k < |rows| && VerticalLaws(e) && SortedByMd(rows)
    requires forall j :: 0 <= j < |rows| ==> rows[j].inc == 0.0
    ensures Track(e, rows, start)[k] == Ned(start.n, start.e, start.tvd + (rows[k].md - rows[0].md))
    decreases k
  {
    if k > 0 {
      VerticalTrack(e, rows, start, k - 1);
      assert Advances(e, rows, Track(e, rows, start), k);
      var a, b := rows[k - 1], rows[k];
      if b.md - a.md > 0.0 {
        VerticalIncrement(e, a.md, a.azi, b.md, b.azi);
      } else {
        assert a.md == b.md;
      }
    }
  }

  // ---------------------------------------------------------------- DLS column

  /** A station with its `DLS_deg_per_30m` value; `None` is NaN. */
  datatype DlsRow = DlsRow(station: Station, dls: Option<real>)

  /** `add_dls`: the rows unchanged with a DLS column; the first row has none, and every
      later row has the DLS of the interval from the row before it. */
  function AddDls(e: Elementary, rows: seq<Station>): (r: seq<DlsRow>)
    ensures |r| == |rows|
    ensures forall k :: 0 <= k < |rows| ==> r[k].station == rows[k]
    ensures rows != [] ==> r[0].dls == None
    ensures forall k :: 1 <= k < |rows| ==> r[k].dls == IntervalDls(e, rows[k - 1], rows[k])
  {
    seq(|rows|, k requires 0 <= k < |rows| =>
      DlsRow(rows[k], if k == 0 then None else IntervalDls(e, rows[k - 1], rows[k])))
  }

  function IntervalDls(e: Elementary, a: Station, b: Station): Option<real> {
    Dls(e, a.md, a.inc, a.azi, b.md, b.inc, b.azi)
  }

  /** A DLS value is present exactly on rows deeper than the row before them. */
  lemma DlsDefinedIffDeeper(e: Elementary, rows: seq<Station>, k: nat)
    requires k < |rows|
    ensures AddDls(e, rows)[k].dls.Some? <==> k > 0 && rows[k - 1].md < rows[k].md
  {
  }

  /** On a table whose depths rise strictly, every row but the first has a DLS value. */
  lemma RisingTableHasDls(e: Elementary, rows: seq<Station>)
    requires forall i, j :: 0 <= i < j < |rows| ==> rows[i].md < rows[j].md
    ensures forall k :: 1 <= k < |rows| ==> AddDls(e, rows)[k].dls.Some?
  {
    forall k | 1 <= k < |rows|
      ensures AddDls(e, rows)[k].dls.Some?
    {
      DlsDefinedIffDeeper(e, rows, k);
    }
  }

  /** A positioned station with its DLS value: one row of the table `add_dls` returns when it
      is given the output of `compute_positions_min_curv`. */
  datatype SurveyRow = SurveyRow(station: Station, pos: Ned, dls: Option<real>)

  /** `add_dls` applied to a positioned table: stations and positions are kept and the DLS
      column is that of the station rows. */
  function WithDls(e: Elementary, rows: seq<PositionRow>): (r: seq<SurveyRow>)
    ensures |r| == |rows|
    ensures forall k :: 0 <= k < |rows| ==> r[k].station == rows[k].station && r[k].pos == rows[k].pos
    ensures forall k :: 0 <= k < |rows| ==> r[k].dls == AddDls(e, StationsOf(rows))[k].dls
  {
    var d := AddDls(e, StationsOf(rows));
    seq(|rows|, k requires 0 <= k < |rows| => SurveyRow(rows[k].station, rows[k].pos, d[k].dls))
  }
}

=== FILE: models.dfy ===
/** The value types the planner exchanges with its callers. */
module Models {

  /** A point in metres: `x` east, `y` north, `z` true vertical depth (positive down). */
  datatype Point3D = Point3D(x: real, y: real, z: real)

  /** A per-role DLS ceiling, in degrees per 30 m, as one entry of an insertion-ordered map. */
  datatype DlsLimit = DlsLimit(segment: string, limit: real)

  /** The planner configuration: every field the modelled code reads. */
  datatype TrajectoryConfig = TrajectoryConfig(
    mdStep: real,
    mdStepControl: real,
    posTolerance: real,
    entryIncTarget: real,
    entryIncTolerance: real,
    maxInc: real,
    dlsBuildMin: real,
    dlsBuildMax: real,
    kopMinVertical: real,
    objectiveMode: string,
    turnSolverMode: string,
    turnSolverQmcSamples: int,
    turnSolverLocalStarts: int,
    dlsLimits: seq<DlsLimit>)
}

=== FILE: numeric.dfy ===
/** Numbers as the source uses them: IEEE doubles become `real` (rounding is not modelled),
    a value `float()` may return is a `Float` that can also be infinite or NaN, and the
    transcendental functions the source takes from NumPy are parameters. */
module Numeric {

  /** What Python's `float(token)` can produce. */
  datatype Float = Finite(value: real) | PosInf | NegInf | NaN

  /** `math.isfinite`. */
  predicate IsFinite(f: Float) {
    f.Finite?
  }

  /** IEEE subtraction on the non-finite values: NaN absorbs everything, an infinity minus
      the same infinity is NaN, and otherwise an infinite operand decides the result. */
  function Sub(a: Float, b: Float): (d: Float)
    ensures d.Finite? <==> a.Finite? && b.Finite?
    ensures a.Finite? && b.Finite? ==> d.value == a.value - b.value
    ensures d.NaN? <==> a.NaN? || b.NaN? || (a == b && !a.Finite?)
  {
    match (a, b)
    case (Finite(x), Finite(y)) => Finite(x - y)
    case (NaN, _) => NaN
    case (_, NaN) => NaN
    case (PosInf, PosInf) => NaN
    case (NegInf, NegInf) => NaN
    case (PosInf, _) => PosInf
    case (NegInf, _) => NegInf
    case (_, PosInf) => NegInf
    case (_, NegInf) => PosInf
  }

  /** `np.hypot` as IEEE 754 defines it: an infinite argument gives +inf even when the other
      is NaN; otherwise NaN gives NaN. */
  function Hypot(e: Elementary, a: Float, b: Float): (h: Float)
    ensures h.Finite? <==> a.Finite? && b.Finite?
    ensures h == PosInf <==> a.PosInf? || a.NegInf? || b.PosInf? || b.NegInf?
    ensures h.NaN? <==> (a.NaN? || b.NaN?) && !(a.PosInf? || a.NegInf? || b.PosInf? || b.NegInf?)
    ensures !h.NegInf?
    ensures a.Finite? && b.Finite? ==> h == Finite(Norm(e, a.value, b.value))
  {
    if a.PosInf? || a.NegInf? || b.PosInf? || b.NegInf? then PosInf
    else if a.NaN? || b.NaN? then NaN
    else Finite(Norm(e, a.value, b.value))
  }

  /** The length of the vector (x, y). */
  function Norm(e: Elementary, x: real, y: real): real {
    e.sqrt(x * x + y * y)
  }

  /** The elementary functions NumPy supplies. Their values are left open; a statement
      that depends on one of their laws asks for that law at the points it uses. */
  datatype Elementary = Elementary(
    sin: real -> real,
    cos: real -> real,
    tan: real -> real,
    arccos: real -> real,
    atan2: (real, real) -> real,
    sqrt: real -> real,
    log10: real -> real)

  /** `np.pi`, the double nearest to pi, written to the 16 digits that identify it. */
  const Pi: real := 3.141592653589793

  /** `x * DEG2RAD` with `DEG2RAD = np.pi / 180`. */
  function Radians(deg: real): real {
    deg * (Pi / 180.0)
  }

  /** `x * RAD2DEG` with `RAD2DEG = 180 / np.pi`, also `np.degrees`. */
  function Degrees(rad: real): real {
    rad * (180.0 / Pi)
  }

  function Abs(x: real): (r: real)
    ensures r >= 0.0 && (r == x || r == -x)
  {
    if x < 0.0 then -x else x
  }

  function Max(a: real, b: real): (r: real)
    ensures r >= a && r >= b && (r == a || r == b)
  {
    if a >= b then a else b
  }

  function Min(a: real, b: real): (r: real)
    ensures r <= a && r <= b && (r == a || r == b)
  {
    if a <= b then a else b
  }

  /** `math.ceil` / `np.ceil` as an integer. */
  function Ceil(x: real): (n: int)
    ensures n as real >= x && (n - 1) as real < x
  {
    -((-x).Floor)
  }

  /** `np.isclose(a, b)` with its default tolerances `rtol = 1e-5`, `atol = 1e-8`. */
  predicate IsClose(a: real, b: real) {
    Abs(a - b) <= 0.00000001 + 0.00001 * Abs(b)
  }

  /** `np.mod(x, m)` for a positive modulus: the floored remainder. */
  function FloorMod(x: real, m: real): (r: real)
    requires m > 0.0
    ensures 0.0 <= r < m
    ensures (((x - r) / m).Floor as real) == (x - r) / m
  {
    var f := x / m;
    var qr := f.Floor as real;
    var d := f - qr;
    assert 0.0 <= d < 1.0;
    assert x - m * qr == m * d;
    assert m * d < m;
    var r := x - m * qr;
    assert r < m;
    assert (x - r) / m == qr;
    r
  }

  lemma MulNonneg(x: real, y: real)
    requires x >= 0.0 && y >= 0.0
    ensures x * y >= 0.0
  {
  }

  lemma MulNonpos(x: real, y: real)
    requires x <= 0.0 && y >= 0.0
    ensures x * y <= 0.0
  {
  }

  /** A fraction of an amount lies between zero and the amount, whatever its sign. */
  lemma ScaleBetween(d: real, t: real)
    requires 0.0 <= t <= 1.0
    ensures 0.0 <= d ==> 0.0 <= d * t <= d
    ensures d <= 0.0 ==> d <= d * t <= 0.0
  {
    assert d * (1.0 - t) == d - d * t;
    if d >= 0.0 {
      MulNonneg(d, t);
      MulNonneg(d, 1.0 - t);
    } else {
      MulNonpos(d, t);
      MulNonpos(d, 1.0 - t);
    }
  }

  /** `10.0 ** e` for an integer exponent. */
  function Pow10(e: int): (r: real)
    ensures r > 0.0
    decreases if e < 0 then -e else e
  {
    if e == 0 then 1.0
    else if e > 0 then 10.0 * Pow10(e - 1)
    else Pow10(e + 1) / 10.0
  }
}

=== FILE: planner.dfy ===
/** `TrajectoryPlanner.plan`: a J-profile (vertical, build, hold) from the surface through t1
    to t3, after the configuration and the target geometry have been checked, surveyed with
    the minimum-curvature method and validated against the position, entry-inclination and
    per-segment DLS tolerances. Trigonometry, `arctan2`, `hypot` and `sqrt` are parameters. */
module Planner {
  import opened Wrappers
  import opened Numeric
  import opened Models
  import opened Segments
  import Trajectory
  import Text
  import opened Mcm

  /** The reasons `PlanningError` is raised, in the order the checks run. */
  datatype PlanningError =
    | NonPositiveMdStep
    | NonPositivePosTolerance
    | NegativeIncTolerance
    | DlsBoundsInverted
    | NegativeDlsLimit(segment: string)
    | OverlapInPlan
    | NotCoplanar
    | T1NotAhead
    | T3NotAheadOfT1
    | NonPositiveSection
    | EntryIncOutOfWindow(inc: real)
    | EntryIncTooSmall
    | InvalidBuildRadius
    | BuildDlsOutOfRange(dls: real)
    | NegativeVertical
    | ZeroHold
    | MissedT1
    | MissedT3
    | EntryIncOffTarget
    | DlsLimitExceeded(segment: string, actual: real, limit: real)

  // ---------------------------------------------------------------- configuration

  /** The position of the first negative DLS limit from `i` on. */
  function FirstNegativeLimit(limits: seq<DlsLimit>, i: nat): (k: Option<nat>)
    requires i <= |limits|
    ensures k.None? <==> forall j :: i <= j < |limits| ==> limits[j].limit >= 0.0
    ensures k.Some? ==> i <= k.value < |limits| && limits[k.value].limit < 0.0
    ensures k.Some? ==> forall j :: i <= j < k.value ==> limits[j].limit >= 0.0
    decreases |limits| - i
  {
    if i == |limits| then None
    else if limits[i].limit < 0.0 then Some(i)
    else FirstNegativeLimit(limits, i + 1)
  }

  /** `_validate_config`: positive MD steps, a positive position tolerance, a non-negative
      inclination tolerance, ordered build-DLS bounds, and no negative segment limit; the
      first failed check is the one reported. */
  function ValidateConfig(c: TrajectoryConfig): (r: Outcome<PlanningError>)
    ensures r.Pass? <==>
      && c.mdStep > 0.0 && c.mdStepControl > 0.0
      && c.posTolerance > 0.0
      && c.entryIncTolerance >= 0.0
      && c.dlsBuildMin <= c.dlsBuildMax
      && forall k :: 0 <= k < |c.dlsLimits| ==> c.dlsLimits[k].limit >= 0.0
    ensures c.mdStep <= 0.0 || c.mdStepControl <= 0.0 ==> r == Fail(NonPositiveMdStep)
    ensures r.Fail? && r.error.NegativeDlsLimit? ==>
      exists k :: 0 <= k < |c.dlsLimits| && c.dlsLimits[k].limit < 0.0 && r.error.segment == c.dlsLimits[k].segment
  {
    if c.mdStep <= 0.0 || c.mdStepControl <= 0.0 then Fail(NonPositiveMdStep)
    else if c.posTolerance <= 0.0 then Fail(NonPositivePosTolerance)
    else if c.entryIncTolerance < 0.0 then Fail(NegativeIncTolerance)
    else if c.dlsBuildMin > c.dlsBuildMax then Fail(DlsBoundsInverted)
    else match FirstNegativeLimit(c.dlsLimits, 0)
      case Some(k) => Fail(NegativeDlsLimit(c.dlsLimits[k].segment))
      case None => Pass
  }

  // ---------------------------------------------------------------- geometry

  /** `_azimuth_deg_from_points`: undefined when t1 and t3 coincide in plan (both offsets
      within `isclose` of zero), else the plan direction from t1 to t3 in [0, 360). */
  function AzimuthFromPoints(e: Elementary, t1: Point3D, t3: Point3D): (r: Result<real, PlanningError>)
    ensures r.Err? <==> IsClose(t3.y - t1.y, 0.0) && IsClose(t3.x - t1.x, 0.0)
    ensures r.Err? ==> r.error == OverlapInPlan
    ensures r.Ok? ==> 0.0 <= r.value < 360.0
  {
    var dn := t3.y - t1.y;
    var de := t3.x - t1.x;
    if IsClose(dn, 0.0) && IsClose(de, 0.0) then Err(OverlapInPlan)
    else Ok(FloorMod(e.atan2(de, dn) * 180.0 / Pi, 360.0))
  }

  /** Coordinates of a point relative to the surface in the vertical section of an azimuth. */
  datatype Section = Section(along: real, cross: real, z: real)

  /** `_project_to_section_axis`. */
  function Project(e: Elementary, surface: Point3D, point: Point3D, azimuth: real): Section {
    var dn := point.y - surface.y;
    var de := point.x - surface.x;
    var az := Radians(azimuth);
    Section(dn * e.cos(az) + de * e.sin(az), -dn * e.sin(az) + de * e.cos(az), point.z - surface.z)
  }

  /** The projection is a rotation: it keeps the horizontal distance from the surface. */
  lemma ProjectionKeepsDistance(e: Elementary, surface: Point3D, point: Point3D, azimuth: real)
    requires var az := Radians(azimuth); e.sin(az) * e.sin(az) + e.cos(az) * e.cos(az) == 1.0
    ensures var p := Project(e, surface, point, azimuth);
      var dn, de := point.y - surface.y, point.x - surface.x;
      p.along * p.along + p.cross * p.cross == dn * dn + de * de
  {
    var dn, de := point.y - surface.y, point.x - surface.x;
    var az := Radians(azimuth);
    var c, s := e.cos(az), e.sin(az);
    var a := dn * c + de * s;
    var x := -dn * s + de * c;
    assert a * a == dn * dn * (c * c) + 2.0 * (dn * de) * (c * s) + de * de * (s * s);
    assert x * x == dn * dn * (s * s) - 2.0 * (dn * de) * (c * s) + de * de * (c * c);
    assert a * a + x * x == dn * dn * (s * s + c * c) + de * de * (s * s + c * c);
  }

  /** The surface itself projects to the origin of every section. */
  lemma SurfaceProjectsToOrigin(e: Elementary, surface: Point3D, azimuth: real)
    ensures Project(e, surface, surface, azimuth) == Section(0.0, 0.0, 0.0)
  {
  }

  /** `_inclination_from_displacement`: the inclination from vertical of the t1-t3 leg. */
  function InclinationFromDisplacement(e: Elementary, ds13: real, dz13: real): real {
    Degrees(e.atan2(ds13, dz13))
  }

  /** What the geometry checks of `plan` hand to the profile solver. */
  datatype Setup = Setup(azimuth: real, s1: real, z1: real, ds13: real, dz13: real, inc: real)

  /** The geometry part of `plan`, after the configuration check: the azimuth, both targets
      in the vertical section, and the checks on them in the source's order. */
  function Geometry(e: Elementary, surface: Point3D, t1: Point3D, t3: Point3D, c: TrajectoryConfig): (r: Result<Setup, PlanningError>)
    ensures AzimuthFromPoints(e, t1, t3).Err? ==> r == Err(OverlapInPlan)
    ensures r.Ok? ==> var az := AzimuthFromPoints(e, t1, t3);
      var p1, p3 := Project(e, surface, t1, r.value.azimuth), Project(e, surface, t3, r.value.azimuth);
      && az == Ok(r.value.azimuth)
      && Abs(p1.cross) <= c.posTolerance && Abs(p3.cross) <= c.posTolerance
      && 0.0 < p1.along < p3.along
      && r.value.s1 == p1.along && r.value.z1 == p1.z
      && r.value.ds13 == p3.along - p1.along > 0.0 && r.value.dz13 == p3.z - p1.z
      && r.value.inc == InclinationFromDisplacement(e, r.value.ds13, r.value.dz13)
      && Abs(r.value.inc - c.entryIncTarget) <= c.entryIncTolerance
    ensures AzimuthFromPoints(e, t1, t3).Ok? ==>
      var az := AzimuthFromPoints(e, t1, t3).value;
      var p1, p3 := Project(e, surface, t1, az), Project(e, surface, t3, az);
      var coplanar := Abs(p1.cross) <= c.posTolerance && Abs(p3.cross) <= c.posTolerance;
      var inc := InclinationFromDisplacement(e, p3.along - p1.along, p3.z - p1.z);
      && (!coplanar ==> r == Err(NotCoplanar))
      && (coplanar && p1.along <= 0.0 ==> r == Err(T1NotAhead))
      && (coplanar && 0.0 < p1.along && p3.along <= p1.along ==> r == Err(T3NotAheadOfT1))
      && (coplanar && 0.0 < p1.along < p3.along && Abs(inc - c.entryIncTarget) > c.entryIncTolerance ==>
            r == Err(EntryIncOutOfWindow(inc)))
      && (coplanar && 0.0 < p1.along < p3.along && Abs(inc - c.entryIncTarget) <= c.entryIncTolerance ==>
            r.Ok? && r.value.azimuth == az)
  {
    var az :- AzimuthFromPoints(e, t1, t3);
    var p1 := Project(e, surface, t1, az);
    var p3 := Project(e, surface, t3, az);
    if Abs(p1.cross) > c.posTolerance || Abs(p3.cross) > c.posTolerance then Err(NotCoplanar)
    else if p1.along <= 0.0 then Err(T1NotAhead)
    else if p3.along <= p1.along then Err(T3NotAheadOfT1)
    else
      var ds13 := p3.along - p1.along;
      var dz13 := p3.z - p1.z;
      if ds13 <= 0.0 then Err(NonPositiveSection)
      else
        var inc := InclinationFromDisplacement(e, ds13, dz13);
        if Abs(inc - c.entryIncTarget) > c.entryIncTolerance then Err(EntryIncOutOfWindow(inc))
        else Ok(Setup(az, p1.along, p1.z, ds13, dz13, inc))
  }

  /** Once t3 is ahead of t1 the along-section offset is positive, so the separate check on
      it never fires. */
  lemma SectionCheckRedundant(e: Elementary, surface: Point3D, t1: Point3D, t3: Point3D, c: TrajectoryConfig)
    ensures Geometry(e, surface, t1, t3, c) != Err(NonPositiveSection)
  {
  }

  // ---------------------------------------------------------------- J-profile

  /** `ProfileParameters`. */
  datatype ProfileParameters = ProfileParameters(
    incEntry: real, dlsBuild: real, verticalLength: real, holdLength: real, azimuth: real)

  /** `build_length_m`: the length of a build from vertical to the entry inclination. */
  function ProfileBuildLength(p: ProfileParameters): (l: real)
    requires p.dlsBuild != 0.0
  {
    Abs(p.incEntry) / p.dlsBuild * 30.0
  }

  /** `_dls_from_radius`: the DLS, in degrees per 30 m, of an arc of the given radius. */
  function DlsFromRadius(radius: real): (d: real)
    requires radius != 0.0
    ensures radius > 0.0 ==> d > 0.0
    ensures d * (Pi * radius) == 30.0 * 180.0
  {
    var d := 30.0 * 180.0 / (Pi * radius);
    assert d * (Pi * radius) == 30.0 * 180.0;
    d
  }

  /** An arc of this radius turns through 180 / pi degrees every `radius` metres, so DLS and
      radius determine each other. */
  lemma DlsRadiusInverse(r1: real, r2: real)
    requires r1 > 0.0 && r2 > 0.0
    ensures DlsFromRadius(r1) == DlsFromRadius(r2) <==> r1 == r2
  {
    var d1, d2 := DlsFromRadius(r1), DlsFromRadius(r2);
    if d1 == d2 {
      assert d1 * (Pi * r1) == d1 * (Pi * r2);
      assert d1 * Pi * (r1 - r2) == 0.0;
    }
  }

  /** Tolerances of the J-profile solver. */
  const CosEps: real := 0.000000001
  const DlsEps: real := 0.000000001
  const VerticalEps: real := 0.000001

  /** `_solve_j_profile`: the build radius that reaches the along-section offset of t1 at the
      entry inclination, its DLS checked against the configured bounds, the vertical length
      left above the build (a small negative value is clamped to 0), and the hold to t3. */
  function SolveJProfile(e: Elementary, s: Setup, c: TrajectoryConfig): (r: Result<ProfileParameters, PlanningError>)
    ensures var i := Radians(s.inc); var omc := 1.0 - e.cos(i);
      && (omc <= CosEps ==> r == Err(EntryIncTooSmall))
      && (omc > CosEps && s.s1 / omc <= 0.0 ==> r == Err(InvalidBuildRadius))
    ensures var i := Radians(s.inc); var omc := 1.0 - e.cos(i);
      omc > CosEps && s.s1 / omc > 0.0 ==>
        var radius := s.s1 / omc;
        var dls := DlsFromRadius(radius);
        var inRange := c.dlsBuildMin - DlsEps <= dls <= c.dlsBuildMax + DlsEps;
        var vertical := VerticalAbove(e, s, radius);
        var hold := HoldLength(e, s);
        && (!inRange ==> r == Err(BuildDlsOutOfRange(dls)))
        && (inRange && vertical < -VerticalEps ==> r == Err(NegativeVertical))
        && (inRange && vertical >= -VerticalEps && hold <= 0.0 ==> r == Err(ZeroHold))
        && (inRange && vertical >= -VerticalEps && hold > 0.0 ==> r.Ok?)
    ensures r.Ok? ==>
      var i := Radians(s.inc);
      var radius := s.s1 / (1.0 - e.cos(i));
      && 1.0 - e.cos(i) > CosEps && radius > 0.0
      && r.value.dlsBuild > 0.0
      && r.value.dlsBuild * (Pi * radius) == 30.0 * 180.0
      && c.dlsBuildMin - DlsEps <= r.value.dlsBuild <= c.dlsBuildMax + DlsEps
      && VerticalAbove(e, s, radius) >= -VerticalEps
      && r.value.verticalLength == Max(0.0, VerticalAbove(e, s, radius))
      && r.value.holdLength == HoldLength(e, s) > 0.0
      && r.value.incEntry == s.inc && r.value.azimuth == s.azimuth
  {
    var i := Radians(s.inc);
    var omc := 1.0 - e.cos(i);
    if omc <= CosEps then Err(EntryIncTooSmall)
    else
      var radius := s.s1 / omc;
      if radius <= 0.0 then Err(InvalidBuildRadius)
      else SolveFromRadius(s, c, radius, VerticalAbove(e, s, radius), HoldLength(e, s))
  }

  /** `vertical_length` before clamping: the depth of t1 less the depth the build covers. */
  function VerticalAbove(e: Elementary, s: Setup, radius: real): real {
    s.z1 - radius * e.sin(Radians(s.inc))
  }

  /** `hold_length`: `np.hypot(ds_13, dz_13)`. */
  function HoldLength(e: Elementary, s: Setup): real {
    e.sqrt(s.ds13 * s.ds13 + s.dz13 * s.dz13)
  }

  /** The checks of `_solve_j_profile` once a positive build radius is known, with the
      vertical length left above the build and the hold length, in order: the DLS against
      its bounds, the vertical length, the hold length. */
  function SolveFromRadius(s: Setup, c: TrajectoryConfig, radius: real, vertical: real, hold: real): (r: Result<ProfileParameters, PlanningError>)
    requires radius > 0.0
    ensures var dls := DlsFromRadius(radius);
      var inRange := c.dlsBuildMin - DlsEps <= dls <= c.dlsBuildMax + DlsEps;
      && (!inRange ==> r == Err(BuildDlsOutOfRange(dls)))
      && (inRange && vertical < -VerticalEps ==> r == Err(NegativeVertical))
      && (inRange && vertical >= -VerticalEps && hold <= 0.0 ==> r == Err(ZeroHold))
      && (inRange && vertical >= -VerticalEps && hold > 0.0 ==>
            r == Ok(ProfileParameters(s.inc, dls, Max(0.0, vertical), hold, s.azimuth)))
  {
    var dls := DlsFromRadius(radius);
    if dls < c.dlsBuildMin - DlsEps || dls > c.dlsBuildMax + DlsEps then Err(BuildDlsOutOfRange(dls))
    else if vertical < -VerticalEps then Err(NegativeVertical)
    else if hold <= 0.0 then Err(ZeroHold)
    else Ok(ProfileParameters(s.inc, dls, Max(0.0, vertical), hold, s.azimuth))
  }

  /** `_build_trajectory`: vertical, build from 0 to the entry inclination, hold. */
  function ProfileSegments(p: ProfileParameters): (segs: seq<Segment>)
    ensures |segs| == 3
    ensures segs[0].Vertical? && segs[1].Build? && segs[2].Hold?
    ensures forall k :: 0 <= k < 3 ==> segs[k].azi == p.azimuth
  {
    [ Vertical(p.verticalLength, p.azimuth, "VERTICAL"),
      Build(0.0, p.incEntry, p.dlsBuild, p.azimuth, "BUILD"),
      Hold(p.holdLength, p.incEntry, p.azimuth, "HOLD") ]
  }

  /** `md_t1_m`: t1 is reached where the build ends, after the vertical and build segments. */
  lemma MdT1IsEndOfBuild(p: ProfileParameters)
    requires p.dlsBuild > 0.0 && p.verticalLength >= 0.0
    ensures var segs := ProfileSegments(p);
      p.verticalLength + ProfileBuildLength(p) == Length(segs[0]) + Length(segs[1])
  {
    var segs := ProfileSegments(p);
    var l := ProfileBuildLength(p);
    assert l * p.dlsBuild == Abs(p.incEntry) * 30.0 by {
      assert (Abs(p.incEntry) / p.dlsBuild) * p.dlsBuild == Abs(p.incEntry);
    }
    assert Abs(p.incEntry - 0.0) == Abs(p.incEntry);
    BuildLengthCharacterised(0.0, p.incEntry, p.dlsBuild, l);
  }

  // ---------------------------------------------------------------- survey and summary

  /** The columns a generated station table has. */
  const StationColumns: set<string> := {"MD_m", "INC_deg", "AZI_deg", "segment"}

  /** `trajectory.stations(step)`: never empty for a non-empty segment list and a positive
      step. */
  function GeneratedStations(segs: seq<Segment>, step: real): (rows: seq<Station>)
    requires segs != [] && step > 0.0
    ensures rows != []
  {
    Trajectory.PositiveStepSampleable(segs, step);
    Trajectory.StationsKeepEveryRow(segs, step);
    Trajectory.Stations(segs, step).value
  }

  /** `compute_positions_min_curv` on a generated table, which has every column it needs. */
  function Positioned(e: Elementary, rows: seq<Station>, surface: Point3D): (r: seq<PositionRow>)
    requires rows != []
    ensures |r| == |rows|
  {
    var table := StationTable(StationColumns, rows);
    assert RequiredColumns - table.columns == {};
    ComputePositions(e, table, surface).value
  }

  /** `add_dls(compute_positions_min_curv(trajectory.stations(step), start))`. */
  function Survey(e: Elementary, segs: seq<Segment>, step: real, surface: Point3D): (r: seq<SurveyRow>)
    requires segs != [] && step > 0.0
    ensures r != []
  {
    WithDls(e, Positioned(e, GeneratedStations(segs, step), surface))
  }

  /** The survey table: one row per generated station, ordered by depth, starting at the
      surface point with no DLS, each later row carrying the DLS of the interval that ends
      there, and every azimuth in [0, 360). */
  lemma SurveyColumns(e: Elementary, segs: seq<Segment>, step: real, surface: Point3D)
    requires segs != [] && step > 0.0
    ensures var st, r := GeneratedStations(segs, step), Survey(e, segs, step, surface);
      && |r| == |st|
      && r[0].pos == Ned(surface.y, surface.x, surface.z) && r[0].dls.None?
      && (forall k :: 0 <= k < |r| ==> 0.0 <= r[k].station.azi < 360.0)
      && (forall k :: 1 <= k < |r| ==> r[k].dls == IntervalDls(e, r[k - 1].station, r[k].station))
      && (forall i, j :: 0 <= i < j < |r| ==> r[i].station.md <= r[j].station.md)
  {
    var st := GeneratedStations(segs, step);
    var p := Positioned(e, st, surface);
    PositionedRows(e, st, surface);
    DlsAdded(e, p);
    assert Survey(e, segs, step, surface) == WithDls(e, p);
  }

  /** Adding the DLS column keeps the rows' order and positions, leaves the first row without
      a DLS and gives every later row the DLS of the interval ending there. */
  lemma DlsAdded(e: Elementary, p: seq<PositionRow>)
    requires p != []
    ensures var r := WithDls(e, p);
      && |r| == |p| && r[0].pos == p[0].pos && r[0].dls.None?
      && (forall k :: 0 <= k < |r| ==> r[k].station == p[k].station)
      && (forall k :: 1 <= k < |r| ==> r[k].dls == IntervalDls(e, r[k - 1].station, r[k].station))
      && (SortedByMd(StationsOf(p)) ==> forall i, j :: 0 <= i < j < |r| ==> r[i].station.md <= r[j].station.md)
  {
    var r := WithDls(e, p);
    var stations := StationsOf(p);
    var d := AddDls(e, stations);
    forall k | 1 <= k < |r|
      ensures r[k].dls == IntervalDls(e, r[k - 1].station, r[k].station)
    {
      assert r[k].dls == d[k].dls == IntervalDls(e, stations[k - 1], stations[k]);
      assert stations[k - 1] == r[k - 1].station && stations[k] == r[k].station;
    }
    if SortedByMd(stations) {
      forall i, j | 0 <= i < j < |r|
        ensures r[i].station.md <= r[j].station.md
      {
        assert stations[i] == r[i].station && stations[j] == r[j].station;
      }
    }
  }

  /** The positioned stations: one row per station, ordered by MD, starting at the surface,
      with every azimuth in [0, 360). */
  lemma PositionedRows(e: Elementary, st: seq<Station>, surface: Point3D)
    requires st != []
    ensures var p := Positioned(e, st, surface);
      && |p| == |st|
      && p[0].pos == Ned(surface.y, surface.x, surface.z)
      && (forall k :: 0 <= k < |p| ==> 0.0 <= p[k].station.azi < 360.0)
      && SortedByMd(StationsOf(p))
  {
    var table := StationTable(StationColumns, st);
    assert RequiredColumns - table.columns == {};
    assert Positioned(e, st, surface) == ComputePositions(e, table, surface).value;
  }

  /** The index `idxmin` picks: the first row whose depth is nearest `md`. */
  function NearestFrom(d: seq<real>, i: nat, best: nat): (k: nat)
    requires best < i <= |d|
    requires forall j :: 0 <= j < i ==> d[best] <= d[j]
    requires forall j :: 0 <= j < best ==> d[best] < d[j]
    ensures k < |d|
    ensures forall j :: 0 <= j < |d| ==> d[k] <= d[j]
    ensures forall j :: 0 <= j < k ==> d[k] < d[j]
    decreases |d| - i
  {
    if i == |d| then best
    else if d[i] < d[best] then NearestFrom(d, i + 1, i)
    else NearestFrom(d, i + 1, best)
  }

  function DepthGaps(rows: seq<SurveyRow>, md: real): (d: seq<real>)
    ensures |d| == |rows| && forall k :: 0 <= k < |rows| ==> d[k] == Abs(rows[k].station.md - md)
  {
    seq(|rows|, k requires 0 <= k < |rows| => Abs(rows[k].station.md - md))
  }

  function NearestRow(rows: seq<SurveyRow>, md: real): (k: nat)
    requires rows != []
    ensures k < |rows|
    ensures forall j :: 0 <= j < |rows| ==> Abs(rows[k].station.md - md) <= Abs(rows[j].station.md - md)
    ensures forall j :: 0 <= j < k ==> Abs(rows[k].station.md - md) < Abs(rows[j].station.md - md)
  {
    NearestFrom(DepthGaps(rows, md), 1, 0)
  }

  /** `nanmax` / `max(skipna=True)`: the largest defined value, `None` when there is none. */
  function MaxDefined(vals: seq<Option<real>>): (r: Option<real>)
    ensures r.None? <==> forall k :: 0 <= k < |vals| ==> vals[k].None?
    ensures r.Some? ==> exists k :: 0 <= k < |vals| && vals[k] == r
    ensures r.Some? ==> forall k :: 0 <= k < |vals| && vals[k].Some? ==> vals[k].value <= r.value
  {
    if vals == [] then None
    else
      var rest := MaxDefined(vals[1..]);
      assert forall k :: 1 <= k < |vals| ==> vals[k] == vals[1..][k - 1];
      match (vals[0], rest)
      case (None, _) => rest
      case (Some(v), None) => Some(v)
      case (Some(v), Some(m)) => if v >= m then Some(v) else Some(m)
  }

  /** The DLS column with every row outside `segment` masked out. */
  function SegmentDlsColumn(rows: seq<SurveyRow>, segment: string): (d: seq<Option<real>>)
    ensures |d| == |rows|
    ensures forall k :: 0 <= k < |rows| ==> d[k] == if rows[k].station.segment == segment then rows[k].dls else None
  {
    seq(|rows|, k requires 0 <= k < |rows| => if rows[k].station.segment == segment then rows[k].dls else None)
  }

  /** The summary's per-segment maximum DLS: 0 when the segment has no DLS value. */
  function SegmentMaxDls(rows: seq<SurveyRow>, segment: string): (m: real)
    ensures (forall k :: 0 <= k < |rows| && rows[k].station.segment == segment ==> rows[k].dls.None?) ==> m == 0.0
    ensures forall k :: 0 <= k < |rows| && rows[k].station.segment == segment && rows[k].dls.Some? ==> rows[k].dls.value <= m
    ensures m == 0.0 || exists k :: 0 <= k < |rows| && rows[k].station.segment == segment && rows[k].dls == Some(m)
  {
    var col := SegmentDlsColumn(rows, segment);
    match MaxDefined(col)
    case None => 0.0
    case Some(v) =>
      assert exists k :: 0 <= k < |col| && col[k] == Some(v);
      v
  }

  /** One per-segment pair of the summary under its lower-cased key: the maximum DLS found
      and the configured limit. */
  datatype SegmentDls = SegmentDls(segment: string, maxDls: real, limit: real)

  /** The summary dictionary. `maxDlsTotal` is `None` where `nanmax` would give NaN and no
      segment entry replaces it. */
  datatype Summary = Summary(
    distanceT1: real, distanceT3: real,
    entryInc: real, entryIncTarget: real, entryIncTolerance: real,
    maxDlsTotal: Option<real>, mdTotal: real,
    segments: seq<SegmentDls>)

  /** `_distance_3d` from a positioned row (X east, Y north, Z TVD) to a target. */
  function DistanceTo(e: Elementary, r: SurveyRow, t: Point3D): real {
    var dx, dy, dz := r.pos.e - t.x, r.pos.n - t.y, r.pos.tvd - t.z;
    e.sqrt(dx * dx + dy * dy + dz * dz)
  }

  /** The lower-cased segment name whose maximum is written under the key of the overall
      maximum, `max_dls_total_deg_per_30m`. */
  const TotalKey: string := "total"

  /** Some configured segment's maximum lands on the overall maximum's key. */
  predicate NamesTotal(limits: seq<DlsLimit>) {
    exists k :: 0 <= k < |limits| && Text.Lower(limits[k].segment) == TotalKey
  }

  /** `_build_summary`: t1 is judged at the row nearest `md_t1`, t3 at the last row, and one
      maximum DLS is reported per configured segment, keyed by the lower-cased name. The
      per-segment entries are written after the overall maximum, so a segment whose name
      lowers to `total` replaces it. */
  function BuildSummary(e: Elementary, rows: seq<SurveyRow>, t1: Point3D, t3: Point3D, mdT1: real, c: TrajectoryConfig): (s: Summary)
    requires rows != []
    ensures var k := NearestRow(rows, mdT1);
      && s.distanceT1 == DistanceTo(e, rows[k], t1)
      && s.entryInc == rows[k].station.inc
    ensures s.distanceT3 == DistanceTo(e, rows[|rows| - 1], t3) && s.mdTotal == rows[|rows| - 1].station.md
    ensures !NamesTotal(c.dlsLimits) ==> s.maxDlsTotal == MaxDefined(DlsColumn(rows))
    ensures !NamesTotal(c.dlsLimits) ==> (s.maxDlsTotal.None? <==> forall j :: 0 <= j < |rows| ==> rows[j].dls.None?)
    ensures NamesTotal(c.dlsLimits) ==> s.maxDlsTotal == Some(ReportedMax(s.segments, TotalKey))
    ensures s.maxDlsTotal.None? ==> forall j :: 0 <= j < |rows| ==> rows[j].dls.None?
    ensures s.entryIncTarget == c.entryIncTarget && s.entryIncTolerance == c.entryIncTolerance
    ensures |s.segments| == |c.dlsLimits|
    ensures forall k :: 0 <= k < |c.dlsLimits| ==>
      s.segments[k] == SegmentDls(Text.Lower(c.dlsLimits[k].segment), SegmentMaxDls(rows, c.dlsLimits[k].segment), c.dlsLimits[k].limit)
  {
    var k := NearestRow(rows, mdT1);
    var last := rows[|rows| - 1];
    var entries := seq(|c.dlsLimits|, j requires 0 <= j < |c.dlsLimits| =>
      SegmentDls(Text.Lower(c.dlsLimits[j].segment), SegmentMaxDls(rows, c.dlsLimits[j].segment), c.dlsLimits[j].limit));
    var total := if NamesTotal(c.dlsLimits) then Some(ReportedMax(entries, TotalKey)) else MaxDefined(DlsColumn(rows));
    Summary(
      DistanceTo(e, rows[k], t1), DistanceTo(e, last, t3),
      rows[k].station.inc, c.entryIncTarget, c.entryIncTolerance,
      total, last.station.md, entries)
  }

  function DlsColumn(rows: seq<SurveyRow>): (d: seq<Option<real>>)
    ensures |d| == |rows| && forall k :: 0 <= k < |rows| ==> d[k] == rows[k].dls
  {
    seq(|rows|, k requires 0 <= k < |rows| => rows[k].dls)
  }

  /** The per-segment maximum is never above the overall maximum. */
  lemma SegmentMaxBelowTotal(rows: seq<SurveyRow>, segment: string)
    requires MaxDefined(DlsColumn(rows)).Some?
    requires exists k :: 0 <= k < |rows| && rows[k].station.segment == segment && rows[k].dls.Some?
    ensures SegmentMaxDls(rows, segment) <= MaxDefined(DlsColumn(rows)).value
  {
    var m := SegmentMaxDls(rows, segment);
    var k :| 0 <= k < |rows| && rows[k].station.segment == segment && rows[k].dls == Some(m);
    assert DlsColumn(rows)[k] == Some(m);
  }

  // ---------------------------------------------------------------- validation

  /** `summary.get(key, 0.0)` for a segment's maximum: a later entry overrides an earlier one
      under the same key. */
  function ReportedMax(entries: seq<SegmentDls>, key: string): (m: real)
    ensures (forall k :: 0 <= k < |entries| ==> entries[k].segment != key) ==> m == 0.0
    ensures m == 0.0 || exists k :: 0 <= k < |entries| && entries[k].segment == key && entries[k].maxDls == m
  {
    if entries == [] then 0.0
    else
      var n := |entries|;
      if entries[n - 1].segment == key then entries[n - 1].maxDls
      else
        var m := ReportedMax(entries[..n - 1], key);
        assert forall k :: 0 <= k < n - 1 ==> entries[..n - 1][k] == entries[k];
        m
  }

  const ValidationEps: real := 0.000001

  /** The first configured segment whose reported maximum, read under its lower-cased
      name, is above its limit. */
  function FirstExceeded(s: Summary, limits: seq<DlsLimit>, i: nat): (k: Option<nat>)
    requires i <= |limits|
    ensures k.None? <==> forall j :: i <= j < |limits| ==>
      ReportedMax(s.segments, Text.Lower(limits[j].segment)) <= limits[j].limit + ValidationEps
    ensures k.Some? ==> i <= k.value < |limits|
    ensures k.Some? ==> ReportedMax(s.segments, Text.Lower(limits[k.value].segment)) > limits[k.value].limit + ValidationEps
    decreases |limits| - i
  {
    if i == |limits| then None
    else if ReportedMax(s.segments, Text.Lower(limits[i].segment)) > limits[i].limit + ValidationEps then Some(i)
    else FirstExceeded(s, limits, i + 1)
  }

  /** `_assert_solution_is_valid`: both targets within the position tolerance, the entry
      inclination within its tolerance plus 1e-6, and every segment within its DLS limit plus
      1e-6; the first violation is the one reported. */
  function AssertSolutionIsValid(s: Summary, c: TrajectoryConfig): (r: Outcome<PlanningError>)
    ensures r.Pass? <==>
      && s.distanceT1 <= c.posTolerance
      && s.distanceT3 <= c.posTolerance
      && Abs(s.entryInc - c.entryIncTarget) <= c.entryIncTolerance + ValidationEps
      && forall k :: 0 <= k < |c.dlsLimits| ==>
        ReportedMax(s.segments, Text.Lower(c.dlsLimits[k].segment)) <= c.dlsLimits[k].limit + ValidationEps
    ensures s.distanceT1 > c.posTolerance ==> r == Fail(MissedT1)
    ensures r.Fail? && r.error.DlsLimitExceeded? ==> r.error.actual > r.error.limit + ValidationEps
  {
    if s.distanceT1 > c.posTolerance then Fail(MissedT1)
    else if s.distanceT3 > c.posTolerance then Fail(MissedT3)
    else if Abs(s.entryInc - c.entryIncTarget) > c.entryIncTolerance + ValidationEps then Fail(EntryIncOffTarget)
    else match FirstExceeded(s, c.dlsLimits, 0)
      case Some(k) =>
        var name := c.dlsLimits[k].segment;
        Fail(DlsLimitExceeded(name, ReportedMax(s.segments, Text.Lower(name)), c.dlsLimits[k].limit))
      case None => Pass
  }

  /** When every entry under a key holds the same maximum, the reading under that key is
      that maximum, or 0 when no entry has the key. */
  lemma {:induction false} ReportedMaxIsSegmentMax(entries: seq<SegmentDls>, key: string, m: real)
    requires forall j :: 0 <= j < |entries| && entries[j].segment == key ==> entries[j].maxDls == m
    ensures ReportedMax(entries, key) == m ||
      (ReportedMax(entries, key) == 0.0 && forall j :: 0 <= j < |entries| ==> entries[j].segment != key)
  {
    if entries != [] {
      var n := |entries|;
      if entries[n - 1].segment != key {
        var init := entries[..n - 1];
        assert forall j :: 0 <= j < n - 1 ==> init[j] == entries[j];
        ReportedMaxIsSegmentMax(init, key, m);
      }
    }
  }

  /** The planner names its build segment "BUILD": a configured limit under any other name
      never sees a build DLS, and a segment name that no row carries reports 0. */
  lemma UnusedLimitReportsZero(rows: seq<SurveyRow>, segment: string)
    requires forall k :: 0 <= k < |rows| ==> rows[k].station.segment != segment
    ensures SegmentMaxDls(rows, segment) == 0.0
  {
  }

  // ---------------------------------------------------------------- plan

  /** `PlannerResult`. */
  datatype PlannerResult = PlannerResult(stations: seq<SurveyRow>, summary: Summary, azimuth: real, mdT1: real)

  /** What the surveys of a plan need from its parameters and configuration. */
  predicate Surveyable(p: ProfileParameters, c: TrajectoryConfig) {
    && p.dlsBuild > 0.0 && p.verticalLength >= 0.0
    && c.mdStep > 0.0 && c.mdStepControl > 0.0
    && 0.0 <= p.azimuth < 360.0
  }

  /** The part of `plan` before any survey: the configuration check, the geometry checks and
      the profile solver, in that order; the first failure is the error. */
  function Profile(e: Elementary, surface: Point3D, t1: Point3D, t3: Point3D, c: TrajectoryConfig): (r: Result<ProfileParameters, PlanningError>)
    ensures r.Ok? ==> Surveyable(r.value, c)
  {
    match ValidateConfig(c)
    case Fail(err) => Err(err)
    case Pass =>
      var setup :- Geometry(e, surface, t1, t3, c);
      SolveJProfile(e, setup, c)
  }

  /** The profile is the solver's answer for the checked geometry of a valid configuration,
      and each earlier failure is reported as it occurs. */
  lemma ProfileSteps(e: Elementary, surface: Point3D, t1: Point3D, t3: Point3D, c: TrajectoryConfig)
    ensures var r := Profile(e, surface, t1, t3, c);
      && (ValidateConfig(c).Fail? ==> r == Err(ValidateConfig(c).error))
      && (ValidateConfig(c).Pass? && Geometry(e, surface, t1, t3, c).Err? ==> r == Err(Geometry(e, surface, t1, t3, c).error))
      && (ValidateConfig(c).Pass? && Geometry(e, surface, t1, t3, c).Ok? ==>
            r == SolveJProfile(e, Geometry(e, surface, t1, t3, c).value, c))
      && (r.Ok? ==>
            && ValidateConfig(c).Pass? && Geometry(e, surface, t1, t3, c).Ok?
            && r.value.azimuth == Geometry(e, surface, t1, t3, c).value.azimuth)
  {
  }

  /** `md_t1_m`. */
  function MdT1(p: ProfileParameters): real
    requires p.dlsBuild > 0.0
  {
    p.verticalLength + ProfileBuildLength(p)
  }

  /** The survey `plan` validates: the profile at the control step. */
  function ControlSurvey(e: Elementary, surface: Point3D, p: ProfileParameters, c: TrajectoryConfig): (rows: seq<SurveyRow>)
    requires Surveyable(p, c)
    ensures rows != []
  {
    Survey(e, ProfileSegments(p), c.mdStepControl, surface)
  }

  /** The summary `plan` validates: that of the control survey. */
  function ControlSummary(e: Elementary, surface: Point3D, t1: Point3D, t3: Point3D, p: ProfileParameters, c: TrajectoryConfig): Summary
    requires Surveyable(p, c)
  {
    BuildSummary(e, ControlSurvey(e, surface, p, c), t1, t3, MdT1(p), c)
  }

  /** The part of `plan` after the profile is solved: a result exactly when the summary of
      the control survey (at the control step) passes validation, holding that summary and
      the survey at the output step. */
  function Realise(e: Elementary, surface: Point3D, t1: Point3D, t3: Point3D, p: ProfileParameters, c: TrajectoryConfig): (r: Result<PlannerResult, PlanningError>)
    requires Surveyable(p, c)
    ensures var v := AssertSolutionIsValid(ControlSummary(e, surface, t1, t3, p, c), c);
      && (v.Fail? ==> r == Err(v.error))
      && (v.Pass? <==> r.Ok?)
    ensures r.Ok? ==>
      var segs := ProfileSegments(p);
      && r.value.summary == ControlSummary(e, surface, t1, t3, p, c)
      && AssertSolutionIsValid(r.value.summary, c).Pass?
      && r.value.stations == Survey(e, segs, c.mdStep, surface)
      && r.value.azimuth == p.azimuth
      && r.value.mdT1 == Length(segs[0]) + Length(segs[1])
  {
    MdT1IsEndOfBuild(p);
    var summary := ControlSummary(e, surface, t1, t3, p, c);
    match AssertSolutionIsValid(summary, c)
    case Fail(err) => Err(err)
    case Pass =>
      Ok(PlannerResult(Survey(e, ProfileSegments(p), c.mdStep, surface), summary, p.azimuth, MdT1(p)))
  }

  /** `plan`: the configuration and the geometry are checked and the profile solved before
      any survey; a solved profile is then surveyed and validated. */
  function Plan(e: Elementary, surface: Point3D, t1: Point3D, t3: Point3D, c: TrajectoryConfig): (r: Result<PlannerResult, PlanningError>)
    ensures Profile(e, surface, t1, t3, c).Err? ==> r == Err(Profile(e, surface, t1, t3, c).error)
    ensures Profile(e, surface, t1, t3, c).Ok? ==> r == Realise(e, surface, t1, t3, Profile(e, surface, t1, t3, c).value, c)
    ensures r.Ok? ==> 0.0 <= r.value.azimuth < 360.0 && AssertSolutionIsValid(r.value.summary, c).Pass?
  {
    match Profile(e, surface, t1, t3, c)
    case Err(err) => Err(err)
    case Ok(p) => Realise(e, surface, t1, t3, p, c)
  }

  /** A summary that passes validation speaks for the targets: the row nearest the t1 depth
      lies within the position tolerance of t1 with the entry inclination in its window, and
      the last row lies within the position tolerance of t3. */
  lemma ValidSummaryHitsTargets(e: Elementary, rows: seq<SurveyRow>, t1: Point3D, t3: Point3D, mdT1: real, c: TrajectoryConfig)
    requires rows != []
    requires AssertSolutionIsValid(BuildSummary(e, rows, t1, t3, mdT1, c), c).Pass?
    ensures var k := NearestRow(rows, mdT1);
      && DistanceTo(e, rows[k], t1) <= c.posTolerance
      && Abs(rows[k].station.inc - c.entryIncTarget) <= c.entryIncTolerance + ValidationEps
      && DistanceTo(e, rows[|rows| - 1], t3) <= c.posTolerance
  {
  }

  /** No two configured segment names differ only in letter case, so no summary key is
      written twice. */
  predicate CaseDistinct(limits: seq<DlsLimit>) {
    forall i, j :: 0 <= i < |limits| && 0 <= j < |limits| && Text.Lower(limits[i].segment) == Text.Lower(limits[j].segment) ==>
      limits[i].segment == limits[j].segment
  }

  /** A summary that passes validation speaks for the DLS when the configured names are
      distinct up to letter case: no row of a configured segment has a DLS above that
      segment's limit. */
  lemma ValidSummaryWithinDls(e: Elementary, rows: seq<SurveyRow>, t1: Point3D, t3: Point3D, mdT1: real, c: TrajectoryConfig)
    requires rows != [] && CaseDistinct(c.dlsLimits)
    requires AssertSolutionIsValid(BuildSummary(e, rows, t1, t3, mdT1, c), c).Pass?
    ensures forall i, j :: 0 <= i < |c.dlsLimits| && 0 <= j < |rows| ==>
      (rows[j].station.segment == c.dlsLimits[i].segment && rows[j].dls.Some? ==>
        rows[j].dls.value <= c.dlsLimits[i].limit + ValidationEps)
  {
    var s := BuildSummary(e, rows, t1, t3, mdT1, c);
    forall i | 0 <= i < |c.dlsLimits|
      ensures forall j :: 0 <= j < |rows| ==>
        (rows[j].station.segment == c.dlsLimits[i].segment && rows[j].dls.Some? ==>
          rows[j].dls.value <= c.dlsLimits[i].limit + ValidationEps)
    {
      var segment := c.dlsLimits[i].segment;
      var key := Text.Lower(segment);
      forall j | 0 <= j < |s.segments| && s.segments[j].segment == key
        ensures s.segments[j].maxDls == SegmentMaxDls(rows, segment)
      {
        assert c.dlsLimits[j].segment == segment;
      }
      KeyedWithinLimit(s.segments, rows, key, segment, i, c.dlsLimits[i].limit + ValidationEps);
    }
  }

  /** When every entry under a key holds the maximum of one segment, a reading under that
      key within a bound keeps every DLS of the segment's rows within it. */
  lemma KeyedWithinLimit(entries: seq<SegmentDls>, rows: seq<SurveyRow>, key: string, segment: string, i: nat, bound: real)
    requires i < |entries| && entries[i].segment == key
    requires forall j :: 0 <= j < |entries| && entries[j].segment == key ==> entries[j].maxDls == SegmentMaxDls(rows, segment)
    requires ReportedMax(entries, key) <= bound
    ensures forall j :: 0 <= j < |rows| ==>
      (rows[j].station.segment == segment && rows[j].dls.Some? ==> rows[j].dls.value <= bound)
  {
    ReportedMaxIsSegmentMax(entries, key, SegmentMaxDls(rows, segment));
  }

  /** Limit names that differ only in letter case share one summary key, and the later one
      wins: with limits `HOLD` at 2 and `hold` at 100 on a survey whose rows all belong to
      `HOLD`, both checks read the maximum of a segment named `hold`, which no row carries,
      so the DLS check passes whatever DLS the `HOLD` rows have. */
  lemma CaseVariantLimitHidesExcess(e: Elementary, rows: seq<SurveyRow>, t1: Point3D, t3: Point3D, mdT1: real, c: TrajectoryConfig)
    requires rows != []
    requires c.dlsLimits == [DlsLimit("HOLD", 2.0), DlsLimit("hold", 100.0)]
    requires forall k :: 0 <= k < |rows| ==> rows[k].station.segment == "HOLD"
    ensures !CaseDistinct(c.dlsLimits)
    ensures var s := BuildSummary(e, rows, t1, t3, mdT1, c);
      && ReportedMax(s.segments, Text.Lower("HOLD")) == 0.0
      && FirstExceeded(s, c.dlsLimits, 0).None?
  {
    var s := BuildSummary(e, rows, t1, t3, mdT1, c);
    LowerHold();
    assert c.dlsLimits[0].segment != c.dlsLimits[1].segment by {
      assert "HOLD"[0] != "hold"[0];
    }
    UnusedLimitReportsZero(rows, "hold");
    assert s.segments[1] == SegmentDls("hold", 0.0, 100.0);
    assert ReportedMax(s.segments, "hold") == 0.0;
    assert FirstExceeded(s, c.dlsLimits, 2).None?;
    assert FirstExceeded(s, c.dlsLimits, 1).None?;
  }

  /** A configured segment `TOTAL` that no row belongs to overwrites the overall maximum with
      0, however large the survey's DLS: the batch table then reports a maximum DLS of 0. */
  lemma TotalLimitHidesMaximum(e: Elementary, rows: seq<SurveyRow>, t1: Point3D, t3: Point3D, mdT1: real, c: TrajectoryConfig, j: nat)
    requires j < |rows| && rows[j].dls.Some? && rows[j].dls.value > 0.0
    requires c.dlsLimits == [DlsLimit("TOTAL", 5.0)]
    requires forall k :: 0 <= k < |rows| ==> rows[k].station.segment != "TOTAL"
    ensures NamesTotal(c.dlsLimits)
    ensures MaxDefined(DlsColumn(rows)).Some? && MaxDefined(DlsColumn(rows)).value > 0.0
    ensures BuildSummary(e, rows, t1, t3, mdT1, c).maxDlsTotal == Some(0.0)
  {
    var s := BuildSummary(e, rows, t1, t3, mdT1, c);
    LowerTotal();
    assert Text.Lower(c.dlsLimits[0].segment) == TotalKey;
    assert DlsColumn(rows)[j] == rows[j].dls;
    UnusedLimitReportsZero(rows, "TOTAL");
    assert s.segments == [SegmentDls(TotalKey, 0.0, 5.0)];
  }

  lemma LowerTotal()
    ensures Text.Lower("TOTAL") == TotalKey
  {
    var l := Text.Lower("TOTAL");
    assert l[0] == 't' && l[1] == 'o' && l[2] == 't' && l[3] == 'a' && l[4] == 'l';
  }

  lemma LowerHold()
    ensures Text.Lower("HOLD") == "hold" && Text.Lower("hold") == "hold"
  {
    var l := Text.Lower("HOLD");
    assert l[0] == 'h' && l[1] == 'o' && l[2] == 'l' && l[3] == 'd';
    Text.LowerFixesLowerCase("hold");
  }

  /** What a plan promises of a survey: the row nearest the t1 depth lies within the
      position tolerance of t1 with the entry inclination in its window, the last row lies
      within the position tolerance of t3, and no row of a configured segment has a DLS above
      that segment's limit. */
  predicate MeetsTolerances(e: Elementary, rows: seq<SurveyRow>, t1: Point3D, t3: Point3D, mdT1: real, c: TrajectoryConfig)
    requires rows != []
  {
    var k := NearestRow(rows, mdT1);
    && DistanceTo(e, rows[k], t1) <= c.posTolerance
    && Abs(rows[k].station.inc - c.entryIncTarget) <= c.entryIncTolerance + ValidationEps
    && DistanceTo(e, rows[|rows| - 1], t3) <= c.posTolerance
    && forall i, j :: 0 <= i < |c.dlsLimits| && 0 <= j < |rows| ==>
      (rows[j].station.segment == c.dlsLimits[i].segment && rows[j].dls.Some? ==>
        rows[j].dls.value <= c.dlsLimits[i].limit + ValidationEps)
  }

  /** A summary passes validation only when its rows meet the tolerances, for configured
      segment names distinct up to letter case. */
  lemma ValidSummaryMeetsTolerances(e: Elementary, rows: seq<SurveyRow>, t1: Point3D, t3: Point3D, mdT1: real, c: TrajectoryConfig)
    requires rows != [] && CaseDistinct(c.dlsLimits)
    requires AssertSolutionIsValid(BuildSummary(e, rows, t1, t3, mdT1, c), c).Pass?
    ensures MeetsTolerances(e, rows, t1, t3, mdT1, c)
  {
    ValidSummaryHitsTargets(e, rows, t1, t3, mdT1, c);
    ValidSummaryWithinDls(e, rows, t1, t3, mdT1, c);
  }

  /** A surveyed plan is returned only when its control survey meets the tolerances, for
      configured segment names distinct up to letter case. */
  lemma RealisedMeetsTolerances(e: Elementary, surface: Point3D, t1: Point3D, t3: Point3D, p: ProfileParameters, c: TrajectoryConfig)
    requires Surveyable(p, c) && CaseDistinct(c.dlsLimits) && Realise(e, surface, t1, t3, p, c).Ok?
    ensures MeetsTolerances(e, ControlSurvey(e, surface, p, c), t1, t3, MdT1(p), c)
  {
    ValidSummaryMeetsTolerances(e, ControlSurvey(e, surface, p, c), t1, t3, MdT1(p), c);
  }
}

=== FILE: planner_config.dfy ===
/** The configuration helpers the UI uses to build a planner configuration: ordering of the
    build-DLS bounds and the per-role DLS ceilings derived from the build maximum. */
module PlannerConfig {
  import opened Wrappers
  import opened Numeric
  import opened Models
  import Planner
  import Text

  /** `normalize_build_dls_bounds`: the two bounds in increasing order. */
  function NormalizeBuildDlsBounds(a: real, b: real): (r: (real, real))
    ensures r.0 <= r.1
    ensures multiset{r.0, r.1} == multiset{a, b}
  {
    (Min(a, b), Max(a, b))
  }

  /** Bounds already in order are kept. */
  lemma NormalizeOrderedIsIdentity(lo: real, hi: real)
    requires lo <= hi
    ensures NormalizeBuildDlsBounds(lo, hi) == (lo, hi)
  {
  }

  /** Normalising twice is normalising once. */
  lemma NormalizeIdempotent(a: real, b: real)
    ensures var r := NormalizeBuildDlsBounds(a, b);
      NormalizeBuildDlsBounds(r.0, r.1) == r
  {
    var r := NormalizeBuildDlsBounds(a, b);
    NormalizeOrderedIsIdentity(r.0, r.1);
  }

  /** The order the bounds are given in does not matter. */
  lemma NormalizeSymmetric(a: real, b: real)
    ensures NormalizeBuildDlsBounds(a, b) == NormalizeBuildDlsBounds(b, a)
  {
  }

  /** The role names of the DLS ceiling map, in its insertion order. */
  const LimitRoles: seq<string> := ["VERTICAL", "BUILD_REV", "HOLD_REV", "DROP_REV", "BUILD1", "HOLD", "BUILD2", "HORIZONTAL"]

  /** The roles whose ceiling is the build maximum. */
  predicate IsBuildRole(role: string) {
    role in {"BUILD_REV", "DROP_REV", "BUILD1", "BUILD2"}
  }

  /** `build_segment_dls_limits`: 1 on the vertical, 2 on holds and the horizontal, and the
      build maximum (never below 0) on every build or drop role. */
  function BuildSegmentDlsLimits(buildMax: real): (m: seq<DlsLimit>)
    ensures |m| == |LimitRoles| == 8
    ensures forall k :: 0 <= k < 8 ==> m[k].segment == LimitRoles[k]
    ensures forall k :: 0 <= k < 8 ==> m[k].limit >= 0.0
    ensures forall k :: 0 <= k < 8 && IsBuildRole(m[k].segment) ==> m[k].limit == Max(buildMax, 0.0)
    ensures forall k :: 0 <= k < 8 && m[k].segment == "VERTICAL" ==> m[k].limit == 1.0
    ensures forall k :: 0 <= k < 8 && m[k].segment in {"HOLD_REV", "HOLD", "HORIZONTAL"} ==> m[k].limit == 2.0
  {
    var b := Max(buildMax, 0.0);
    [ DlsLimit("VERTICAL", 1.0), DlsLimit("BUILD_REV", b), DlsLimit("HOLD_REV", 2.0),
      DlsLimit("DROP_REV", b), DlsLimit("BUILD1", b), DlsLimit("HOLD", 2.0),
      DlsLimit("BUILD2", b), DlsLimit("HORIZONTAL", 2.0) ]
  }

  /** The roles are distinct, as the keys of a dictionary are. */
  lemma LimitRolesDistinct()
    ensures forall i, j :: 0 <= i < j < |LimitRoles| ==> LimitRoles[i] != LimitRoles[j]
  {
  }

  /** The role names are upper case, so no two of them share a summary key, and a plan
      checked against these limits keeps every role within its own ceiling. */
  lemma BuiltLimitsCaseDistinct(buildMax: real)
    ensures Planner.CaseDistinct(BuildSegmentDlsLimits(buildMax))
  {
    var m := BuildSegmentDlsLimits(buildMax);
    forall i, j | 0 <= i < |m| && 0 <= j < |m| && Text.Lower(m[i].segment) == Text.Lower(m[j].segment)
      ensures m[i].segment == m[j].segment
    {
      RoleWithoutLowerCase(i);
      RoleWithoutLowerCase(j);
      Text.LowerInjective(m[i].segment, m[j].segment);
    }
  }

  lemma RoleWithoutLowerCase(i: nat)
    requires i < |LimitRoles|
    ensures forall k :: 0 <= k < |LimitRoles[i]| ==> !Text.IsLowerLetter(LimitRoles[i][k])
  {
  }

  /** `d[key]` on an insertion-ordered map stored as a list: the value of the last entry
      with the key, if any. */
  function Lookup(m: seq<DlsLimit>, key: string): (r: Option<real>)
    ensures r.None? <==> forall k :: 0 <= k < |m| ==> m[k].segment != key
    ensures r.Some? ==> exists k :: 0 <= k < |m| && m[k] == DlsLimit(key, r.value)
  {
    if m == [] then None
    else if m[|m| - 1].segment == key then Some(m[|m| - 1].limit)
    else
      var r := Lookup(m[..|m| - 1], key);
      assert forall k :: 0 <= k < |m| - 1 ==> m[..|m| - 1][k] == m[k];
      r
  }

  /** The shared build limit can be read back under every build role. */
  lemma BuildRolesReadBack(buildMax: real, role: string)
    requires IsBuildRole(role)
    ensures Lookup(BuildSegmentDlsLimits(buildMax), role) == Some(Max(buildMax, 0.0))
  {
    var m := BuildSegmentDlsLimits(buildMax);
    var r := Lookup(m, role);
    assert m[1].segment == "BUILD_REV" && m[3].segment == "DROP_REV";
    assert m[4].segment == "BUILD1" && m[6].segment == "BUILD2";
    LimitRolesDistinct();
  }

  /** The values the UI supplies for a planner configuration. */
  datatype ConfigInput = ConfigInput(
    mdStep: real,
    mdStepControl: real,
    posTolerance: real,
    entryIncTarget: real,
    entryIncTolerance: real,
    maxInc: real,
    dlsBuildMin: real,
    dlsBuildMax: real,
    kopMinVertical: real,
    objectiveMode: string,
    turnSolverMode: string,
    turnSolverQmcSamples: int,
    turnSolverLocalStarts: int)

  /** `build_trajectory_config`: the bounds normalised, the ceilings derived from the
      normalised maximum, every other field passed through. */
  function BuildTrajectoryConfig(i: ConfigInput): (c: TrajectoryConfig)
    ensures c.dlsBuildMin <= c.dlsBuildMax
    ensures multiset{c.dlsBuildMin, c.dlsBuildMax} == multiset{i.dlsBuildMin, i.dlsBuildMax}
    ensures c.dlsLimits == BuildSegmentDlsLimits(c.dlsBuildMax)
    ensures && c.mdStep == i.mdStep && c.mdStepControl == i.mdStepControl
            && c.posTolerance == i.posTolerance
            && c.entryIncTarget == i.entryIncTarget && c.entryIncTolerance == i.entryIncTolerance
            && c.maxInc == i.maxInc && c.kopMinVertical == i.kopMinVertical
            && c.objectiveMode == i.objectiveMode && c.turnSolverMode == i.turnSolverMode
            && c.turnSolverQmcSamples == i.turnSolverQmcSamples
            && c.turnSolverLocalStarts == i.turnSolverLocalStarts
  {
    var (lo, hi) := NormalizeBuildDlsBounds(i.dlsBuildMin, i.dlsBuildMax);
    TrajectoryConfig(
      i.mdStep, i.mdStepControl, i.posTolerance, i.entryIncTarget, i.entryIncTolerance,
      i.maxInc, lo, hi, i.kopMinVertical, i.objectiveMode, i.turnSolverMode,
      i.turnSolverQmcSamples, i.turnSolverLocalStarts, BuildSegmentDlsLimits(hi))
  }

  /** A configuration built by the helpers can only fail the planner's configuration check
      on its steps and tolerances: the bounds are ordered and no ceiling is negative. */
  lemma BuiltConfigValidity(i: ConfigInput)
    ensures Planner.ValidateConfig(BuildTrajectoryConfig(i)).Pass? <==>
      i.mdStep > 0.0 && i.mdStepControl > 0.0 && i.posTolerance > 0.0 && i.entryIncTolerance >= 0.0
  {
  }
}

=== FILE: plot_axes.dfy ===
/** Axis helpers for the 3-D trajectory view: equal-scale padded ranges for the three axes
    and the tick values along one axis. */
module PlotAxes {
  import opened Wrappers
  import opened Numeric
  import Segments

  // ---------------------------------------------------------------- minimum and maximum

  /** `np.min` of a non-empty array. */
  function SeqMin(s: seq<real>): (m: real)
    requires s != []
    ensures m in s
    ensures forall k :: 0 <= k < |s| ==> m <= s[k]
  {
    if |s| == 1 then s[0] else Min(s[0], SeqMin(s[1..]))
  }

  /** `np.max` of a non-empty array. */
  function SeqMax(s: seq<real>): (m: real)
    requires s != []
    ensures m in s
    ensures forall k :: 0 <= k < |s| ==> s[k] <= m
  {
    if |s| == 1 then s[0] else Max(s[0], SeqMax(s[1..]))
  }

  // ---------------------------------------------------------------- equalised ranges

  /** A two-element range list `[first, second]`, in the order the plot receives it. */
  datatype Range = Range(first: real, second: real)

  datatype AxisRanges = AxisRanges(x: Range, y: Range, z: Range)

  /** The common width of the three ranges: the larger of the horizontal and vertical data
      extents (never below 1), enlarged by the padding fraction. */
  function PaddedSpan(xySpan: real, zSpan: real, pad: real): real {
    Max(Max(xySpan, zSpan), 1.0) * (1.0 + pad)
  }

  /** The extent of the data in x and y together. */
  function XySpan(xs: seq<real>, ys: seq<real>): real
    requires xs != [] && ys != []
  {
    Max(SeqMax(xs), SeqMax(ys)) - Min(SeqMin(xs), SeqMin(ys))
  }

  /** The extent of the data in z. */
  function ZSpan(zs: seq<real>): real
    requires zs != []
  {
    SeqMax(zs) - SeqMin(zs)
  }

  /** `equalized_axis_ranges`. NumPy refuses the minimum of an empty array, so an empty
      coordinate list gives no ranges. The x and y ranges coincide, all three have the
      padded width, and the z range runs from deep to shallow. */
  function EqualizedAxisRanges(xs: seq<real>, ys: seq<real>, zs: seq<real>, pad: real): (r: Option<AxisRanges>)
    ensures r.None? <==> xs == [] || ys == [] || zs == []
    ensures r.Some? ==> r.value.x == r.value.y
    ensures r.Some? ==> var span := PaddedSpan(XySpan(xs, ys), ZSpan(zs), pad);
      && r.value.x.second - r.value.x.first == span
      && r.value.z.first - r.value.z.second == span
    ensures r.Some? ==>
      && r.value.x.first + r.value.x.second == Min(SeqMin(xs), SeqMin(ys)) + Max(SeqMax(xs), SeqMax(ys))
      && r.value.z.first + r.value.z.second == SeqMin(zs) + SeqMax(zs)
  {
    if xs == [] || ys == [] || zs == [] then None
    else
      var xyMin := Min(SeqMin(xs), SeqMin(ys));
      var xyMax := Max(SeqMax(xs), SeqMax(ys));
      var zMin, zMax := SeqMin(zs), SeqMax(zs);
      var half := PaddedSpan(xyMax - xyMin, zMax - zMin, pad) / 2.0;
      var xyCenter := (xyMin + xyMax) / 2.0;
      var zCenter := (zMin + zMax) / 2.0;
      Some(AxisRanges(
        Range(xyCenter - half, xyCenter + half),
        Range(xyCenter - half, xyCenter + half),
        Range(zCenter + half, zCenter - half)))
  }

  /** The padded span is positive for a padding above -1. */
  lemma PaddedSpanPositive(xySpan: real, zSpan: real, pad: real)
    requires pad > -1.0
    ensures PaddedSpan(xySpan, zSpan, pad) > 0.0
  {
    var base := Max(Max(xySpan, zSpan), 1.0);
    var m := 1.0 + pad;
    assert PaddedSpan(xySpan, zSpan, pad) == base * m;
    Segments.MulStrict(0.0, base, m);
  }

  /** For a non-negative padding the padded span is no smaller than either data extent. */
  lemma PaddedSpanCoversExtents(xySpan: real, zSpan: real, pad: real)
    requires pad >= 0.0
    ensures xySpan <= PaddedSpan(xySpan, zSpan, pad) && zSpan <= PaddedSpan(xySpan, zSpan, pad)
  {
    var base := Max(Max(xySpan, zSpan), 1.0);
    var m := 1.0 + pad;
    assert PaddedSpan(xySpan, zSpan, pad) == base * m;
    MulNonneg(base, m - 1.0);
    assert base * m == base + base * (m - 1.0);
  }

  /** A padding above -1 keeps the z range strictly reversed: depth grows downwards. */
  lemma ZRangeReversed(xs: seq<real>, ys: seq<real>, zs: seq<real>, pad: real)
    requires xs != [] && ys != [] && zs != []
    requires pad > -1.0
    ensures EqualizedAxisRanges(xs, ys, zs, pad).value.z.first > EqualizedAxisRanges(xs, ys, zs, pad).value.z.second
  {
    PaddedSpanPositive(XySpan(xs, ys), ZSpan(zs), pad);
  }

  /** A non-negative padding keeps every data point inside its range: x and y values
      between the ends of the shared range, z values between the shallow and deep ends. */
  lemma RangesContainData(xs: seq<real>, ys: seq<real>, zs: seq<real>, pad: real)
    requires xs != [] && ys != [] && zs != []
    requires pad >= 0.0
    ensures var r := EqualizedAxisRanges(xs, ys, zs, pad).value;
      && (forall k :: 0 <= k < |xs| ==> r.x.first <= xs[k] <= r.x.second)
      && (forall k :: 0 <= k < |ys| ==> r.y.first <= ys[k] <= r.y.second)
      && (forall k :: 0 <= k < |zs| ==> r.z.second <= zs[k] <= r.z.first)
  {
    PaddedSpanCoversExtents(XySpan(xs, ys), ZSpan(zs), pad);
    var r := EqualizedAxisRanges(xs, ys, zs, pad).value;
    var xyMin := Min(SeqMin(xs), SeqMin(ys));
    var xyMax := Max(SeqMax(xs), SeqMax(ys));
    assert r.x.first <= xyMin && xyMax <= r.x.second;
    assert r.z.second <= SeqMin(zs) && SeqMax(zs) <= r.z.first;
  }

  // ---------------------------------------------------------------- ticks

  /** `nice_tick_step`: a step of 1, 2, 5 or 10 times the power of ten just below the raw
      step `span / max(target, 1)`; 1 when the span is not positive. */
  function NiceTickStep(e: Elementary, span: real, target: int): (r: real)
    ensures span <= 0.0 ==> r == 1.0
    ensures span > 0.0 ==> var k := e.log10(RawStep(span, target)).Floor;
      r in {Pow10(k), 2.0 * Pow10(k), 5.0 * Pow10(k), 10.0 * Pow10(k)}
  {
    if span <= 0.0 then 1.0
    else
      var raw := RawStep(span, target);
      var base := Pow10(e.log10(raw).Floor);
      NiceMultiple(raw / base) * base
  }

  /** The step that would give exactly `target` ticks (at least one). */
  function RawStep(span: real, target: int): real {
    span / (if target >= 1 then target else 1) as real
  }

  /** The first of 1, 2, 5 that is not below `fraction`, else 10. */
  function NiceMultiple(fraction: real): (nice: real)
    ensures nice in {1.0, 2.0, 5.0, 10.0}
    ensures fraction <= 10.0 ==> fraction <= nice
    ensures fraction > 1.0 ==> nice < 2.5 * fraction
  {
    if fraction <= 1.0 then 1.0
    else if fraction <= 2.0 then 2.0
    else if fraction <= 5.0 then 5.0
    else 10.0
  }

  /** When `log10` is exact at the raw step, so that the power of ten below it is the
      true one, the nice step covers the raw step by less than a factor 2.5. */
  lemma NiceStepCoversRawStep(e: Elementary, span: real, target: int)
    requires span > 0.0
    requires var k := e.log10(RawStep(span, target)).Floor;
      Pow10(k) <= RawStep(span, target) < 10.0 * Pow10(k)
    ensures RawStep(span, target) <= NiceTickStep(e, span, target) < 2.5 * RawStep(span, target)
  {
    var raw := RawStep(span, target);
    NiceBounds(raw, Pow10(e.log10(raw).Floor));
  }

  /** The nice multiple of a step between one and ten units of `base` covers the step by
      less than a factor 2.5. */
  lemma NiceBounds(raw: real, base: real)
    requires 0.0 < base <= raw < 10.0 * base
    ensures raw <= NiceMultiple(raw / base) * base < 2.5 * raw
  {
    var f := raw / base;
    assert f * base == raw;
    DivLower(raw, base, 1.0);
    DivUpper(raw, base, 10.0);
    var nice := NiceMultiple(f);
    assert raw <= nice * base by {
      MulNonneg(nice - f, base);
      assert (nice - f) * base == nice * base - f * base;
    }
    if f == 1.0 {
      assert nice * base == raw;
    } else {
      ScaledBelow(nice, f, base, raw);
    }
  }

  lemma ScaledBelow(a: real, f: real, base: real, raw: real)
    requires base > 0.0 && f * base == raw && a < 2.5 * f
    ensures a * base < 2.5 * raw
  {
    Segments.MulStrict(a, 2.5 * f, base);
  }

  lemma DivLower(a: real, b: real, c: real)
    requires b > 0.0 && c * b <= a
    ensures c <= a / b
  {
    assert a / b - c == (a - c * b) / b;
  }

  lemma DivUpper(a: real, b: real, c: real)
    requires b > 0.0 && a < c * b
    ensures a / b < c
  {
    assert c - a / b == (c * b - a) / b;
  }

  /** The multiple of `step` at or below `x` is less than one step below it. */
  lemma FloorMultipleBounds(x: real, step: real)
    requires step > 0.0
    ensures x - step < (x / step).Floor as real * step <= x
  {
    var q := (x / step).Floor as real;
    var d := x / step - q;
    assert 0.0 <= d < 1.0;
    assert d * step == x - q * step;
    MulNonneg(d, step);
    Segments.MulStrict(d, 1.0, step);
  }

  /** Whether `x` lies exactly halfway between two integers. */
  predicate IsTie(x: real) {
    x - x.Floor as real == 0.5
  }

  /** `np.rint`: the nearest integer, ties to the even one. */
  function RoundHalfEven(x: real): (n: int)
    ensures -0.5 <= n as real - x <= 0.5
    ensures !IsTie(x) ==> -0.5 < n as real - x < 0.5
    ensures IsTie(x) ==> n % 2 == 0
  {
    var f := x.Floor;
    var d := x - f as real;
    if d < 0.5 then f
    else if d > 0.5 then f + 1
    else if f % 2 == 0 then f
    else f + 1
  }

  /** Only one integer is as near as that: the rounded value is the nearest integer, and on a
      tie the even one of the two nearest. */
  lemma RoundHalfEvenUnique(x: real, m: int)
    requires -0.5 <= m as real - x <= 0.5
    requires !IsTie(x) ==> -0.5 < m as real - x < 0.5
    requires IsTie(x) ==> m % 2 == 0
    ensures m == RoundHalfEven(x)
  {
    var n := RoundHalfEven(x);
    var f := x.Floor;
    if IsTie(x) {
      assert m == f || m == f + 1;
      assert n == f || n == f + 1;
    } else {
      assert -1.0 < (m - n) as real < 1.0;
    }
  }

  /** `np.round(v, 6)`: scale by a million, round to the nearest integer, scale back. */
  function Round6(v: real): (r: real)
    ensures -0.0000005 <= r - v <= 0.0000005
    ensures (r * 1000000.0).Floor as real == r * 1000000.0
    ensures !IsTie(v * 1000000.0) ==> -0.5 < r * 1000000.0 - v * 1000000.0 < 0.5
    ensures IsTie(v * 1000000.0) ==> (r * 1000000.0).Floor % 2 == 0
  {
    var n := RoundHalfEven(v * 1000000.0);
    assert n as real / 1000000.0 - v == (n as real - v * 1000000.0) / 1000000.0;
    assert n as real / 1000000.0 * 1000000.0 == n as real;
    n as real / 1000000.0
  }

  /** The unrounded grid of `linear_tick_values` for a positive step: the multiples of the
      step from the one at or below `lo`, while below `hi + step / 2`. */
  function TickGrid(lo: real, hi: real, step: real): (g: seq<real>)
    requires step > 0.0
  {
    var first := (lo / step).Floor as real * step;
    Segments.Samples(first, hi + step * 0.5 - first, step)
  }

  /** `linear_tick_values`: the range is ordered first; a non-positive step gives just its
      two ends; otherwise the grid, or the two ends if the grid is empty, rounded to 6
      decimals. */
  function LinearTickValues(range: Range, step: real): (r: seq<real>)
    ensures step <= 0.0 ==> r == [Min(range.first, range.second), Max(range.first, range.second)]
    ensures step > 0.0 ==> |r| >= 1
    ensures step > 0.0 && TickGrid(Min(range.first, range.second), Max(range.first, range.second), step) != [] ==>
      var g := TickGrid(Min(range.first, range.second), Max(range.first, range.second), step);
      |r| == |g| && forall k :: 0 <= k < |r| ==> -0.0000005 <= r[k] - g[k] <= 0.0000005
  {
    var lo := Min(range.first, range.second);
    var hi := Max(range.first, range.second);
    if step <= 0.0 then [lo, hi]
    else
      var g := TickGrid(lo, hi, step);
      var values := if g == [] then [lo, hi] else g;
      seq(|values|, k requires 0 <= k < |values| => Round6(values[k]))
  }

  /** For a positive step the grid is never empty: it starts one step or less below `lo`,
      rises by the step, and its last value is within half a step of `hi`, so the ticks
      cover the ordered range. */
  lemma TickGridCoversRange(lo: real, hi: real, step: real)
    requires lo <= hi && step > 0.0
    ensures var g := TickGrid(lo, hi, step);
      && g != []
      && lo - step < g[0] <= lo
      && (forall k :: 0 <= k < |g| - 1 ==> g[k + 1] - g[k] == step)
      && hi - step * 0.5 <= g[|g| - 1] < hi + step * 0.5
  {
    var first := (lo / step).Floor as real * step;
    FloorMultipleBounds(lo, step);
    var length := hi + step * 0.5 - first;
    var g := TickGrid(lo, hi, step);
    assert g == Segments.Samples(first, length, step);
    var n := |g|;
    assert n >= 1;
    assert g[0] == first + Segments.Offset(0, step);
    forall k | 0 <= k < n - 1
      ensures g[k + 1] - g[k] == step
    {
      OffsetSucc(k, step);
    }
    OffsetSucc(n - 1, step);
    assert Segments.Offset(n - 1, step) < length <= Segments.Offset(n, step);
  }

  lemma OffsetSucc(k: nat, step: real)
    ensures Segments.Offset(k + 1, step) == Segments.Offset(k, step) + step
  {
    assert ((k + 1) as real) * step == (k as real) * step + 1.0 * step;
  }
}

=== FILE: segments.dfy ===
/** The segment model: the measured-depth grid every segment samples on, the length of
    each segment kind, and the station rows a segment generates from a start depth. */
module Segments {
  import opened Numeric

  /** Below this length a segment is treated as a single point. */
  const LengthEps: real := 0.000000001

  /** One row of a station table: measured depth, inclination, azimuth (degrees) and the
      name of the segment that produced it. */
  datatype Station = Station(md: real, inc: real, azi: real, segment: string)

  // ---------------------------------------------------------------- MD grid

  /** The offset of sample `k` of a grid from its start. */
  function Offset(k: nat, step: real): real {
    (k as real) * step
  }

  /** The number of samples `np.arange(start, start + length, step)` produces. */
  function ArangeCount(length: real, step: real): (n: nat)
    requires step != 0.0
    ensures step > 0.0 && length > 0.0 ==> n >= 1
    ensures step > 0.0 ==> forall k: nat :: k < n ==> Offset(k, step) < length
    ensures step > 0.0 && n > 0 ==> length <= Offset(n, step)
    ensures step < 0.0 && length > 0.0 ==> n == 0
  {
    var c := Ceil(length / step);
    assert step > 0.0 ==> forall k: nat :: k < c ==> Offset(k, step) < length by {
      if step > 0.0 {
        forall k: nat | k < c
          ensures Offset(k, step) < length
        {
          BelowQuotient(k as real, length, step);
        }
      }
    }
    assert step > 0.0 && c > 0 ==> length <= Offset(c as nat, step) by {
      if step > 0.0 && c > 0 {
        AtLeastQuotient(c as real, length, step);
      }
    }
    assert step < 0.0 && length > 0.0 ==> length / step < 0.0;
    if c < 0 then 0 else c
  }

  lemma BelowQuotient(a: real, length: real, step: real)
    requires step > 0.0 && a < length / step
    ensures a * step < length
  {
    assert (length / step) * step == length;
    MulStrict(a, length / step, step);
  }

  lemma AtLeastQuotient(a: real, length: real, step: real)
    requires step > 0.0 && a >= length / step
    ensures length <= a * step
  {
    assert (length / step) * step == length;
    MulNonneg(a - length / step, step);
    assert a * step - (length / step) * step == (a - length / step) * step;
  }

  lemma MulStrict(a: real, b: real, s: real)
    requires s > 0.0 && a < b
    ensures a * s < b * s
  {
    assert b * s - a * s == (b - a) * s;
  }

  /** The samples of `np.arange(start, start + length, step)`. */
  function Samples(start: real, length: real, step: real): (r: seq<real>)
    requires step != 0.0
    ensures |r| == ArangeCount(length, step)
    ensures forall k :: 0 <= k < |r| ==> r[k] == start + Offset(k, step)
  {
    var n := ArangeCount(length, step);
    seq(n, k requires 0 <= k < n => start + Offset(k, step))
  }

  /** `_make_md_grid`: `[start]` for a point-like segment; otherwise the samples
      `start, start + step, ...` below the end, with the end appended unless the last
      sample is already within `isclose` of it. */
  function MdGrid(start: real, length: real, step: real): (md: seq<real>)
    requires length <= LengthEps || step != 0.0
    ensures |md| >= 1
    ensures length <= LengthEps ==> md == [start]
    ensures length > LengthEps ==> forall k :: 0 <= k < |md| - 1 ==> md[k] == start + Offset(k, step)
    ensures length > LengthEps ==>
      || md[|md| - 1] == start + length
      || (IsClose(md[|md| - 1], start + length) && md[|md| - 1] == start + Offset(|md| - 1, step))
  {
    if length <= LengthEps then [start]
    else
      var mdEnd := start + length;
      var samples := Samples(start, length, step);
      var n := |samples|;
      if n == 0 || !IsClose(samples[n - 1], mdEnd) then samples + [mdEnd]
      else samples
  }

  /** Samples rise with their index and stay below the end. */
  lemma SampleOrder(start: real, length: real, step: real, i: nat, j: nat)
    requires step > 0.0 && i < j
    ensures start + Offset(i, step) < start + Offset(j, step)
  {
    MulStrict(i as real, j as real, step);
  }

  /** With a positive step the grid starts at `start`, rises strictly and never passes the end. */
  lemma GridIncreasing(start: real, length: real, step: real)
    requires step > 0.0
    ensures var md := MdGrid(start, length, step);
      && md[0] == start
      && (forall i, j :: 0 <= i < j < |md| ==> md[i] < md[j])
      && (forall i :: 0 <= i < |md| ==> start <= md[i] <= start + Max(length, 0.0))
  {
    var md := MdGrid(start, length, step);
    if length > LengthEps {
      var samples := Samples(start, length, step);
      var n := |samples|;
      assert md == samples || md == samples + [start + length];
      assert forall k :: 0 <= k < n ==> md[k] == start + Offset(k, step);
      assert forall k: nat :: k < n ==> Offset(k, step) < length;
      assert n >= 1;
      assert md[0] == start + Offset(0, step);
      forall i, j | 0 <= i < j < |md|
        ensures md[i] < md[j]
      {
        if j < n {
          SampleOrder(start, length, step, i, j);
        }
      }
      forall i | 0 <= i < |md|
        ensures start <= md[i] <= start + length
      {
        if i < n {
          MulNonneg(i as real, step);
        }
      }
    }
  }

  // ---------------------------------------------------------------- segments

  /** The four segment kinds. `Horizontal` is a hold at 90 degrees by default. Lengths and
      DLS are kept as given; their clamping is part of `Length`. */
  datatype Segment =
    | Vertical(length: real, azi: real, name: string)
    | Hold(length: real, inc: real, azi: real, name: string)
    | Build(incFrom: real, incTo: real, dls: real, azi: real, name: string)
    | Horizontal(length: real, azi: real, inc: real, name: string)

  const DefaultHorizontalInc: real := 90.0

  /** `length_m` of each kind. */
  function Length(s: Segment): (l: real)
    ensures l >= 0.0
    ensures !s.Build? ==> l == Max(s.length, 0.0)
    ensures s.Build? && s.dls <= 0.0 ==> l == 0.0
  {
    match s
    case Vertical(length, _, _) => Max(length, 0.0)
    case Hold(length, _, _, _) => Max(length, 0.0)
    case Horizontal(length, _, _, _) => Max(length, 0.0)
    case Build(incFrom, incTo, dls, _, _) =>
      var rate := Max(dls, 0.0);
      if rate <= 0.0 then 0.0 else BuildLength(incFrom, incTo, rate)
  }

  /** The length a build needs to turn from `incFrom` to `incTo` at `rate` degrees per 30 m. */
  function BuildLength(incFrom: real, incTo: real, rate: real): (l: real)
    requires rate > 0.0
    ensures l >= 0.0
    ensures l * rate == Abs(incTo - incFrom) * 30.0
  {
    var l := Abs(incTo - incFrom) / rate * 30.0;
    assert l * rate == Abs(incTo - incFrom) * 30.0 by {
      assert (Abs(incTo - incFrom) / rate) * rate == Abs(incTo - incFrom);
    }
    l
  }

  /** The build length is the turn over the rate, for every positive rate. */
  lemma BuildLengthCharacterised(incFrom: real, incTo: real, rate: real, l: real)
    requires rate > 0.0
    ensures BuildLength(incFrom, incTo, rate) == l <==> l * rate == Abs(incTo - incFrom) * 30.0
  {
    var b := BuildLength(incFrom, incTo, rate);
    if l * rate == Abs(incTo - incFrom) * 30.0 {
      assert (l - b) * rate == 0.0;
    }
  }

  /** The inclination of a build at depth `md` of a block that starts at `start`. */
  function BuildInc(s: Segment, start: real, md: real): real
    requires s.Build? && Length(s) > LengthEps
  {
    s.incFrom + (s.incTo - s.incFrom) * ((md - start) / Length(s))
  }

  /** `generate`: one station per grid depth. */
  function Generate(s: Segment, start: real, step: real): (rows: seq<Station>)
    requires Length(s) <= LengthEps || step != 0.0
    ensures |rows| == |MdGrid(start, Length(s), step)|
    ensures forall k :: 0 <= k < |rows| ==>
      && rows[k].md == MdGrid(start, Length(s), step)[k]
      && rows[k].azi == s.azi
      && rows[k].segment == s.name
    ensures s.Vertical? ==> forall k :: 0 <= k < |rows| ==> rows[k].inc == 0.0
    ensures s.Hold? || s.Horizontal? ==> forall k :: 0 <= k < |rows| ==> rows[k].inc == s.inc
    ensures s.Build? && Length(s) <= LengthEps ==> |rows| == 1 && rows[0].inc == s.incTo
    ensures s.Build? && Length(s) > LengthEps ==>
      forall k :: 0 <= k < |rows| ==> rows[k].inc == BuildInc(s, start, rows[k].md)
  {
    var md := MdGrid(start, Length(s), step);
    seq(|md|, k requires 0 <= k < |md| =>
      var inc := match s
        case Vertical(_, _, _) => 0.0
        case Hold(_, inc, _, _) => inc
        case Horizontal(_, _, inc, _) => inc
        case Build(_, incTo, _, _, _) =>
          if Length(s) <= LengthEps then incTo else BuildInc(s, start, md[k]);
      Station(md[k], inc, s.azi, s.name))
  }

  /** The build's inclination law runs from `incFrom` at its start to `incTo` at its end. */
  lemma BuildIncAtEnds(s: Segment, start: real)
    requires s.Build? && Length(s) > LengthEps
    ensures BuildInc(s, start, start) == s.incFrom
    ensures BuildInc(s, start, start + Length(s)) == s.incTo
  {
    var l := Length(s);
    assert (start - start) / l == 0.0;
    assert (start + l - start) / l == 1.0 by {
      assert start + l - start == l;
    }
  }

  /** A build block starts at `incFrom` and, where the grid reaches the end exactly, ends
      at `incTo`. */
  lemma BuildEndpoints(s: Segment, start: real, step: real)
    requires s.Build? && Length(s) > LengthEps && step > 0.0
    ensures var rows := Generate(s, start, step);
      && rows[0].inc == s.incFrom
      && (rows[|rows| - 1].md == start + Length(s) ==> rows[|rows| - 1].inc == s.incTo)
  {
    var rows := Generate(s, start, step);
    GridIncreasing(start, Length(s), step);
    BuildIncAtEnds(s, start);
    assert rows[0].md == start;
    assert rows[0].inc == BuildInc(s, start, rows[0].md);
    assert rows[|rows| - 1].inc == BuildInc(s, start, rows[|rows| - 1].md);
  }

  /** Inclination inside a build is linear in depth: equal depth steps give equal turns. */
  lemma BuildIncLinear(s: Segment, start: real, md1: real, md2: real, md3: real)
    requires s.Build? && Length(s) > LengthEps
    requires md2 - md1 == md3 - md2
    ensures BuildInc(s, start, md2) - BuildInc(s, start, md1) == BuildInc(s, start, md3) - BuildInc(s, start, md2)
  {
    var l := Length(s);
    var d := s.incTo - s.incFrom;
    assert (md2 - start) / l - (md1 - start) / l == (md2 - md1) / l;
    assert (md3 - start) / l - (md2 - start) / l == (md3 - md2) / l;
    assert d * ((md2 - start) / l) - d * ((md1 - start) / l) == d * ((md2 - md1) / l);
    assert d * ((md3 - start) / l) - d * ((md2 - start) / l) == d * ((md3 - md2) / l);
  }
}

=== FILE: seqs.dfy ===
/** Identities of sequence concatenation, stated once so that inductive proofs over
    concatenated lists can cite them instead of re-deriving them element by element. */
module Seqs {
  lemma AppendAssoc<T>(x: seq<T>, y: seq<T>, z: seq<T>)
    ensures x + (y + z) == (x + y) + z
  {
  }

  /** A non-empty list followed by another starts with the same element, and after it come
      the rest of the first list and then the second. */
  lemma AppendTail<T>(a: seq<T>, b: seq<T>)
    requires a != []
    ensures (a + b)[0] == a[0] && (a + b)[1..] == a[1..] + b
  {
  }

  /** A non-empty list is its first element followed by the rest. */
  lemma ConsTail<T>(a: seq<T>)
    requires a != []
    ensures [a[0]] + a[1..] == a
  {
  }

  /** A list followed by a non-empty one ends where the second one ends. */
  lemma AppendLast<T>(a: seq<T>, b: seq<T>)
    requires b != []
    ensures (a + b)[|a + b| - 1] == b[|b| - 1]
  {
  }

  /** Two permutations of each other that start with the same element stay permutations
      of each other without it. */
  lemma PermutationTails<T>(a: seq<T>, b: seq<T>)
    requires a != [] && b != [] && a[0] == b[0] && multiset(a) == multiset(b)
    ensures multiset(a[1..]) == multiset(b[1..])
  {
    ConsTail(a);
    ConsTail(b);
    assert multiset(a[1..]) == multiset(a) - multiset{a[0]} by {
      assert multiset(a) == multiset{a[0]} + multiset(a[1..]);
    }
    assert multiset(b[1..]) == multiset(b) - multiset{b[0]} by {
      assert multiset(b) == multiset{b[0]} + multiset(b[1..]);
    }
  }
}

=== FILE: solver_diagnostics.dfy ===
/** Turning a solver error message into Russian diagnostics: the message is split at a fixed
    marker into a head and "- " bullets, the head is translated by the first known phrase it
    contains, and every bullet becomes a reason/action item. The regular-expression
    recognisers of individual bullets are parameters, tried in order. */
module SolverDiagnostics {
  import opened Wrappers
  import opened Text
  import opened Seqs

  datatype DiagnosticItem = DiagnosticItem(reason: string, action: string)

  datatype ParsedSolverError = ParsedSolverError(title: string, items: seq<DiagnosticItem>, raw: string)

  /** The line that separates the head of a message from its bullets. */
  const Marker: string := "\nReasons and actions:\n"

  /** The prefix of a bullet line. */
  const Bullet: string := "- "

  // ---------------------------------------------------------------- splitting

  /** A line that starts with "- " once stripped. */
  predicate IsBulletLine(line: string) {
    StartsWith(Strip(line), Bullet)
  }

  /** The text of a bullet line: the stripped line without the dash, stripped again. */
  function BulletText(line: string): string
    requires IsBulletLine(line)
  {
    Strip(Strip(line)[2..])
  }

  /** The bullets of the lines after the marker: the text of every bullet line, in order;
      other lines are skipped. */
  function BulletsOf(lines: seq<string>): (bs: seq<string>)
    ensures |bs| <= |lines|
    ensures forall k {:trigger Strip(bs[k])} :: 0 <= k < |bs| ==> Strip(bs[k]) == bs[k]
    ensures bs == [] <==> forall k :: 0 <= k < |lines| ==> !IsBulletLine(lines[k])
    ensures lines != [] && IsBulletLine(lines[0]) ==> bs != [] && bs[0] == BulletText(lines[0])
  {
    if lines == [] then []
    else
      var l := Strip(lines[0]);
      var rest := BulletsOf(lines[1..]);
      if StartsWith(l, Bullet) then
        var b := Strip(l[2..]);
        StripIdempotent(l[2..]);
        PrependStripped(b, rest);
        [b] + rest
      else
        assert forall k :: 1 <= k < |lines| ==> lines[k] == lines[1..][k - 1];
        rest
  }

  /** The bullets of two runs of lines are those of the first run followed by those of the
      second. */
  lemma {:induction false} BulletsOfAppend(a: seq<string>, b: seq<string>)
    ensures BulletsOf(a + b) == BulletsOf(a) + BulletsOf(b)
    decreases |a|
  {
    if a == [] {
      assert a + b == b;
    } else {
      AppendTail(a, b);
      BulletsOfAppend(a[1..], b);
    }
  }

  /** One line gives its bullet text when it is a bullet line and nothing otherwise. */
  lemma BulletsOfOne(line: string)
    ensures IsBulletLine(line) ==> BulletsOf([line]) == [BulletText(line)]
    ensures !IsBulletLine(line) ==> BulletsOf([line]) == []
  {
    assert [line][1..] == [];
  }

  /** A stripped string in front of stripped strings. */
  lemma PrependStripped(b: string, rest: seq<string>)
    requires Strip(b) == b
    requires forall k {:trigger Strip(rest[k])} :: 0 <= k < |rest| ==> Strip(rest[k]) == rest[k]
    ensures forall k {:trigger Strip(([b] + rest)[k])} :: 0 <= k < |rest| + 1 ==> Strip(([b] + rest)[k]) == ([b] + rest)[k]
  {
    var r := [b] + rest;
    forall k | 0 <= k < |r|
      ensures Strip(r[k]) == r[k]
    {
      if k > 0 {
        assert r[k] == rest[k - 1];
        assert Strip(rest[k - 1]) == rest[k - 1];
      }
    }
  }

  /** `_split_error`: the stripped message and no bullets when the marker is absent; otherwise
      the stripped text before the first marker and the bullets after it. An empty message
      gives an empty head. */
  function SplitError(raw: string): (r: (string, seq<string>))
    ensures Strip(raw) == [] ==> r == ([], [])
    ensures !Contains(Strip(raw), Marker) ==> r == (Strip(raw), [])
    ensures Contains(Strip(raw), Marker) ==> Strip(r.0) == r.0
    ensures forall k {:trigger Strip(r.1[k])} :: 0 <= k < |r.1| ==> Strip(r.1[k]) == r.1[k]
  {
    var message := Strip(raw);
    if message == [] then ([], [])
    else
      var (head, tail) := SplitOnce(message, Marker);
      match tail
      case None =>
        ContainsIff(message, Marker);
        (message, [])
      case Some(t) =>
        StripIdempotent(head);
        (Strip(head), BulletsOf(SplitLines(t)))
  }

  /** With the marker, the head is the stripped text before its first occurrence and the
      bullets come from the lines after that occurrence. */
  lemma SplitErrorAtFirstMarker(raw: string, head: string, tail: string)
    requires Strip(raw) == head + Marker + tail
    requires forall j: nat :: j < |head| ==> !OccursAt(Strip(raw), Marker, j)
    ensures SplitError(raw) == (Strip(head), BulletsOf(SplitLines(tail)))
  {
    var m := Strip(raw);
    assert OccursAt(m, Marker, |head|) by {
      assert m[|head|..|head| + |Marker|] == Marker;
    }
    var (h, t) := SplitOnce(m, Marker);
    assert t.Some?;
    assert OccursAt(m, Marker, |h|) by {
      assert m[|h|..|h| + |Marker|] == Marker;
    }
    assert |h| == |head|;
    assert h == m[..|h|] == head;
    assert t.value == m[|h| + |Marker|..] == tail;
  }

  // ---------------------------------------------------------------- translation

  /** The known phrases of solver titles and their translations, in the order they are tried. */
  const TitleRules: seq<(string, string)> := [
    ("No valid VERTICAL->BUILD1->HOLD->BUILD2->HORIZONTAL solution",
     "Не найдено допустимое решение профиля VERTICAL->BUILD1->HOLD->BUILD2->HORIZONTAL."),
    ("No valid TURN solution found for non-coplanar targets",
     "Не найдено допустимое TURN-решение для некомпланарных целей."),
    ("No valid reverse-direction profile found",
     "Не найдено допустимое решение профиля «цели в обратном направлении»."),
    ("No valid reverse TURN solution found",
     "Не найдено допустимое reverse TURN-решение."),
    ("With current global max INC the t1->t3 geometry is infeasible without overbend",
     "Геометрия t1->t3 небурима при текущем max INC без overbend."),
    ("Entry INC target exceeds configured max INC",
     "Целевой INC входа выше допустимого max INC."),
    ("Failed to hit t1 within tolerance",
     "Точка t1 не достигнута в заданном допуске."),
    ("Failed to hit t3 within tolerance",
     "Точка t3 не достигнута в заданном допуске."),
    ("DLS limit exceeded on segment",
     "Превышен лимит DLS на одном из участков.")
  ]

  /** The title used when no known phrase matches. */
  const GenericTitle: string := "Ошибка расчета траектории."

  /** The first rule from `i` on whose phrase `source` contains. */
  function FirstTitleRule(source: string, rules: seq<(string, string)>, i: nat): (r: Option<nat>)
    requires i <= |rules|
    ensures r.None? <==> forall k :: i <= k < |rules| ==> !Contains(source, rules[k].0)
    ensures r.Some? ==> i <= r.value < |rules| && Contains(source, rules[r.value].0)
    ensures r.Some? ==> forall k :: i <= k < r.value ==> !Contains(source, rules[k].0)
    decreases |rules| - i
  {
    if i == |rules| then None
    else if Contains(source, rules[i].0) then Some(i)
    else FirstTitleRule(source, rules, i + 1)
  }

  /** `_translate_title_ru` over a table of phrases and their translations: the translation
      of the first phrase the stripped text contains, or the generic title. */
  function TranslateWith(rules: seq<(string, string)>, text: string): (t: string)
    ensures Strip(text) == [] ==> t == GenericTitle
    ensures (forall k :: 0 <= k < |rules| ==> !Contains(Strip(text), rules[k].0)) ==> t == GenericTitle
    ensures t == GenericTitle || exists k :: 0 <= k < |rules| && t == rules[k].1
    ensures Strip(text) != [] && FirstTitleRule(Strip(text), rules, 0).Some? ==>
      t == rules[FirstTitleRule(Strip(text), rules, 0).value].1
  {
    var source := Strip(text);
    if source == [] then GenericTitle
    else match FirstTitleRule(source, rules, 0)
      case None => GenericTitle
      case Some(k) => rules[k].1
  }

  /** `_translate_title_ru` with the solver's own phrases. */
  function TranslateTitle(text: string): (t: string)
    ensures Strip(text) == [] ==> t == GenericTitle
    ensures (forall k :: 0 <= k < |TitleRules| ==> !Contains(Strip(text), TitleRules[k].0)) ==> t == GenericTitle
    ensures t == GenericTitle || exists k :: 0 <= k < |TitleRules| && t == TitleRules[k].1
    ensures Strip(text) != [] && FirstTitleRule(Strip(text), TitleRules, 0).Some? ==>
      t == TitleRules[FirstTitleRule(Strip(text), TitleRules, 0).value].1
  {
    TranslateWith(TitleRules, text)
  }

  /** The text is translated by the first rule whose (non-empty) phrase it contains once
      stripped. */
  lemma TranslatesFirstMatch(rules: seq<(string, string)>, text: string, j: nat)
    requires j < |rules| && rules[j].0 != [] && Contains(Strip(text), rules[j].0)
    requires forall k :: 0 <= k < j ==> !Contains(Strip(text), rules[k].0)
    ensures TranslateWith(rules, text) == rules[j].1
  {
    FirstTitleRuleAt(Strip(text), rules, j);
  }

  /** No rule of the solver's table translates to the generic title. */
  lemma RuleTitlesAreSpecific(k: nat)
    requires k < |TitleRules|
    ensures TitleRules[k].1 != GenericTitle
  {
    assert |TitleRules[k].1| != |GenericTitle|;
  }

  /** When no rule translates to the generic title, it is given exactly for a blank text or
      one containing no phrase of the table. */
  lemma GenericTitleIff(rules: seq<(string, string)>, text: string)
    requires forall k :: 0 <= k < |rules| ==> rules[k].1 != GenericTitle
    ensures TranslateWith(rules, text) == GenericTitle <==>
      Strip(text) == [] || forall k :: 0 <= k < |rules| ==> !Contains(Strip(text), rules[k].0)
  {
  }

  /** A phrase longer than the text cannot occur in it. */
  lemma TooLongToOccur(s: string, pat: string)
    requires |pat| > |s|
    ensures !Contains(s, pat)
  {
    ContainsIff(s, pat);
  }

  /** The planner's "missed t1" message, as it reaches the translator. */
  const MissedT1Message: string := "Failed to hit t1 within tolerance."

  /** No phrase tried before the "missed t1" one occurs in its message: each is longer. */
  lemma EarlierPhrasesTooLong(k: nat)
    requires k < 6
    ensures !Contains(MissedT1Message, TitleRules[k].0)
  {
    TooLongToOccur(MissedT1Message, TitleRules[k].0);
  }

  /** The "missed t1" phrase opens its message. */
  lemma MissedT1PhraseOccurs()
    ensures Contains(MissedT1Message, TitleRules[6].0)
  {
    assert OccursAt(MissedT1Message, TitleRules[6].0, 0);
    ContainsIff(MissedT1Message, TitleRules[6].0);
  }

  /** The first rule that matches the "missed t1" message is its own. */
  lemma MissedT1FirstRule()
    ensures FirstTitleRule(MissedT1Message, TitleRules, 0) == Some(6)
  {
    MissedT1PhraseOccurs();
    forall k | 0 <= k < 6
      ensures !Contains(MissedT1Message, TitleRules[k].0)
    {
      EarlierPhrasesTooLong(k);
    }
    FirstTitleRuleAt(MissedT1Message, TitleRules, 6);
  }

  /** A rule whose phrase occurs, after rules whose phrases do not, is the first. */
  lemma FirstTitleRuleAt(source: string, rules: seq<(string, string)>, j: nat)
    requires j < |rules| && Contains(source, rules[j].0)
    requires forall k :: 0 <= k < j ==> !Contains(source, rules[k].0)
    ensures FirstTitleRule(source, rules, 0) == Some(j)
  {
  }

  /** The planner's "missed t1" message is translated as such. */
  lemma MissedT1Translated()
    ensures TranslateTitle(MissedT1Message) == TitleRules[6].1
  {
    StripUnchanged(MissedT1Message);
    MissedT1FirstRule();
  }

  // ---------------------------------------------------------------- items

  /** A recogniser of one kind of bullet (one of the regular expressions): the item it
      produces for the stripped text, or `None` when it does not match. */
  type Recognizer = string -> Option<DiagnosticItem>

  /** The action given for a bullet no recogniser knows. */
  const FallbackAction: string := "Проверьте ограничения профиля и геометрию целей."

  /** The first recogniser from `i` on that matches `text`. */
  function FirstRecognized(rs: seq<Recognizer>, text: string, i: nat): (r: Option<nat>)
    requires i <= |rs|
    ensures r.None? <==> forall k :: i <= k < |rs| ==> rs[k](text).None?
    ensures r.Some? ==> i <= r.value < |rs| && rs[r.value](text).Some?
    ensures r.Some? ==> forall k :: i <= k < r.value ==> rs[k](text).None?
    decreases |rs| - i
  {
    if i == |rs| then None
    else if rs[i](text).Some? then Some(i)
    else FirstRecognized(rs, text, i + 1)
  }

  /** `_item_from_text`: the item of the first recogniser that matches the stripped line, or
      the stripped line itself as the reason with the generic action. */
  function ItemFromText(rs: seq<Recognizer>, line: string): (item: DiagnosticItem)
    ensures (forall k :: 0 <= k < |rs| ==> rs[k](Strip(line)).None?) ==>
      item == DiagnosticItem(Strip(line), FallbackAction)
    ensures item == DiagnosticItem(Strip(line), FallbackAction) ||
      exists k :: 0 <= k < |rs| && rs[k](Strip(line)) == Some(item)
  {
    var text := Strip(line);
    match FirstRecognized(rs, text, 0)
    case None => DiagnosticItem(text, FallbackAction)
    case Some(k) => rs[k](text).value
  }

  function Items(rs: seq<Recognizer>, lines: seq<string>): (items: seq<DiagnosticItem>)
    ensures |items| == |lines|
    ensures forall k :: 0 <= k < |lines| ==> items[k] == ItemFromText(rs, lines[k])
  {
    seq(|lines|, k requires 0 <= k < |lines| => ItemFromText(rs, lines[k]))
  }

  /** `parse_solver_error`: one item per bullet; without bullets, one item for a non-empty
      head and none otherwise. */
  function ParseSolverError(rs: seq<Recognizer>, raw: string): (p: ParsedSolverError)
    ensures var (head, bullets) := SplitError(raw);
      && p.title == TranslateTitle(head)
      && p.raw == Strip(raw)
      && (bullets != [] ==> p.items == Items(rs, bullets))
      && (bullets == [] && head != [] ==> p.items == [ItemFromText(rs, head)])
      && (bullets == [] && head == [] ==> p.items == [])
    ensures !Contains(Strip(raw), Marker) ==>
      && p.title == TranslateTitle(Strip(raw))
      && p.items == (if Strip(raw) == [] then [] else [ItemFromText(rs, Strip(raw))])
  {
    var (head, bullets) := SplitError(raw);
    var items :=
      if bullets != [] then Items(rs, bullets)
      else if head != [] then [ItemFromText(rs, head)]
      else [];
    ParsedSolverError(TranslateTitle(head), items, Strip(raw))
  }

  /** One row of the diagnostics table: reason and what to change. */
  datatype DiagnosticsRow = DiagnosticsRow(reason: string, whatToChange: string)

  /** One row per item, in order. */
  function RowsOf(items: seq<DiagnosticItem>): (rows: seq<DiagnosticsRow>)
    ensures |rows| == |items|
    ensures forall k :: 0 <= k < |items| ==> rows[k] == DiagnosticsRow(items[k].reason, items[k].action)
  {
    seq(|items|, k requires 0 <= k < |items| => DiagnosticsRow(items[k].reason, items[k].action))
  }

  /** `diagnostics_rows_ru`: one row per parsed item, in order. */
  function DiagnosticsRows(rs: seq<Recognizer>, raw: string): (rows: seq<DiagnosticsRow>)
    ensures var items := ParseSolverError(rs, raw).items;
      && |rows| == |items|
      && forall k :: 0 <= k < |items| ==> rows[k] == DiagnosticsRow(items[k].reason, items[k].action)
    ensures !Contains(Strip(raw), Marker) && Strip(raw) != [] ==>
      var item := ItemFromText(rs, Strip(raw));
      rows == [DiagnosticsRow(item.reason, item.action)]
  {
    RowsOf(ParseSolverError(rs, raw).items)
  }

  /** `summarize_problem_ru`: the first item's reason, or the title when there is no item. */
  function SummarizeProblem(rs: seq<Recognizer>, raw: string): (s: string)
    ensures var p := ParseSolverError(rs, raw);
      s == if p.items != [] then p.items[0].reason else p.title
    ensures !Contains(Strip(raw), Marker) && Strip(raw) != [] ==> s == ItemFromText(rs, Strip(raw)).reason
  {
    var p := ParseSolverError(rs, raw);
    if p.items != [] then p.items[0].reason else p.title
  }

  // ---------------------------------------------------------------- properties

  /** With the marker, the title translates the text before its first occurrence, and the
      items come from the bullets after it, or from that text when there are none. */
  lemma ParsedAtFirstMarker(rs: seq<Recognizer>, raw: string, head: string, tail: string)
    requires Strip(raw) == head + Marker + tail
    requires forall j: nat :: j < |head| ==> !OccursAt(Strip(raw), Marker, j)
    ensures var p, bs := ParseSolverError(rs, raw), BulletsOf(SplitLines(tail));
      && p.title == TranslateTitle(Strip(head))
      && (bs != [] ==> p.items == Items(rs, bs))
      && (bs == [] ==> p.items == if Strip(head) == [] then [] else [ItemFromText(rs, Strip(head))])
  {
    SplitErrorAtFirstMarker(raw, head, tail);
  }

  /** An empty or blank message yields no rows and the generic title as its summary. */
  lemma BlankMessage(rs: seq<Recognizer>, raw: string)
    requires Strip(raw) == []
    ensures DiagnosticsRows(rs, raw) == []
    ensures SummarizeProblem(rs, raw) == GenericTitle
  {
    StripUnchanged([]);
  }

  /** A message without the marker that no recogniser knows is summarised by itself,
      stripped. */
  lemma UnknownMessageSummarisedVerbatim(rs: seq<Recognizer>, raw: string)
    requires Strip(raw) != [] && !Contains(Strip(raw), Marker)
    requires forall k :: 0 <= k < |rs| ==> rs[k](Strip(raw)).None?
    ensures SummarizeProblem(rs, raw) == Strip(raw)
    ensures DiagnosticsRows(rs, raw) == [DiagnosticsRow(Strip(raw), FallbackAction)]
  {
    StripIdempotent(raw);
  }

  /** The lines of a bullet list as the solver writes it. */
  function BulletLines(bs: seq<string>): (ls: seq<string>)
    ensures |ls| == |bs| && forall k :: 0 <= k < |bs| ==> ls[k] == Bullet + bs[k]
  {
    seq(|bs|, k requires 0 <= k < |bs| => Bullet + bs[k])
  }

  /** A solver message: a one-line head, the marker, and one newline-terminated bullet line
      per reason. */
  function ComposeMessage(head: string, bs: seq<string>): string {
    head + Marker + JoinTerminated(BulletLines(bs))
  }

  /** A reason the round trip can carry: non-empty, one line, no surrounding whitespace. */
  predicate Clean(s: string) {
    s != [] && NoLineBreak(s) && Strip(s) == s
  }

  /** Splitting a composed message gives back its head and its bullets. */
  lemma SplitComposed(head: string, bs: seq<string>)
    requires Clean(head) && bs != []
    requires forall k :: 0 <= k < |bs| ==> Clean(bs[k])
    ensures SplitError(ComposeMessage(head, bs)) == (head, bs)
  {
    ComposedMessageSplits(head, bs);
    ComposedBulletsSplit(bs);
  }

  /** A composed message strips to itself without its final newline, and its first marker
      is the one after the head. */
  lemma ComposedMessageSplits(head: string, bs: seq<string>)
    requires Clean(head) && bs != []
    requires forall k :: 0 <= k < |bs| ==> Clean(bs[k])
    ensures var message := head + Marker + JoinedWithoutLast(BulletLines(bs));
      && Strip(ComposeMessage(head, bs)) == message
      && SplitOnce(message, Marker) == (head, Some(JoinedWithoutLast(BulletLines(bs))))
  {
    var last := bs[|bs| - 1];
    assert Clean(last);
    StripClean(last);
    StripClean(head);
    var inner := JoinedWithoutLast(BulletLines(bs));
    ComposedEndsLikeLastBullet(head, bs);
    StripMarkedLine(head, inner);
    SplitAtFirstMarker(head, inner);
  }

  /** A composed message is its head, the marker and its bullet lines joined, then one
      newline; the joined lines end like the last reason. */
  lemma ComposedEndsLikeLastBullet(head: string, bs: seq<string>)
    requires bs != [] && bs[|bs| - 1] != []
    ensures var inner := JoinedWithoutLast(BulletLines(bs));
      && inner != [] && inner[|inner| - 1] == bs[|bs| - 1][|bs[|bs| - 1]| - 1]
      && ComposeMessage(head, bs) == head + Marker + inner + "\n"
  {
    var lines := BulletLines(bs);
    var last, lastLine := bs[|bs| - 1], lines[|lines| - 1];
    assert lastLine == Bullet + last;
    assert lastLine[|lastLine| - 1] == last[|last| - 1];
    var inner := JoinedWithoutLast(lines);
    var hm := head + Marker;
    assert hm + (inner + "\n") == hm + inner + "\n";
  }

  /** A head and a text around the marker, neither starting or ending with whitespace at the
      outside, strip to themselves once a newline is added. */
  lemma StripMarkedLine(head: string, inner: string)
    requires head != [] && !IsSpace(head[0])
    requires inner != [] && !IsSpace(inner[|inner| - 1])
    ensures Strip(head + Marker + inner + "\n") == head + Marker + inner
  {
    var message := head + Marker + inner;
    assert message[0] == head[0];
    assert message[|message| - 1] == inner[|inner| - 1];
    StripTrailingNewline(message);
  }

  /** The lines after the marker of a composed message are its bullet lines. */
  lemma ComposedBulletsSplit(bs: seq<string>)
    requires bs != []
    requires forall k :: 0 <= k < |bs| ==> Clean(bs[k])
    ensures BulletsOf(SplitLines(JoinedWithoutLast(BulletLines(bs)))) == bs
  {
    var lines := BulletLines(bs);
    var inner := JoinedWithoutLast(lines);
    var last := bs[|bs| - 1];
    assert !IsLineBreak(inner[|inner| - 1]) by {
      assert Clean(last);
      assert lines[|lines| - 1] == Bullet + last;
    }
    SplitLinesFinalBreak(inner);
    assert SplitLines(inner) == lines by {
      assert forall k :: 0 <= k < |bs| ==> Clean(bs[k]);
      BulletLinesUnbroken(bs);
      SplitLinesJoinTerminated(lines);
    }
    BulletsOfComposed(bs);
  }

  /** Bullet lines of one-line reasons are one-line. */
  lemma BulletLinesUnbroken(bs: seq<string>)
    requires forall k :: 0 <= k < |bs| ==> Clean(bs[k])
    ensures forall k :: 0 <= k < |bs| ==> NoLineBreak(BulletLines(bs)[k])
  {
    forall k | 0 <= k < |bs|
      ensures NoLineBreak(BulletLines(bs)[k])
    {
      var b := bs[k];
      assert Clean(b);
      var l := Bullet + b;
      assert forall i :: 0 <= i < |l| ==> l[i] == if i < |Bullet| then Bullet[i] else b[i - |Bullet|];
    }
  }

  /** A clean string starts and ends with a character that is neither whitespace nor a
      line break. */
  lemma StripClean(s: string)
    requires Clean(s)
    ensures !IsSpace(s[0]) && !IsSpace(s[|s| - 1])
  {
  }

  /** Newline-terminated lines without their last newline. */
  function JoinedWithoutLast(lines: seq<string>): (s: string)
    requires lines != []
    ensures JoinTerminated(lines) == s + "\n"
    ensures lines[|lines| - 1] != [] ==> s != [] && s[|s| - 1] == lines[|lines| - 1][|lines[|lines| - 1]| - 1]
    decreases |lines|
  {
    if |lines| == 1 then
      assert JoinTerminated(lines) == lines[0] + "\n" + JoinTerminated([]);
      lines[0]
    else
      var rest := JoinedWithoutLast(lines[1..]);
      assert lines[1..][|lines[1..]| - 1] == lines[|lines| - 1];
      var h := lines[0] + "\n";
      AppendAssoc(h, rest, "\n");
      if rest != [] then AppendLast(h, rest); h + rest else h + rest
  }

  /** A final newline after a string whose last character is not a line break does not
      change its lines. */
  lemma {:induction false} SplitLinesFinalBreak(x: string)
    requires x != [] && !IsLineBreak(x[|x| - 1])
    ensures SplitLines(x + "\n") == SplitLines(x)
    decreases |x|
  {
    var s := x + "\n";
    var n := LineLength(x);
    if n == |x| {
      assert s[..n] == x;
      LineLengthUnique(s, n);
      assert s[n + 1..] == [];
    } else {
      assert s[..n] == x[..n];
      LineLengthUnique(s, n);
      assert n + 1 < |x|;
      var width := if x[n] == '\r' && n + 1 < |x| && x[n + 1] == '\n' then 2 else 1;
      assert width == if s[n] == '\r' && n + 1 < |s| && s[n + 1] == '\n' then 2 else 1;
      var rest := x[n + width..];
      assert rest != [] && rest[|rest| - 1] == x[|x| - 1];
      assert s[n + width..] == rest + "\n";
      SplitLinesFinalBreak(rest);
    }
  }

  /** Stripping a clean-ended string followed by a newline removes just the newline. */
  lemma StripTrailingNewline(m: string)
    requires m != [] && !IsSpace(m[0]) && !IsSpace(m[|m| - 1])
    ensures Strip(m + "\n") == m
  {
    var s := m + "\n";
    var r := Strip(s);
    assert LeadingSpaces(s) == 0;
    assert r == s[..|r|];
    assert !IsSpace(s[|m| - 1]) && IsSpace(s[|m|]);
    assert |r| == |m|;
    assert s[..|m|] == m;
  }

  /** A head without line breaks cannot hold the marker, so the first marker follows it. */
  lemma SplitAtFirstMarker(head: string, tail: string)
    requires NoLineBreak(head) && head != [] && !IsSpace(head[0])
    ensures var m := head + Marker + tail;
      SplitOnce(m, Marker) == (head, Some(tail))
  {
    var m := head + Marker + tail;
    assert OccursAt(m, Marker, |head|) by {
      assert m[|head|..|head| + |Marker|] == Marker;
    }
    var r := SplitOnce(m, Marker);
    assert r.1.Some?;
    var h := r.0;
    assert OccursAt(m, Marker, |h|) by {
      assert m == h + Marker + r.1.value;
      assert m[|h|..|h| + |Marker|] == Marker;
    }
    forall j: nat | j < |head|
      ensures !OccursAt(m, Marker, j)
    {
      assert m[j] == head[j] != Marker[0];
      assert j + |Marker| <= |m| ==> m[j..j + |Marker|][0] == m[j];
    }
    assert |h| == |head|;
    assert h == m[..|h|] == head;
    assert r.1.value == m[|head| + |Marker|..] == tail;
  }

  /** The bullet lines of clean reasons give the reasons back. */
  lemma {:induction false} BulletsOfComposed(bs: seq<string>)
    requires forall k :: 0 <= k < |bs| ==> Clean(bs[k])
    ensures BulletsOf(BulletLines(bs)) == bs
  {
    if bs != [] {
      BulletLinesTail(bs);
      BulletLineRead(bs[0]);
      BulletsOfComposed(bs[1..]);
      ConsTail(bs);
    }
  }

  /** The bullet lines of a list start with the line of its first reason, then those of the
      rest. */
  lemma BulletLinesTail(bs: seq<string>)
    requires bs != []
    ensures BulletLines(bs)[0] == Bullet + bs[0] && BulletLines(bs)[1..] == BulletLines(bs[1..])
  {
  }

  /** The line of a clean reason is a bullet line that strips to itself and whose text is the
      reason. */
  lemma BulletLineRead(b: string)
    requires Clean(b)
    ensures var l := Bullet + b; Strip(l) == l && StartsWith(l, Bullet) && Strip(l[2..]) == b
  {
    var l := Bullet + b;
    StripClean(b);
    StripUnchanged(l);
    assert l[2..] == b;
  }

  /** Parsing a composed message translates its head and gives one item per bullet. */
  lemma ParseComposed(rs: seq<Recognizer>, head: string, bs: seq<string>)
    requires Clean(head) && bs != []
    requires forall k :: 0 <= k < |bs| ==> Clean(bs[k])
    ensures var p := ParseSolverError(rs, ComposeMessage(head, bs));
      p.title == TranslateTitle(head) && p.items == Items(rs, bs)
  {
    SplitComposed(head, bs);
  }
}

=== FILE: text.dfy ===
/** The pieces of Python's `str` behaviour the modelled code relies on: `isspace`,
    `strip`, `split()` with no separator, `splitlines`, `find`, `in`, `startswith` and
    `lower` on ASCII text. */
module Text {
  import opened Wrappers

  /** Python's `str.isspace` on one character: the characters `strip()` and `split()` remove. */
  predicate IsSpace(c: char) {
    || c == ' '
    || ('\t' <= c <= '\r')
    || ('\U{1c}' <= c <= '\U{1f}')
    || c == '\U{85}'
    || c == '\U{a0}'
    || c == '\U{1680}'
    || ('\U{2000}' <= c <= '\U{200a}')
    || c == '\U{2028}'
    || c == '\U{2029}'
    || c == '\U{202f}'
    || c == '\U{205f}'
    || c == '\U{3000}'
  }

  /** The characters at which Python's `str.splitlines` breaks a line (`\r\n` counts once). */
  predicate IsLineBreak(c: char) {
    || c == '\n'
    || c == '\r'
    || c == '\U{0b}'
    || c == '\U{0c}'
    || ('\U{1c}' <= c <= '\U{1e}')
    || c == '\U{85}'
    || c == '\U{2028}'
    || c == '\U{2029}'
  }

  predicate NoSpace(s: string) {
    forall i :: 0 <= i < |s| ==> !IsSpace(s[i])
  }

  predicate NoLineBreak(s: string) {
    forall i :: 0 <= i < |s| ==> !IsLineBreak(s[i])
  }

  // ---------------------------------------------------------------- strip

  /** Number of leading whitespace characters. */
  function LeadingSpaces(s: string): (n: nat)
    ensures n <= |s|
    ensures forall i :: 0 <= i < n ==> IsSpace(s[i])
    ensures n == |s| || !IsSpace(s[n])
  {
    if s != [] && IsSpace(s[0]) then 1 + LeadingSpaces(s[1..]) else 0
  }

  /** Number of trailing whitespace characters. */
  function TrailingSpaces(s: string): (n: nat)
    ensures n <= |s|
    ensures forall i :: |s| - n <= i < |s| ==> IsSpace(s[i])
    ensures n == |s| || !IsSpace(s[|s| - n - 1])
  {
    if s != [] && IsSpace(s[|s| - 1]) then 1 + TrailingSpaces(s[..|s| - 1]) else 0
  }

  /** Python's `s.strip()`: the middle of `s` once leading and trailing whitespace is cut. */
  function Strip(s: string): (r: string)
    ensures LeadingSpaces(s) + |r| <= |s|
    ensures r == [] || (!IsSpace(r[0]) && !IsSpace(r[|r| - 1]))
  {
    var t := s[LeadingSpaces(s)..];
    var m := TrailingSpaces(t);
    assert t == [] || !IsSpace(t[0]);
    t[..|t| - m]
  }

  /** The strip of `s` is the slice of `s` after its leading whitespace, and every character
      of `s` outside that slice is whitespace. */
  lemma StripShape(s: string)
    ensures var r, n := Strip(s), LeadingSpaces(s);
      && r == s[n..n + |r|]
      && forall i :: 0 <= i < |s| && (i < n || n + |r| <= i) ==> IsSpace(s[i])
  {
    StripIsSlice(s);
    StripCutsSpaces(s);
  }

  lemma StripIsSlice(s: string)
    ensures Strip(s) == s[LeadingSpaces(s)..LeadingSpaces(s) + |Strip(s)|]
  {
    var n := LeadingSpaces(s);
    var t := s[n..];
    var r := Strip(s);
    assert r == t[..|r|];
    forall i | 0 <= i < |r|
      ensures r[i] == s[n + i]
    {
      assert r[i] == t[i];
    }
  }

  lemma StripCutsSpaces(s: string)
    ensures forall i :: 0 <= i < |s| && (i < LeadingSpaces(s) || LeadingSpaces(s) + |Strip(s)| <= i) ==> IsSpace(s[i])
  {
    var n := LeadingSpaces(s);
    var t := s[n..];
    var m := TrailingSpaces(t);
    assert |Strip(s)| == |t| - m;
    forall i | n + |t| - m <= i < |s|
      ensures IsSpace(s[i])
    {
      assert s[i] == t[i - n];
    }
  }

  /** A string that neither starts nor ends with whitespace is its own strip. */
  lemma StripUnchanged(s: string)
    requires s == [] || (!IsSpace(s[0]) && !IsSpace(s[|s| - 1]))
    ensures Strip(s) == s
  {
    if s != [] {
      assert LeadingSpaces(s) == 0;
    }
  }

  /** Stripping twice is stripping once. */
  lemma StripIdempotent(s: string)
    ensures Strip(Strip(s)) == Strip(s)
  {
    StripUnchanged(Strip(s));
  }

  /** Leading whitespace does not reach the result of `strip`. */
  lemma StripSpacePrefix(s: string)
    ensures Strip(" " + s) == Strip(s)
  {
    var t := " " + s;
    assert t[1..] == s;
    assert LeadingSpaces(t) == 1 + LeadingSpaces(s);
    assert t[LeadingSpaces(t)..] == s[LeadingSpaces(s)..];
  }

  /** `strip` only removes characters, so a character absent from `s` is absent from its strip. */
  lemma StripKeepsOut(s: string, c: char)
    requires forall i :: 0 <= i < |s| ==> s[i] != c
    ensures forall i :: 0 <= i < |Strip(s)| ==> Strip(s)[i] != c
  {
    var k := LeadingSpaces(s);
    forall i | 0 <= i < |Strip(s)|
      ensures Strip(s)[i] != c
    {
      assert Strip(s)[i] == s[k + i];
    }
  }

  // ---------------------------------------------------------------- split()

  /** Length of the leading run of non-whitespace characters. */
  function WordLength(s: string): (n: nat)
    ensures n <= |s|
    ensures NoSpace(s[..n])
    ensures n == |s| || IsSpace(s[n])
  {
    if s == [] || IsSpace(s[0]) then 0 else 1 + WordLength(s[1..])
  }

  /** The leading-run length is determined by its two defining properties. */
  lemma WordLengthUnique(s: string, n: nat)
    requires n <= |s| && NoSpace(s[..n]) && (n == |s| || IsSpace(s[n]))
    ensures WordLength(s) == n
    decreases n
  {
    if n > 0 {
      assert s[..n][0] == s[0];
      assert s[1..][..n - 1] == s[..n][1..];
      WordLengthUnique(s[1..], n - 1);
    }
  }

  /** Python's `s.split()`: the maximal runs of non-whitespace characters, in order. */
  function Words(s: string): (ws: seq<string>)
    ensures forall k :: 0 <= k < |ws| ==> ws[k] != [] && NoSpace(ws[k])
    decreases |s|
  {
    if s == [] then []
    else if IsSpace(s[0]) then Words(s[1..])
    else
      var n := WordLength(s);
      [s[..n]] + Words(s[n..])
  }

  /** Every character of a word is a character of the text. */
  lemma {:induction false} WordCharsFromText(s: string)
    ensures forall k, i :: 0 <= k < |Words(s)| && 0 <= i < |Words(s)[k]| ==> Words(s)[k][i] in s
    decreases |s|
  {
    var ws := Words(s);
    if s != [] && IsSpace(s[0]) {
      WordCharsFromText(s[1..]);
      assert ws == Words(s[1..]);
      forall k, i | 0 <= k < |ws| && 0 <= i < |ws[k]|
        ensures ws[k][i] in s
      {
        assert ws[k][i] in s[1..];
        var j :| 0 <= j < |s[1..]| && s[1..][j] == ws[k][i];
        assert s[1 + j] == ws[k][i];
      }
    } else if s != [] {
      var n := WordLength(s);
      var rest := Words(s[n..]);
      WordCharsFromText(s[n..]);
      assert ws == [s[..n]] + rest;
      forall k, i | 0 <= k < |ws| && 0 <= i < |ws[k]|
        ensures ws[k][i] in s
      {
        if k == 0 {
          assert ws[0][i] == s[i];
        } else {
          assert ws[k] == rest[k - 1];
          assert rest[k - 1][i] in s[n..];
          var j :| 0 <= j < |s[n..]| && s[n..][j] == rest[k - 1][i];
          assert s[n + j] == ws[k][i];
        }
      }
    }
  }

  /** A whitespace character separates words: splitting around it splits the word list. */
  lemma {:induction false} WordsAroundSpace(x: string, c: char, y: string)
    requires IsSpace(c)
    ensures Words(x + [c] + y) == Words(x) + Words(y)
    decreases |x|
  {
    var s := x + [c] + y;
    if x == [] {
      assert s == [c] + y;
      assert s[1..] == y;
    } else if IsSpace(x[0]) {
      assert s[0] == x[0] && s[1..] == x[1..] + [c] + y;
      WordsAroundSpace(x[1..], c, y);
    } else {
      var n := WordLength(x);
      assert s[0] == x[0] && s[..n] == x[..n];
      WordLengthUnique(s, n);
      assert Words(s) == [x[..n]] + Words(s[n..]);
      if n < |x| {
        assert s[n..] == x[n..] + [c] + y;
        WordsAroundSpace(x[n..], c, y);
        assert [x[..n]] + (Words(x[n..]) + Words(y)) == ([x[..n]] + Words(x[n..])) + Words(y);
      } else {
        assert s[n..] == [c] + y;
        assert s[n..][1..] == y;
        assert x[n..] == [];
      }
    }
  }

  /** A non-empty string without whitespace is one word. */
  lemma WordsOfWord(w: string)
    requires w != [] && NoSpace(w)
    ensures Words(w) == [w]
  {
    assert w[..|w|] == w;
    WordLengthUnique(w, |w|);
    assert w[|w|..] == [];
  }

  // ---------------------------------------------------------------- splitlines()

  /** Index of the first line-break character, or `|s|` when there is none. */
  function LineLength(s: string): (n: nat)
    ensures n <= |s|
    ensures NoLineBreak(s[..n])
    ensures n == |s| || IsLineBreak(s[n])
  {
    if s == [] || IsLineBreak(s[0]) then 0 else 1 + LineLength(s[1..])
  }

  /** Python's `s.splitlines()`: the lines of `s` without their terminators; a final
      terminator does not open an extra empty line, and `\r\n` is one terminator. */
  function SplitLines(s: string): (lines: seq<string>)
    ensures forall k :: 0 <= k < |lines| ==> NoLineBreak(lines[k])
    ensures s == [] <==> lines == []
    decreases |s|
  {
    if s == [] then []
    else
      var n := LineLength(s);
      if n == |s| then assert s[..n] == s; [s]
      else
        var width := if s[n] == '\r' && n + 1 < |s| && s[n + 1] == '\n' then 2 else 1;
        [s[..n]] + SplitLines(s[n + width..])
  }

  /** The line length is determined by its two defining properties. */
  lemma LineLengthUnique(s: string, n: nat)
    requires n <= |s| && NoLineBreak(s[..n]) && (n == |s| || IsLineBreak(s[n]))
    ensures LineLength(s) == n
    decreases n
  {
    if n > 0 {
      assert s[..n][0] == s[0];
      assert s[1..][..n - 1] == s[..n][1..];
      LineLengthUnique(s[1..], n - 1);
    }
  }

  /** Lines each followed by a newline, as a file written line by line. */
  function JoinTerminated(lines: seq<string>): string {
    if lines == [] then "" else lines[0] + "\n" + JoinTerminated(lines[1..])
  }

  /** A line followed by a newline splits off as the first line. */
  lemma SplitLinesCons(l: string, tail: string)
    requires NoLineBreak(l)
    ensures SplitLines(l + "\n" + tail) == [l] + SplitLines(tail)
  {
    var s := l + "\n" + tail;
    assert s[..|l|] == l;
    assert s[|l|] == '\n';
    LineLengthUnique(s, |l|);
    assert s[|l| + 1..] == tail;
  }

  /** Splitting newline-terminated lines gives the lines back. */
  lemma {:induction false} SplitLinesJoinTerminated(lines: seq<string>)
    requires forall k :: 0 <= k < |lines| ==> NoLineBreak(lines[k])
    ensures SplitLines(JoinTerminated(lines)) == lines
  {
    if lines != [] {
      SplitLinesCons(lines[0], JoinTerminated(lines[1..]));
      SplitLinesJoinTerminated(lines[1..]);
    }
  }

  // ---------------------------------------------------------------- find / in / startswith

  predicate OccursAt(s: string, pat: string, i: nat) {
    i + |pat| <= |s| && s[i..i + |pat|] == pat
  }

  /** Python's `s.find(pat, start)`, with -1 as `None`: the first occurrence at or after `start`. */
  function FindFrom(s: string, pat: string, start: nat): (r: Option<nat>)
    ensures r.Some? ==> start <= r.value && OccursAt(s, pat, r.value)
    ensures r.Some? ==> forall j :: start <= j < r.value ==> !OccursAt(s, pat, j)
    ensures r.None? ==> forall j :: start <= j ==> !OccursAt(s, pat, j)
    decreases |s| - start
  {
    if start + |pat| > |s| then None
    else if s[start..start + |pat|] == pat then Some(start)
    else FindFrom(s, pat, start + 1)
  }

  /** Python's `pat in s`. */
  predicate Contains(s: string, pat: string) {
    FindFrom(s, pat, 0).Some?
  }

  lemma ContainsIff(s: string, pat: string)
    ensures Contains(s, pat) <==> exists j :: OccursAt(s, pat, j)
  {
    var r := FindFrom(s, pat, 0);
    if r.Some? {
      assert OccursAt(s, pat, r.value);
    }
  }

  /** Python's `s.startswith(p)`. */
  predicate StartsWith(s: string, p: string) {
    |p| <= |s| && s[..|p|] == p
  }

  /** Python's `s.split(sep, 1)`: the text before the first `sep` and, when `sep` occurs,
      the text after it. */
  function SplitOnce(s: string, sep: string): (r: (string, Option<string>))
    ensures r.1.None? ==> r.0 == s && forall j :: !OccursAt(s, sep, j)
    ensures r.1.Some? ==> s == r.0 + sep + r.1.value
    ensures r.1.Some? ==> forall j: nat :: j < |r.0| ==> !OccursAt(s, sep, j)
  {
    match FindFrom(s, sep, 0)
    case None => (s, None)
    case Some(i) =>
      assert s == s[..i] + s[i..i + |sep|] + s[i + |sep|..];
      (s[..i], Some(s[i + |sep|..]))
  }

  /** An occurrence in a slice is an occurrence in the whole string, shifted. */
  lemma SliceOccurrence(s: string, pat: string, lo: nat, hi: nat)
    requires lo <= hi <= |s|
    ensures forall j: nat :: OccursAt(s[lo..hi], pat, j) ==> OccursAt(s, pat, lo + j)
  {
    var t := s[lo..hi];
    forall j: nat | OccursAt(t, pat, j)
      ensures OccursAt(s, pat, lo + j)
    {
      var a, b := t[j..j + |pat|], s[lo + j..lo + j + |pat|];
      forall i | 0 <= i < |pat|
        ensures a[i] == b[i]
      {
      }
      assert a == b;
    }
  }

  /** A pattern that does not occur in `s` does not occur in any slice of it. */
  lemma NoOccurrenceInSlice(s: string, pat: string, lo: nat, hi: nat)
    requires lo <= hi <= |s|
    requires forall j :: !OccursAt(s, pat, j)
    ensures forall j :: !OccursAt(s[lo..hi], pat, j)
  {
    SliceOccurrence(s, pat, lo, hi);
  }

  /** The text before the first separator holds no separator. */
  lemma SplitOnceHeadFree(s: string, sep: string)
    requires sep != []
    ensures forall j :: !OccursAt(SplitOnce(s, sep).0, sep, j)
  {
    var r := SplitOnce(s, sep);
    var h := r.0;
    if r.1.Some? {
      assert s == h + sep + r.1.value;
      assert s[0..|h|] == h;
      SliceOccurrence(s, sep, 0, |h|);
      forall j: nat
        ensures !OccursAt(h, sep, j)
      {
        if j < |h| {
          assert !OccursAt(s, sep, 0 + j);
        }
      }
    } else {
      NoOccurrenceInSlice(s, sep, 0, |s|);
      assert s[0..|s|] == s;
    }
  }

  /** Two strings that agree on a prefix long enough to hold the first occurrence in one
      of them have the same first occurrence. */
  lemma {:induction false} FindFromCommonPrefix(s: string, t: string, pat: string, start: nat, len: nat)
    requires len <= |s| && len <= |t| && s[..len] == t[..len]
    requires FindFrom(s, pat, start).Some? && FindFrom(s, pat, start).value + |pat| <= len
    ensures FindFrom(t, pat, start) == FindFrom(s, pat, start)
    decreases |s| - start
  {
    var i := FindFrom(s, pat, start).value;
    var ws, wt := s[start..start + |pat|], t[start..start + |pat|];
    forall k | 0 <= k < |pat|
      ensures ws[k] == wt[k]
    {
      assert s[..len][start + k] == t[..len][start + k];
    }
    assert ws == wt;
    if i != start {
      FindFromCommonPrefix(s, t, pat, start + 1, len);
    }
  }

  /** Two strings that agree up to and including the first separator of one of them split to
      the same head. */
  lemma SplitOnceCommonPrefix(s: string, t: string, sep: string, len: nat)
    requires len <= |s| && len <= |t| && s[..len] == t[..len]
    requires FindFrom(s, sep, 0).Some? && FindFrom(s, sep, 0).value + |sep| <= len
    ensures SplitOnce(s, sep).0 == SplitOnce(t, sep).0
  {
    FindFromCommonPrefix(s, t, sep, 0, len);
    var i := FindFrom(s, sep, 0).value;
    assert s[..i] == s[..len][..i] == t[..len][..i] == t[..i];
  }

  // ---------------------------------------------------------------- letter case

  predicate IsUpper(c: char) {
    'A' <= c <= 'Z'
  }

  /** Python's `str.lower` on one character, for the ASCII letters. */
  function LowerChar(c: char): (d: char)
    ensures !IsUpper(d)
    ensures IsUpper(c) ==> d as int - c as int == 'a' as int - 'A' as int
    ensures !IsUpper(c) ==> d == c
  {
    if IsUpper(c) then (c as int - 'A' as int + 'a' as int) as char else c
  }

  /** Python's `str.lower` on ASCII text: every upper-case letter becomes its lower-case
      partner and every other character is kept. */
  function Lower(s: string): (r: string)
    ensures |r| == |s| && forall k :: 0 <= k < |s| ==> r[k] == LowerChar(s[k])
  {
    seq(|s|, k requires 0 <= k < |s| => LowerChar(s[k]))
  }

  /** Text without upper-case letters is its own lower case, so lowering twice equals
      lowering once. */
  lemma LowerFixesLowerCase(s: string)
    requires forall k :: 0 <= k < |s| ==> !IsUpper(s[k])
    ensures Lower(s) == s
  {
  }

  lemma LowerIdempotent(s: string)
    ensures Lower(Lower(s)) == Lower(s)
  {
    LowerFixesLowerCase(Lower(s));
  }

  predicate IsLowerLetter(c: char) {
    'a' <= c <= 'z'
  }

  /** Lowering loses nothing on text without lower-case letters: two such texts with the
      same lower case are equal. */
  lemma LowerInjective(a: string, b: string)
    requires forall k :: 0 <= k < |a| ==> !IsLowerLetter(a[k])
    requires forall k :: 0 <= k < |b| ==> !IsLowerLetter(b[k])
    requires Lower(a) == Lower(b)
    ensures a == b
  {
    forall k | 0 <= k < |a|
      ensures a[k] == b[k]
    {
      assert LowerChar(a[k]) == LowerChar(b[k]);
    }
  }

  // ---------------------------------------------------------------- decimal numbers

  predicate IsDigit(c: char) {
    '0' <= c <= '9'
  }

  predicate AllDigits(s: string) {
    forall i :: 0 <= i < |s| ==> IsDigit(s[i])
  }

  function DigitChar(d: nat): (c: char)
    requires d < 10
    ensures IsDigit(c) && c as int - '0' as int == d
  {
    ('0' as int + d) as char
  }

  /** Python's `str(n)` (and `f"{n}"`) for a natural number: its decimal digits, with a
      leading zero only for zero itself. */
  function DecimalString(n: nat): (s: string)
    ensures s != [] && AllDigits(s)
    ensures s[0] == '0' <==> n == 0
  {
    if n < 10 then [DigitChar(n)] else DecimalString(n / 10) + [DigitChar(n % 10)]
  }

  /** The number a string of decimal digits denotes. */
  function DecimalValue(s: string): nat
    requires AllDigits(s)
  {
    if s == [] then 0
    else DecimalValue(s[..|s| - 1]) * 10 + (s[|s| - 1] as int - '0' as int)
  }

  /** Reading the digits back gives the number. */
  lemma {:induction false} DecimalRoundTrip(n: nat)
    ensures DecimalValue(DecimalString(n)) == n
  {
    if n >= 10 {
      var s := DecimalString(n);
      var init := DecimalString(n / 10);
      assert s[..|s| - 1] == init;
      DecimalRoundTrip(n / 10);
    }
  }
}

=== FILE: trajectory.dfy ===
/** `WellTrajectory.stations`: the segments' blocks laid end to end, each starting at the
    depth where the previous kept block ended, followed by a de-duplication on measured depth
    that keeps the last row of every depth. */
module Trajectory {
  import opened Wrappers
  import opened Segments

  // ---------------------------------------------------------------- de-duplication

  /** The measured-depth column. */
  function Mds(rows: seq<Station>): (m: seq<real>)
    ensures |m| == |rows| && forall k :: 0 <= k < |rows| ==> m[k] == rows[k].md
  {
    seq(|rows|, k requires 0 <= k < |rows| => rows[k].md)
  }

  predicate DistinctMds(rows: seq<Station>) {
    forall i, j :: 0 <= i < j < |rows| ==> rows[i].md != rows[j].md
  }

  predicate StrictlyIncreasingMds(rows: seq<Station>) {
    forall i, j :: 0 <= i < j < |rows| ==> rows[i].md < rows[j].md
  }

  /** `drop_duplicates(subset=["MD_m"], keep="last")`: a row survives exactly when no later
      row has the same depth. */
  function DedupKeepLast(rows: seq<Station>): (r: seq<Station>)
    ensures |r| <= |rows|
    ensures forall x :: x in r ==> x in rows
    decreases |rows|
  {
    if rows == [] then []
    else
      var rest := DedupKeepLast(rows[1..]);
      if rows[0].md in Mds(rows[1..]) then rest else [rows[0]] + rest
  }

  lemma MdOfMember(rows: seq<Station>, x: Station)
    requires x in rows
    ensures x.md in Mds(rows)
  {
    var k :| 0 <= k < |rows| && rows[k] == x;
    assert Mds(rows)[k] == x.md;
  }

  /** No two surviving rows share a depth. */
  lemma {:induction false} DedupDistinct(rows: seq<Station>)
    ensures DistinctMds(DedupKeepLast(rows))
    decreases |rows|
  {
    if rows != [] {
      var tail := rows[1..];
      var rest := DedupKeepLast(tail);
      DedupDistinct(tail);
      if rows[0].md !in Mds(tail) {
        forall j | 0 <= j < |rest|
          ensures rest[j].md != rows[0].md
        {
          MdOfMember(tail, rest[j]);
        }
      }
    }
  }

  /** Every depth of the input is still present. */
  lemma {:induction false} DedupCoversDepths(rows: seq<Station>)
    ensures forall i :: 0 <= i < |rows| ==> rows[i].md in Mds(DedupKeepLast(rows))
    decreases |rows|
  {
    if rows != [] {
      var tail := rows[1..];
      var rest := DedupKeepLast(tail);
      DedupCoversDepths(tail);
      var r := DedupKeepLast(rows);
      assert forall i :: 1 <= i < |rows| ==> rows[i] == tail[i - 1];
      if rows[0].md in Mds(tail) {
        var k :| 0 <= k < |tail| && Mds(tail)[k] == rows[0].md;
        assert tail[k].md in Mds(rest);
      } else {
        assert Mds(r) == [rows[0].md] + Mds(rest);
      }
    }
  }

  /** The row that survives for a depth is the last row with that depth. */
  lemma {:induction false} DedupKeepsLastRow(rows: seq<Station>)
    ensures forall i :: 0 <= i < |rows| && rows[i].md !in Mds(rows[i + 1..]) ==> rows[i] in DedupKeepLast(rows)
    decreases |rows|
  {
    if rows != [] {
      var tail := rows[1..];
      DedupKeepsLastRow(tail);
      assert forall i :: 1 <= i < |rows| ==> rows[i] == tail[i - 1] && rows[i + 1..] == tail[i..];
    }
  }

  /** A table without repeated depths is left as it is. */
  lemma {:induction false} DedupDistinctIsIdentity(rows: seq<Station>)
    requires DistinctMds(rows)
    ensures DedupKeepLast(rows) == rows
    decreases |rows|
  {
    if rows != [] {
      var tail := rows[1..];
      DedupDistinctIsIdentity(tail);
      assert rows[0].md !in Mds(tail);
      assert rows == [rows[0]] + tail;
    }
  }

  /** De-duplicating twice is de-duplicating once. */
  lemma DedupIdempotent(rows: seq<Station>)
    ensures DedupKeepLast(DedupKeepLast(rows)) == DedupKeepLast(rows)
  {
    DedupDistinct(rows);
    DedupDistinctIsIdentity(DedupKeepLast(rows));
  }

  // ---------------------------------------------------------------- assembly

  /** Every segment can be sampled with this step. */
  predicate Sampleable(segs: seq<Segment>, step: real) {
    forall k :: 0 <= k < |segs| ==> Length(segs[k]) <= LengthEps || step != 0.0
  }

  /** The state of the loop of `stations`: the depth the next block starts at, the rows kept
      so far, and how many rows the segments generated before trimming. */
  datatype Loop = Loop(mdStart: real, rows: seq<Station>, generated: nat)

  /** The block a segment contributes: its generated rows, without the first one unless it is
      the first block kept. */
  function Block(seg: Segment, step: real, st: Loop): (b: seq<Station>)
    requires Length(seg) <= LengthEps || step != 0.0
    ensures |b| + 1 >= |Generate(seg, st.mdStart, step)|
    ensures st.rows == [] ==> b == Generate(seg, st.mdStart, step)
    ensures st.rows != [] ==> b == Generate(seg, st.mdStart, step)[1..]
  {
    var full := Generate(seg, st.mdStart, step);
    if st.rows != [] then full[1..] else full
  }

  /** One pass of the loop: a non-empty block is appended and moves the start depth to its
      last row; an empty block changes only the count of generated rows. */
  function Advance(seg: Segment, step: real, st: Loop): (n: Loop)
    requires Length(seg) <= LengthEps || step != 0.0
    ensures n.generated == st.generated + |Generate(seg, st.mdStart, step)|
    ensures |st.rows| <= |n.rows| && n.rows[..|st.rows|] == st.rows
    ensures st.rows != [] ==> |n.rows| + 1 <= |st.rows| + |Generate(seg, st.mdStart, step)|
    ensures st.rows == [] ==> n.rows == Generate(seg, st.mdStart, step)
    ensures var b := Block(seg, step, st);
      && n.rows == st.rows + b
      && n.mdStart == (if b == [] then st.mdStart else b[|b| - 1].md)
  {
    var full := Generate(seg, st.mdStart, step);
    var block := Block(seg, step, st);
    if block == [] then Loop(st.mdStart, st.rows, st.generated + |full|)
    else
      assert (st.rows + block)[..|st.rows|] == st.rows;
      Loop(block[|block| - 1].md, st.rows + block, st.generated + |full|)
  }

  /** The loop from segment `i` on. */
  function AssembleFrom(segs: seq<Segment>, i: nat, step: real, st: Loop): (a: Loop)
    requires i <= |segs| && Sampleable(segs, step)
    ensures |a.rows| + st.generated <= |st.rows| + a.generated
    ensures |st.rows| <= |a.rows| && a.rows[..|st.rows|] == st.rows
    ensures i < |segs| ==> a.rows != []
    ensures i == |segs| ==> a == st
    decreases |segs| - i
  {
    if i == |segs| then st
    else
      var next := Advance(segs[i], step, st);
      var a := AssembleFrom(segs, i + 1, step, next);
      assert a.rows[..|st.rows|] == next.rows[..|next.rows|][..|st.rows|];
      a
  }

  /** Assembling two lists of segments one after the other is assembling the second from the
      state the first leaves: the loop carries nothing but its state from one segment to the
      next. */
  lemma {:induction false} AssembleAppend(a: seq<Segment>, b: seq<Segment>, i: nat, step: real, st: Loop)
    requires i <= |a| && Sampleable(a + b, step)
    ensures Sampleable(a, step) && Sampleable(b, step)
    ensures AssembleFrom(a + b, i, step, st) == AssembleFrom(b, 0, step, AssembleFrom(a, i, step, st))
    decreases |a| - i
  {
    SampleableParts(a, b, step);
    if i == |a| {
      AssembleShift(a, b, 0, step, st);
    } else {
      var n := Advance(a[i], step, st);
      AssembleAppend(a, b, i + 1, step, n);
      AssembleAppendStep(a, b, i, step, st);
    }
  }

  /** The inductive step of AssembleAppend: both loops make the same first pass. */
  lemma AssembleAppendStep(a: seq<Segment>, b: seq<Segment>, i: nat, step: real, st: Loop)
    requires i < |a| && Sampleable(a + b, step) && Sampleable(a, step) && Sampleable(b, step)
    ensures var n := Advance(a[i], step, st);
      && AssembleFrom(a + b, i, step, st) == AssembleFrom(a + b, i + 1, step, n)
      && AssembleFrom(a, i, step, st) == AssembleFrom(a, i + 1, step, n)
  {
    assert (a + b)[i] == a[i];
  }

  lemma SampleableParts(a: seq<Segment>, b: seq<Segment>, step: real)
    requires Sampleable(a + b, step)
    ensures Sampleable(a, step) && Sampleable(b, step)
  {
    forall k | 0 <= k < |a| ensures Length(a[k]) <= LengthEps || step != 0.0 {
      assert (a + b)[k] == a[k];
    }
    forall k | 0 <= k < |b| ensures Length(b[k]) <= LengthEps || step != 0.0 {
      assert (a + b)[|a| + k] == b[k];
    }
  }

  /** The loop over `a + b` from the end of `a` on is the loop over `b`. */
  lemma {:induction false} AssembleShift(a: seq<Segment>, b: seq<Segment>, j: nat, step: real, st: Loop)
    requires j <= |b| && Sampleable(a + b, step) && Sampleable(b, step)
    ensures AssembleFrom(a + b, |a| + j, step, st) == AssembleFrom(b, j, step, st)
    decreases |b| - j
  {
    if j < |b| {
      assert (a + b)[|a| + j] == b[j];
      var n := Advance(b[j], step, st);
      calc {
        AssembleFrom(a + b, |a| + j, step, st);
        AssembleFrom(a + b, |a| + j + 1, step, n);
        { AssembleShift(a, b, j + 1, step, n); }
        AssembleFrom(b, j + 1, step, n);
        AssembleFrom(b, j, step, st);
      }
    } else {
      assert |a| + j == |a + b|;
    }
  }

  /** The rows of a survey whose last segment is `seg`: the rows of the segments before it,
      followed by the rows `seg` generates from the last of those depths without its first
      row, which repeats that depth. The first segment's rows are whole (FirstBlockWhole). */
  lemma {:induction false} LaterBlockAppended(pre: seq<Segment>, seg: Segment, step: real)
    requires pre != [] && step > 0.0
    ensures Sampleable(pre, step) && Sampleable(pre + [seg], step)
    ensures var p := Assemble(pre, step).rows;
      && p != []
      && Assemble(pre + [seg], step).rows == p + Generate(seg, p[|p| - 1].md, step)[1..]
  {
    PositiveStepSampleable(pre + [seg], step);
    AssembleSnoc(pre, seg, step);
    var p := Assemble(pre, step);
    AssemblyEndsAtStart(pre, step);
    var b := Block(seg, step, p);
    assert b == Generate(seg, p.mdStart, step)[1..];
    assert Advance(seg, step, p).rows == p.rows + b;
  }

  /** With a positive step the next segment of a non-empty list starts at the last kept depth. */
  lemma {:induction false} AssemblyEndsAtStart(segs: seq<Segment>, step: real)
    requires segs != [] && step > 0.0
    ensures Sampleable(segs, step)
    ensures var a := Assemble(segs, step); a.rows != [] && a.mdStart == a.rows[|a.rows| - 1].md
  {
    PositiveStepSampleable(segs, step);
    AssemblyRises(segs, 0, step, Loop(0.0, [], 0));
    ChainedEnd(Assemble(segs, step));
  }

  lemma ChainedEnd(st: Loop)
    requires Chained(st) && st.rows != []
    ensures st.mdStart == st.rows[|st.rows| - 1].md
  {
  }

  /** Whatever the step, the last segment makes one more pass of the loop from the state the
      segments before it leave; with Advance this gives the rows segment by segment. */
  lemma {:induction false} AssembleSnoc(pre: seq<Segment>, seg: Segment, step: real)
    requires Sampleable(pre + [seg], step)
    ensures Sampleable(pre, step) && (Length(seg) <= LengthEps || step != 0.0)
    ensures Assemble(pre + [seg], step) == Advance(seg, step, Assemble(pre, step))
  {
    AssembleAppend(pre, [seg], 0, step, Loop(0.0, [], 0));
    assert [seg][0] == seg;
    AssembleOne(seg, step, Assemble(pre, step));
  }

  /** Assembling one segment is one pass of the loop. */
  lemma AssembleOne(seg: Segment, step: real, st: Loop)
    requires Sampleable([seg], step)
    ensures AssembleFrom([seg], 0, step, st) == Advance(seg, step, st)
  {
    assert [seg][0] == seg;
    var n := Advance(seg, step, st);
    assert AssembleFrom([seg], 1, step, n) == n;
  }

  /** All rows the segments produce, before de-duplication. */
  function Assemble(segs: seq<Segment>, step: real): Loop
    requires Sampleable(segs, step)
  {
    AssembleFrom(segs, 0, step, Loop(0.0, [], 0))
  }

  /** `stations`: an error when there are no segments, else the assembled rows without
      repeated depths. */
  function Stations(segs: seq<Segment>, step: real): (r: Result<seq<Station>, string>)
    requires Sampleable(segs, step)
    ensures r.Err? <==> segs == []
    ensures r.Ok? ==> |r.value| <= Assemble(segs, step).generated
    ensures r.Ok? ==> DistinctMds(r.value)
  {
    var a := Assemble(segs, step);
    DedupDistinct(a.rows);
    if a.rows == [] then Err("trajectory contains no stations")
    else Ok(DedupKeepLast(a.rows))
  }

  /** The first segment contributes its whole block, sampled from depth 0. */
  lemma FirstBlockWhole(segs: seq<Segment>, step: real)
    requires segs != [] && Sampleable(segs, step)
    ensures var first := Generate(segs[0], 0.0, step);
      |first| <= |Assemble(segs, step).rows| && Assemble(segs, step).rows[..|first|] == first
  {
  }

  /** Invariant of the loop with a positive step: the kept rows rise strictly from 0 and end
      at the depth the next block starts from; before any row is kept that depth is 0. */
  predicate Chained(st: Loop) {
    ChainedRows(st.rows, st.mdStart)
  }

  predicate ChainedRows(rows: seq<Station>, mdStart: real) {
    && StrictlyIncreasingMds(rows)
    && (rows == [] ==> mdStart == 0.0)
    && (rows != [] ==> rows[|rows| - 1].md == mdStart && rows[0].md == 0.0)
  }

  /** A block generated with a positive step rises strictly from the depth it starts at;
      without its first row it lies wholly above that depth. */
  lemma BlockRises(seg: Segment, step: real, st: Loop)
    requires step > 0.0
    ensures var block := Block(seg, step, st);
      && StrictlyIncreasingMds(block)
      && (st.rows == [] ==> block[0].md == st.mdStart)
      && (st.rows != [] ==> forall k :: 0 <= k < |block| ==> block[k].md > st.mdStart)
  {
    var full := Generate(seg, st.mdStart, step);
    GridIncreasing(st.mdStart, Length(seg), step);
    assert full[0].md == st.mdStart;
    if st.rows != [] {
      assert forall k :: 0 <= k < |full| - 1 ==> full[1..][k] == full[k + 1];
    }
  }

  /** Appending a block that starts where the kept rows end (or, for the first block, at 0)
      keeps the invariant. */
  lemma ChainStep(acc: seq<Station>, mdStart: real, block: seq<Station>)
    requires ChainedRows(acc, mdStart) && block != [] && StrictlyIncreasingMds(block)
    requires acc == [] ==> block[0].md == mdStart
    requires acc != [] ==> forall k :: 0 <= k < |block| ==> block[k].md > mdStart
    ensures ChainedRows(acc + block, block[|block| - 1].md)
  {
    var next := acc + block;
    forall p, q | 0 <= p < q < |next|
      ensures next[p].md < next[q].md
    {
      if q >= |acc| && p < |acc| {
        assert acc[p].md <= acc[|acc| - 1].md;
        assert next[q] == block[q - |acc|];
      }
    }
  }

  /** With a positive step one pass keeps the invariant. */
  lemma AdvanceChained(seg: Segment, step: real, st: Loop)
    requires step > 0.0 && Chained(st)
    ensures Chained(Advance(seg, step, st))
  {
    var block := Block(seg, step, st);
    var n := Advance(seg, step, st);
    BlockRises(seg, step, st);
    if block != [] {
      ChainStep(st.rows, st.mdStart, block);
      assert n.rows == st.rows + block && n.mdStart == block[|block| - 1].md;
    } else {
      assert n.rows == st.rows && n.mdStart == st.mdStart;
    }
  }

  /** With a positive step the loop keeps its invariant to the end. */
  lemma {:induction false} AssemblyRises(segs: seq<Segment>, i: nat, step: real, st: Loop)
    requires i <= |segs| && step > 0.0 && Sampleable(segs, step) && Chained(st)
    ensures Chained(AssembleFrom(segs, i, step, st))
    decreases |segs| - i
  {
    if i < |segs| {
      AdvanceChained(segs[i], step, st);
      AssemblyRises(segs, i + 1, step, Advance(segs[i], step, st));
    }
  }

  /** With a positive step every segment can be sampled. */
  lemma PositiveStepSampleable(segs: seq<Segment>, step: real)
    requires step > 0.0
    ensures Sampleable(segs, step)
  {
  }

  /** With a positive step the assembled depths already rise strictly from 0, so the
      de-duplication removes nothing. */
  lemma StationsKeepEveryRow(segs: seq<Segment>, step: real)
    requires segs != [] && step > 0.0
    ensures Sampleable(segs, step)
    ensures var rows := Assemble(segs, step).rows;
      && Stations(segs, step) == Ok(rows)
      && StrictlyIncreasingMds(rows)
      && rows[0].md == 0.0
  {
    PositiveStepSampleable(segs, step);
    AssemblyRises(segs, 0, step, Loop(0.0, [], 0));
    DedupDistinctIsIdentity(Assemble(segs, step).rows);
  }
}

=== FILE: welltrack_batch.dfy ===
/** The batch evaluator: every selected well-track record is planned in turn, giving one
    summary row per record and a plan for each record the planner accepts. The planner
    itself is a parameter, so that this module states only what the batch loop adds. */
module WelltrackBatch {
  import opened Wrappers
  import opened Numeric
  import opened Models
  import opened Text
  import opened EclipseWelltrack
  import Planner
  import opened Seqs

  /** What the batch needs from outside: the elementary functions (for `np.hypot`), the
      planner, the text of the errors the planner and the target conversion raise
      (`str(exc)`), and `f"{v:.2f}"`. */
  datatype BatchEnv = BatchEnv(
    e: Elementary,
    plan: (Targets, TrajectoryConfig) -> Result<Planner.PlannerResult, string>,
    targetsMessage: TargetsError -> string,
    fixed2: Float -> string)

  /** One row of the batch summary table, column by column. */
  datatype BatchRow = BatchRow(
    well: string,
    pointCount: nat,
    status: string,
    trajectoryType: string,
    complexity: string,
    offsetT1: string,
    entryInc: string,
    holdInc: string,
    maxDls: string,
    problem: string)

  /** `SuccessfulWellPlan`. */
  datatype SuccessfulPlan = SuccessfulPlan(
    name: string,
    surface: TargetPoint,
    t1: TargetPoint,
    t3: TargetPoint,
    result: Planner.PlannerResult,
    config: TrajectoryConfig)

  /** One call of the progress callback: the 1-based position, the total, the well name. */
  datatype Progress = Progress(index: nat, total: nat, name: string)

  datatype BatchOutcome = BatchOutcome(rows: seq<BatchRow>, successes: seq<SuccessfulPlan>, progress: seq<Progress>)

  const NotComputed: string := "Не рассчитана"
  const FormatFailure: string := "Ошибка формата"
  const PlanFailure: string := "Ошибка расчета"
  const StatusOk: string := "OK"
  const Dash: string := "—"

  const CountMessagePrefix: string := "Ожидалось 3 точки (S, t1, t3), получено "

  /** `_base_row`: the well name and point count, status "not computed", a dash in every
      result column and no problem text. */
  function BaseRow(r: WelltrackRecord): (row: BatchRow)
    ensures row.well == r.name && row.pointCount == |r.points|
    ensures row.status == NotComputed && row.problem == ""
    ensures && row.trajectoryType == Dash && row.complexity == Dash && row.offsetT1 == Dash
            && row.entryInc == Dash && row.holdInc == Dash && row.maxDls == Dash
  {
    BatchRow(r.name, |r.points|, NotComputed, Dash, Dash, Dash, Dash, Dash, Dash, "")
  }

  /** The problem text of a record without exactly three points. */
  function CountMessage(n: nat): (m: string)
    ensures StartsWith(m, CountMessagePrefix)
    ensures m[|m| - 1] == '.'
    ensures var digits := m[|CountMessagePrefix|..|m| - 1];
      AllDigits(digits) && DecimalValue(digits) == n
  {
    var m := CountMessagePrefix + DecimalString(n) + ".";
    assert m[..|CountMessagePrefix|] == CountMessagePrefix;
    assert m[|CountMessagePrefix|..|m| - 1] == DecimalString(n);
    DecimalRoundTrip(n);
    m
  }

  /** `np.hypot(t1.x - surface.x, t1.y - surface.y)` in IEEE arithmetic. */
  function HorizontalOffset(e: Elementary, s: TargetPoint, t1: TargetPoint): (d: Float)
    ensures d.Finite? <==> IsFinite(s.x) && IsFinite(s.y) && IsFinite(t1.x) && IsFinite(t1.y)
    ensures d.Finite? ==> d.value == Norm(e, t1.x.value - s.x.value, t1.y.value - s.y.value)
    ensures !d.NegInf?
  {
    Hypot(e, Sub(t1.x, s.x), Sub(t1.y, s.y))
  }

  /** An infinite east difference makes the offset +inf whatever the north coordinates are,
      NaN included; an infinity on both sides of the same axis with the same sign is NaN
      and does not. */
  lemma InfiniteOffsetWins(e: Elementary, s: TargetPoint, t1: TargetPoint)
    ensures t1.x == PosInf && s.x.Finite? ==> HorizontalOffset(e, s, t1) == PosInf
    ensures t1.x == PosInf && s.x == PosInf && t1.y.Finite? && s.y.Finite? ==> HorizontalOffset(e, s, t1).NaN?
    ensures (t1.x.NaN? || s.x.NaN?) && t1.y.Finite? && s.y.Finite? ==> HorizontalOffset(e, s, t1).NaN?
  {
  }

  /** The summary's `max_dls_total_deg_per_30m`, NaN when it holds no value (only when no
      station has a DLS). */
  function MaxDlsValue(s: Planner.Summary): Float {
    match s.maxDlsTotal
    case Some(v) => Finite(v)
    case None => NaN
  }

  /** The row of a planned well. The planner's summary holds neither a trajectory type, a
      complexity nor a hold inclination, so those columns keep their fallbacks. */
  function OkRow(env: BatchEnv, r: WelltrackRecord, t: Targets, res: Planner.PlannerResult): BatchRow {
    BaseRow(r).(
      status := StatusOk,
      offsetT1 := env.fixed2(HorizontalOffset(env.e, t.surface, t.t1)),
      entryInc := env.fixed2(Finite(res.summary.entryInc)),
      holdInc := env.fixed2(Finite(0.0)),
      maxDls := env.fixed2(MaxDlsValue(res.summary)),
      problem := "")
  }

  /** `_evaluate_record`. A record without three points is a format error and is never
      planned; a failed target conversion or plan is a calculation error carrying the
      error text; otherwise the row is filled in and the plan is kept. */
  function EvaluateRecord(env: BatchEnv, r: WelltrackRecord, c: TrajectoryConfig): (out: (BatchRow, Option<SuccessfulPlan>))
    ensures out.0.well == r.name && out.0.pointCount == |r.points|
    ensures out.1.Some? <==> out.0.status == StatusOk
    ensures out.1.Some? ==> out.1.value.name == r.name && out.1.value.config == c
    ensures |r.points| != 3 <==> out.0.status == FormatFailure
    ensures |r.points| != 3 ==> out.0.problem == CountMessage(|r.points|)
    ensures |r.points| == 3 ==> match PointsToTargets(r.points, StrictFileOrder)
      case Err(te) => out.0.status == PlanFailure && out.0.problem == env.targetsMessage(te)
      case Ok(t) => match env.plan(t, c)
        case Err(m) => out.0.status == PlanFailure && out.0.problem == m
        case Ok(res) =>
          && out.0.status == StatusOk && out.0.problem == ""
          && out.0.entryInc == env.fixed2(Finite(res.summary.entryInc))
          && out.0.maxDls == env.fixed2(MaxDlsValue(res.summary))
          && out.0.offsetT1 == env.fixed2(HorizontalOffset(env.e, t.surface, t.t1))
          && out.1 == Some(SuccessfulPlan(r.name, t.surface, t.t1, t.t3, res, c))
  {
    var base := BaseRow(r);
    if |r.points| != 3 then
      (base.(status := FormatFailure, problem := CountMessage(|r.points|)), None)
    else
      match PointsToTargets(r.points, StrictFileOrder)
      case Err(te) => (base.(status := PlanFailure, problem := env.targetsMessage(te)), None)
      case Ok(t) =>
        match env.plan(t, c)
        case Err(m) => (base.(status := PlanFailure, problem := m), None)
        case Ok(res) =>
          (OkRow(env, r, t, res), Some(SuccessfulPlan(r.name, t.surface, t.t1, t.t3, res, c)))
  }

  /** A failed record's row is the base row with only its status and problem replaced; a
      planned record's row changes neither the well name, the point count, nor the type and
      complexity columns. */
  lemma RowKeepsBaseFields(env: BatchEnv, r: WelltrackRecord, c: TrajectoryConfig)
    ensures var row := EvaluateRecord(env, r, c).0;
      && (row.status != StatusOk ==> row == BaseRow(r).(status := row.status, problem := row.problem))
      && row.trajectoryType == Dash && row.complexity == Dash
      && row.status in {FormatFailure, PlanFailure, StatusOk}
  {
  }

  /** A record without three points never reaches the planner: whatever planner is
      supplied, its row and (absent) plan are the same. */
  lemma FormatErrorSkipsPlanner(env1: BatchEnv, env2: BatchEnv, r: WelltrackRecord, c: TrajectoryConfig)
    requires |r.points| != 3
    ensures EvaluateRecord(env1, r, c) == EvaluateRecord(env2, r, c)
    ensures EvaluateRecord(env1, r, c).1.None?
  {
  }

  // ---------------------------------------------------------------- the batch

  /** The records whose name is selected, in input order. */
  function SelectRecords(records: seq<WelltrackRecord>, selected: set<string>): (sel: seq<WelltrackRecord>)
    ensures |sel| <= |records|
  {
    if records == [] then []
    else
      var rest := SelectRecords(records[1..], selected);
      if records[0].name in selected then [records[0]] + rest else rest
  }

  /** A record is selected exactly when it is one of the records and its name is selected. */
  lemma {:induction false} SelectMembership(records: seq<WelltrackRecord>, selected: set<string>, x: WelltrackRecord)
    ensures x in SelectRecords(records, selected) <==> x in records && x.name in selected
  {
    if records != [] {
      SelectMembership(records[1..], selected, x);
      assert records == [records[0]] + records[1..];
    }
  }

  /** Every selected record has a selected name. */
  lemma SelectedNames(records: seq<WelltrackRecord>, selected: set<string>)
    ensures var sel := SelectRecords(records, selected);
      forall k :: 0 <= k < |sel| ==> sel[k].name in selected
  {
    var sel := SelectRecords(records, selected);
    forall k | 0 <= k < |sel|
      ensures sel[k].name in selected
    {
      SelectMembership(records, selected, sel[k]);
    }
  }

  /** Selection distributes over concatenation, so the selected records keep their
      relative order. */
  lemma {:induction false} SelectAppend(a: seq<WelltrackRecord>, b: seq<WelltrackRecord>, selected: set<string>)
    ensures SelectRecords(a + b, selected) == SelectRecords(a, selected) + SelectRecords(b, selected)
  {
    if a == [] {
      assert a + b == b;
    } else {
      SelectAppend(a[1..], b, selected);
      AppendTail(a, b);
      var h := if a[0].name in selected then [a[0]] else [];
      AppendAssoc(h, SelectRecords(a[1..], selected), SelectRecords(b, selected));
    }
  }

  /** Selecting every name keeps every record. */
  lemma {:induction false} SelectAllKeepsAll(records: seq<WelltrackRecord>, selected: set<string>)
    requires forall k :: 0 <= k < |records| ==> records[k].name in selected
    ensures SelectRecords(records, selected) == records
  {
    if records != [] {
      SelectAllKeepsAll(records[1..], selected);
    }
  }

  /** The second components present from position `i` on, in order: how `evaluate`
      collects the plans of the records that produced one. */
  function CollectedFrom<R, P>(evs: seq<(R, Option<P>)>, i: nat): (s: seq<P>)
    requires i <= |evs|
    ensures |s| <= |evs| - i
    decreases |evs| - i
  {
    if i == |evs| then []
    else (if evs[i].1.Some? then [evs[i].1.value] else []) + CollectedFrom(evs, i + 1)
  }

  /** The positions from `i` on that hold a present value, in order. */
  function PresentFrom<R, P>(evs: seq<(R, Option<P>)>, i: nat): (ps: seq<nat>)
    requires i <= |evs|
    ensures |ps| == |CollectedFrom(evs, i)|
    ensures forall k :: 0 <= k < |ps| ==> i <= ps[k] < |evs|
    decreases |evs| - i
  {
    if i == |evs| then []
    else (if evs[i].1.Some? then [i] else []) + PresentFrom(evs, i + 1)
  }

  /** Position `ps[k]` of `evs` holds the value `s[k]`, for every `k`. */
  ghost predicate Picks<R, P>(evs: seq<(R, Option<P>)>, ps: seq<nat>, s: seq<P>)
  {
    |ps| == |s| && forall k :: 0 <= k < |ps| ==> ps[k] < |evs| && evs[ps[k]].1 == Some(s[k])
  }

  lemma PrependPicks<R, P>(evs: seq<(R, Option<P>)>, x: nat, ps: seq<nat>, v: P, s: seq<P>)
    requires x < |evs| && evs[x].1 == Some(v)
    requires Picks(evs, ps, s)
    ensures Picks(evs, [x] + ps, [v] + s)
  {
    var ps', s' := [x] + ps, [v] + s;
    forall k | 1 <= k < |ps'|
      ensures ps'[k] < |evs| && evs[ps'[k]].1 == Some(s'[k])
    {
      assert ps'[k] == ps[k - 1] && s'[k] == s[k - 1];
    }
  }

  lemma {:induction false} PresentPick<R, P>(evs: seq<(R, Option<P>)>, i: nat)
    requires i <= |evs|
    ensures Picks(evs, PresentFrom(evs, i), CollectedFrom(evs, i))
    decreases |evs| - i
  {
    if i < |evs| {
      PresentPick(evs, i + 1);
      var rest, st := PresentFrom(evs, i + 1), CollectedFrom(evs, i + 1);
      if evs[i].1.Some? {
        assert PresentFrom(evs, i) == [i] + rest;
        assert CollectedFrom(evs, i) == [evs[i].1.value] + st;
        PrependPicks(evs, i, rest, evs[i].1.value, st);
      } else {
        assert PresentFrom(evs, i) == rest;
        assert CollectedFrom(evs, i) == st;
      }
    }
  }

  /** Each position is smaller than every later one. */
  predicate Increasing(ps: seq<nat>)
  {
    forall k, l :: 0 <= k < l < |ps| ==> ps[k] < ps[l]
  }

  lemma PrependIncreasing(x: nat, rest: seq<nat>)
    requires Increasing(rest)
    requires forall k :: 0 <= k < |rest| ==> x < rest[k]
    ensures Increasing([x] + rest)
  {
    var ps := [x] + rest;
    forall k, l | 0 <= k < l < |ps|
      ensures ps[k] < ps[l]
    {
      assert ps[l] == rest[l - 1];
      if k > 0 {
        assert ps[k] == rest[k - 1];
      }
    }
  }

  lemma {:induction false} PresentIncreasing<R, P>(evs: seq<(R, Option<P>)>, i: nat)
    requires i <= |evs|
    ensures Increasing(PresentFrom(evs, i))
    decreases |evs| - i
  {
    if i < |evs| {
      PresentIncreasing(evs, i + 1);
      var rest := PresentFrom(evs, i + 1);
      if evs[i].1.Some? {
        assert PresentFrom(evs, i) == [i] + rest;
        PrependIncreasing(i, rest);
      } else {
        assert PresentFrom(evs, i) == rest;
      }
    }
  }

  lemma {:induction false} PresentComplete<R, P>(evs: seq<(R, Option<P>)>, i: nat)
    requires i <= |evs|
    ensures forall j :: i <= j < |evs| && evs[j].1.Some? ==> j in PresentFrom(evs, i)
    decreases |evs| - i
  {
    if i < |evs| {
      PresentComplete(evs, i + 1);
      var ps, rest := PresentFrom(evs, i), PresentFrom(evs, i + 1);
      if evs[i].1.Some? {
        assert ps == [i] + rest;
        assert ps[0] == i;
      } else {
        assert ps == rest;
      }
    }
  }

  /** What `_evaluate_record` returns for one record: its row and, for an OK row, the plan. */
  type Evaluation = (BatchRow, Option<SuccessfulPlan>)

  /** `_evaluate_record` applied to every selected record, in order. */
  function Evaluations(env: BatchEnv, sel: seq<WelltrackRecord>, c: TrajectoryConfig): (evs: seq<Evaluation>)
    ensures |evs| == |sel|
    ensures forall k :: 0 <= k < |sel| ==> (evs[k].1.Some? <==> evs[k].0.status == StatusOk)
    ensures forall k :: 0 <= k < |sel| ==> evs[k].0.well == sel[k].name
    ensures forall k :: 0 <= k < |sel| ==> (evs[k].0.status == FormatFailure <==> |sel[k].points| != 3)
    ensures forall k :: 0 <= k < |sel| && evs[k].1.Some? ==> evs[k].1.value.name == sel[k].name
    ensures forall k :: 0 <= k < |sel| ==> evs[k] == EvaluateRecord(env, sel[k], c)
  {
    seq(|sel|, k requires 0 <= k < |sel| => EvaluateRecord(env, sel[k], c))
  }

  /** `evaluate`: the selected records are evaluated in order, one row and one progress
      report each; the successes are collected as they come. */
  function Evaluate(env: BatchEnv, records: seq<WelltrackRecord>, selected: set<string>, c: TrajectoryConfig): (out: BatchOutcome)
    ensures var sel := SelectRecords(records, selected);
      && |out.rows| == |sel| && |out.progress| == |sel|
      && (forall k :: 0 <= k < |sel| ==> out.rows[k].well == sel[k].name && out.rows[k].well in selected)
      && (forall k :: 0 <= k < |sel| ==> out.progress[k] == Progress(k + 1, |sel|, sel[k].name))
      && (forall k :: 0 <= k < |sel| ==> (out.rows[k].status == FormatFailure <==> |sel[k].points| != 3))
      && (forall k :: 0 <= k < |sel| ==> out.rows[k] == EvaluateRecord(env, sel[k], c).0)
      && |out.successes| <= |sel|
  {
    var sel := SelectRecords(records, selected);
    SelectedNames(records, selected);
    var evs := Evaluations(env, sel, c);
    BatchOutcome(
      seq(|sel|, k requires 0 <= k < |sel| => evs[k].0),
      CollectedFrom(evs, 0),
      seq(|sel|, k requires 0 <= k < |sel| => Progress(k + 1, |sel|, sel[k].name)))
  }

  /** The successful plans of a batch are exactly those of its OK rows, in row order: each
      is the plan the evaluation of that row's record returned. */
  lemma SuccessesAreOkRows(env: BatchEnv, records: seq<WelltrackRecord>, selected: set<string>, c: TrajectoryConfig) returns (idx: seq<nat>)
    ensures var out := Evaluate(env, records, selected, c);
      && |idx| == |out.successes|
      && (forall k :: 0 <= k < |idx| ==>
            && idx[k] < |out.rows| && out.rows[idx[k]].status == StatusOk
            && out.successes[k].name == out.rows[idx[k]].well
            && idx[k] < |SelectRecords(records, selected)|
            && EvaluateRecord(env, SelectRecords(records, selected)[idx[k]], c).1 == Some(out.successes[k]))
      && Increasing(idx)
      && (forall j :: 0 <= j < |out.rows| && out.rows[j].status == StatusOk ==> j in idx)
  {
    var sel := SelectRecords(records, selected);
    var evs := Evaluations(env, sel, c);
    idx := PresentFrom(evs, 0);
    PresentPick(evs, 0);
    PresentIncreasing(evs, 0);
    PresentComplete(evs, 0);
  }
}

=== FILE: wrappers.dfy ===
/** Failure-compatible Option and Result types shared by every module of the model.
    Python's exceptions become `Err` values; Python's `None` and NumPy's NaN become `None`. */
module Wrappers {

  datatype Option<+T> = None | Some(value: T) {

    predicate IsFailure() {
      None?
    }

    function PropagateFailure<U>(): Option<U>
      requires None?
    {
      None
    }

    function Extract(): T
      requires Some?
    {
      value
    }

    /** The carried value, or `default` when there is none. */
    function GetOr(default: T): T {
      match this
      case Some(v) => v
      case None => default
    }
  }

  datatype Result<+T, +E> = Ok(value: T) | Err(error: E) {

    predicate IsFailure() {
      Err?
    }

    function PropagateFailure<U>(): Result<U, E>
      requires Err?
    {
      Err(error)
    }

    function Extract(): T
      requires Ok?
    {
      value
    }
  }

  /** A check that either passes or carries the error it raised. */
  datatype Outcome<+E> = Pass | Fail(error: E) {

    predicate IsFailure() {
      Fail?
    }

    function PropagateFailure<U>(): Result<U, E>
      requires Fail?
    {
      Err(error)
    }
  }
}
